=== FILE: README.md ===
# Quality culture barometer — a Dafny model of its scoring and validation rules

The quality culture barometer is a survey toolkit. It scores questionnaires on an organisation's quality culture, checks that the instrument is psychometrically sound, and tracks improvement actions. This project models the parts of it that decide numbers and verdicts:

- **Scoring.** It covers:
  - the Net Promoter Quality Score (NPQS) with its promoter, passive and detractor classes;
  - the weighted 1–5 maturity level;
  - the per-level distribution;
  - the EFQM RADAR weighted sum;
  - the statistical validator's reliability and validity verdicts;
  - benchmark percentiles and performance labels.

  Module `Scoring`; `src/core/scoring_system.py`.
- **Validation.** It covers:
  - Cronbach's alpha, composite reliability and average variance extracted (AVE);
  - the reliability, sample-adequacy, content, discriminant and dimensionality verdicts;
  - item analysis with problematic-item flags;
  - the ordered recommendation list;
  - the full validation run.

  Module `Validation`; `src/core/validation_framework.py`.
- **Analysis pipeline.** It covers:
  - per-respondent dimension scores (row mean × 20) and the four-level maturity grid;
  - the pipeline NPQS over a "recommend" column with missing answers;
  - the completion rate and demographic column selection;
  - significant-correlation selection, trend direction, and cluster sizes, shares and profiles.

  Module `Pipeline`; `src/analytics/statistical_pipeline.py`.
- **Sector assessments.** It covers:
  - the pharmaceutical, healthcare and education domain tables;
  - domain scores and the ceiling-based 1–5 level;
  - critical areas, the five fixed recommendation checks and the compliance report.

  Module `Sectors`; `src/sectors/pharma_assessment.py`.
- **The PDCA improvement loop.** It is a state machine over a list of improvement actions. Actions are Planned, then In Progress, then Completed. The model covers the plan, do, check and act phases, the report counts and the strategic recommendations. Module `Pdca`; `src/continuous_improvement/pdca_loop.py`.
- **The assessment engine.** It covers:
  - framework and methodology dispatch, the framework weight tables and the AFNOR category table;
  - item selection, including the list aliasing of the generic item bank;
  - the validation criteria of a generated assessment.

  Module `Engine`; `src/core/assessment_engine.py`.
- **Product tiers.** It covers the tier configurations, case-insensitive lookup, feature access, upgrade paths and the feature comparison table. Module `Versions`; `src/versions/version_manager.py`.

Shared modules:
- `Numeric`: sums, means, sample variance, counting, and Python's round-half-even on exact reals.
- `Text`: ASCII lower-casing, substring search and `str.replace(p, "")`.
- `Frames`: `Option`/`Result`, and column-major data frames with dimension structures.

Floating-point numbers are modelled as exact reals. Where the program's verdict depends on a value being NaN, `Coefficient` has an explicit not-finite case. The pipeline NPQS and the completion rate count missing answers, and `Option` values model them there.

Pearson correlation, skewness and item-total correlation cannot be computed without square roots. They are function parameters, and the model states only how their values are combined. For the same reason, loadings are taken as inputs in [0, 1].

Rounding is modelled only where a rounded value feeds a later decision or sum:
- `round(alpha, 3)` in the overall reliability verdict;
- the rounded correlations in discriminant validity;
- the rounded products summed in the maturity and RADAR scores.

## Model

| member | source | states |
|---|---|---|
| Scoring.CalculateNpqs | src/core/scoring_system.py:21-53 | NPQS lies in [-100, 100]; the counts are the answers at least 9, between 7 and 8, and at most 6, and together never exceed the answers; with answers the score is (promoters - detractors)/answers × 100 and each share is its count/answers × 100; shares are absent exactly when there are no answers, and then the score is 0 |
| Scoring.NpqsTopIff | src/core/scoring_system.py:34-43 | every answer is a promoter exactly when the NPQS before rounding is 100 |
| Scoring.NpqsBottomIff | src/core/scoring_system.py:34-43 | every answer is a detractor exactly when the NPQS before rounding is -100 |
| Scoring.CategoriesPartitionScale | src/core/scoring_system.py:17-37 | on integer answers 0..10 each answer falls in exactly one of the three classes |
| Scoring.FractionalAnswerUncounted | src/core/scoring_system.py:34-37 | an answer strictly between 8 and 9 is in no class, so the counts do not always add up to the total |
| Scoring.NpqsSharesTotal | src/core/scoring_system.py:39-52 | for answers on the 0..10 integer scale the three shares sum to 100 before rounding |
| Scoring.MaturityLevel | src/core/scoring_system.py:114-125 | the level rank is the clamped nearest level, with the 4.5/3.5/2.5/1.5 boundaries inclusive |
| Scoring.RankInjective | src/core/scoring_system.py:58-65 | distinct maturity levels have distinct ranks |
| Scoring.MaturityLevelMonotone | src/core/scoring_system.py:114-125 | a higher mean never gets a lower level |
| Scoring.MaturityBoundaryGoesUp | src/core/scoring_system.py:116-123 | a score exactly on a boundary gets the higher level |
| Scoring.WeightedColumns | src/core/scoring_system.py:79-85 | exactly the columns that have a weight are scored, and all columns when no weights are given |
| Scoring.CalculateMaturity | src/core/scoring_system.py:67-112 | empty input gives the no-responses result; an error (division by zero) exactly when the input is non-empty and no column has a weight; otherwise one entry per weighted column whose score is the column mean and whose weighted score is round(mean × weight, 2), at its own level; the overall score is the sum of the weighted scores divided by the weight total, NaN when that total is 0; the overall level is the level of the overall score, and the distribution is the per-column level tally |
| Scoring.TopAnswersAreOptimizing | src/core/scoring_system.py:67-125 | answering 5 everywhere gives an Optimizing organisation under the default weights |
| Scoring.DefaultWeightsAverage | src/core/scoring_system.py:71-104 | with the default weight 1 the overall score is the mean of the rounded column means and lies within 0.005 of the average column mean |
| Scoring.RoundedSumBounds | src/core/scoring_system.py:86-95 | rounding each term to 2 decimals moves the sum by at most 0.005 per term |
| Scoring.TallyCounts | src/core/scoring_system.py:127-133 | the count for level k is the number of answers whose level is k |
| Scoring.Distribution | src/core/scoring_system.py:127-133 | one tally per column, each summing to the number of rows |
| Scoring.CalculateRadar | src/core/scoring_system.py:146-175 | empty input gives total 0 and no scores; otherwise one score per RADAR criterion present, in criterion order, each the mean of its column, with weighted score round(0.25 × mean, 2), and the total is the sum of the weighted scores |
| Scoring.RadarTotalBounds | src/core/scoring_system.py:139-175 | an empty frame totals 0; otherwise the total is within 0.005 per criterion of 0.25 times the sum of the means of the criteria present |
| Scoring.RadarIgnoresAbsentCriteria | src/core/scoring_system.py:150-160 | a criterion missing from the responses gets no score |
| Scoring.CalculateReliability | src/core/scoring_system.py:184-211 | fewer than two columns give alpha 0 and not reliable; otherwise the alpha is the validator's unclamped Cronbach alpha, and the frame is reliable exactly when it is finite and at least the threshold |
| Scoring.ValidatorAgreesWithFramework | src/core/scoring_system.py:194-206 | where the validator alpha is finite the framework alpha is max(0, validator alpha); where it is not, the framework alpha is 0 |
| Scoring.ValidatorAlphaCanBeNegative | src/core/scoring_system.py:194-206 | a concrete two-item frame gives the validator alpha -2, which the framework would clamp to 0 |
| Scoring.ReliabilityReportsNegativeAlpha | src/core/scoring_system.py:184-211 | the framework reports that negative alpha unchanged and calls the frame unreliable |
| Scoring.ValidatorCompositeAgrees | src/core/scoring_system.py:266-281 | the validator's composite reliability equals the framework's on the same loadings |
| Scoring.ValidatorAveCanExceedOne | src/core/scoring_system.py:245-264 | for a single item the validator returns the variance as AVE, which can be 2 |
| Scoring.CalculateValidity | src/core/scoring_system.py:213-243 | one entry per fully present dimension, carrying the validator's AVE and composite reliability of that dimension; valid exactly when both reach their thresholds |
| Scoring.Percentile | src/core/scoring_system.py:330-353 | the percentile is one of 25, 50, 75 and 90, and 50 for every metric other than NPQS and maturity |
| Scoring.PercentileMonotone | src/core/scoring_system.py:330-353 | a higher score never gets a lower percentile |
| Scoring.AverageIsMedian | src/core/scoring_system.py:336-350 | a score equal to the industry average lands at the 50th percentile |
| Scoring.PerformanceLevel | src/core/scoring_system.py:355-363 | excellent exactly at 90 or above, good exactly in [75, 90), average exactly in [50, 75), needs improvement exactly below 50 |
| Scoring.PerformanceMonotone | src/core/scoring_system.py:355-363 | a higher percentile never gets a lower label |
| Scoring.BenchmarkPosition | src/core/scoring_system.py:303-328 | the entries are exactly the scored metrics that have an industry average, with difference = score - average |
| Scoring.BenchmarkConcat | src/core/scoring_system.py:303-328 | positions follow the order of the scores: the positions of a concatenation are the concatenated positions |
| Scoring.BenchmarkLabelsFollowScores | src/core/scoring_system.py:330-363 | of two positions for the same metric, the higher score never has the lower performance label |
| Validation.CronbachAlpha | src/core/validation_framework.py:251-264 | alpha is never negative; 0 for no rows, one row, fewer than two items, or a zero total variance; otherwise max(0, k/(k-1)·(1 - Σ item variances / total variance)) with sample variances |
| Validation.AlphaOfCopies | src/core/validation_framework.py:256-263 | k identical copies of a non-constant column have alpha 1 |
| Validation.AlphaOfConstantItems | src/core/validation_framework.py:256-260 | constant items have zero total variance and alpha 0 |
| Validation.AlphaOfConstantTotals | src/core/validation_framework.py:256-260 | items whose row totals never vary get alpha 0 |
| Validation.AlphaOfMirroredItems | src/core/validation_framework.py:256-260 | the non-constant items [1, 2] and [2, 1] total 3 on every row and get alpha 0 |
| Validation.CompositeReliability | src/core/validation_framework.py:266-286 | for non-negative loadings the value lies in [0, 1) and is 0 exactly when the loadings sum to 0 |
| Validation.CompositeReliabilityAtLeastHalf | src/core/validation_framework.py:276-286 | for loadings in [0, 1] with a positive sum the composite reliability is at least one half |
| Validation.CompositeReliabilityOfEqualLoadings | src/core/validation_framework.py:276-286 | n equal positive loadings give n/(n+1) |
| Validation.AverageVarianceExtracted | src/core/validation_framework.py:288-302 | for loadings in [0, 1] the AVE lies in [0, 1] |
| Validation.AveZeroIff | src/core/validation_framework.py:266-302 | for non-negative loadings AVE is 0 exactly when every loading is 0, and exactly when the composite reliability is 0 |
| Validation.AveMonotone | src/core/validation_framework.py:288-302 | raising loadings never lowers AVE |
| Validation.ScoredConcat | src/core/validation_framework.py:71-73 | the scored dimensions of a concatenation are the concatenation of the scored dimensions |
| Validation.AssessReliability | src/core/validation_framework.py:50-97 | entries only for fully present dimensions; each alpha entry is the dimension alpha rounded to 3 decimals, acceptable exactly when the exact alpha reaches the threshold; each composite entry is the composite reliability rounded to 3 decimals, acceptable exactly when the exact value reaches the same threshold; the overall verdict holds exactly when every rounded alpha reaches it |
| Validation.CompositeVerdictBounds | src/core/validation_framework.py:81-89 | with a threshold of at most one half a dimension whose loadings do not all vanish passes the composite check; with a threshold of 1 or more none does |
| Validation.OverallWhenNothingScored | src/core/validation_framework.py:92-95 | with no dimension scored the overall verdict is true |
| Validation.AcceptableImpliesOverall | src/core/validation_framework.py:76-95 | for a threshold with at most three decimals, if every dimension is acceptable the rounded overall verdict also holds |
| Validation.OverallCanDisagree | src/core/validation_framework.py:76-95 | an alpha of 0.6996 is not acceptable, yet rounds to 0.700 and passes the overall check |
| Validation.AssessSampleAdequacy | src/core/validation_framework.py:221-249 | no columns is an error (division by zero); otherwise the counts are the rows and the columns, ratio × items = responses, the 5:1, 10:1 and 20:1 flags hold exactly when responses reach 5, 10 and 20 per item, and the recommended minimum is max(200, 10 per item) |
| Validation.RatioRule | src/core/validation_framework.py:235-244 | for p items the rule n >= c·p holds exactly when the ratio n/p is at least c |
| Validation.RecommendedMinimumSuffices | src/core/validation_framework.py:236-248 | a sample of the recommended minimum meets the 10:1 rule |
| Validation.AssessContentValidity | src/core/validation_framework.py:304-315 | coverage is adequate exactly when every dimension has at least 3 items |
| Validation.AssessDiscriminantValidity | src/core/validation_framework.py:317-333 | every ordered pair of distinct fully present dimensions has an entry and every entry is such a pair; valid exactly when every recorded correlation is below 0.85 in absolute value |
| Validation.DiscriminantSymmetric | src/core/validation_framework.py:321-330 | when a pair has an entry, the reversed pair has one too |
| Validation.DiscriminantVacuous | src/core/validation_framework.py:317-333 | with at most one dimension discriminant validity holds |
| Validation.AssessValidity | src/core/validation_framework.py:99-139 | a KeyError exactly when a structured item is missing, otherwise a ValueError exactly when there is no item or no row; a result scores every dimension, and its content, convergent and discriminant parts are those of their own assessments |
| Validation.ConvergentValidity | src/core/validation_framework.py:119-128 | one entry per fully present dimension, carrying its AVE rounded to 3 decimals and acceptable exactly when the exact AVE reaches the threshold |
| Validation.ConvergentConcat | src/core/validation_framework.py:119-128 | convergent entries follow the order of the dimensions: the entries of a concatenation are the concatenated entries |
| Validation.AssessDimensionality | src/core/validation_framework.py:141-176 | a missing item is an error; otherwise adequate exactly when KMO > 0.6 (strict) and Bartlett is significant, and the theoretical factor count is the number of dimensions |
| Validation.DimensionalityAlwaysAdequate | src/core/validation_framework.py:358-364 | with the fixed KMO 0.8 and significant Bartlett results the verdict is always adequate |
| Validation.ItemAnalysis | src/core/validation_framework.py:178-219 | one statistics entry per column; the item-total correlation is present exactly when there is another column |
| Validation.ProblematicItems | src/core/validation_framework.py:374-385 | an item is flagged exactly when its item-total correlation is present and below 0.3, or its absolute skew exceeds 2 |
| Validation.ProblematicConcat | src/core/validation_framework.py:374-385 | flags follow column order: the flags of a concatenation are the concatenated flags |
| Validation.ProblematicDistinct | src/core/validation_framework.py:374-385 | with distinct item names no item is listed twice |
| Validation.ItemAnalysisProblematicDistinct | src/core/validation_framework.py:178-219 | item analysis names each column by its own name, so no item is flagged twice |
| Validation.Recommendations | src/core/validation_framework.py:401-426 | reliability exactly when the overall verdict fails; one per non-acceptable convergent dimension; sample, carrying the recommended minimum, exactly when the 10:1 rule fails; dimensionality exactly when it is not adequate; their number is the sum of these, and they come in that order |
| Validation.RecommendationsConvergentBlock | src/core/validation_framework.py:401-426 | right after the reliability recommendation come exactly the convergent recommendations, in the order of the dimensions |
| Validation.ConvergentRecommendationsConcat | src/core/validation_framework.py:410-414 | convergent recommendations follow the order of the entries |
| Validation.RunFullValidation | src/core/validation_framework.py:24-48 | succeeds exactly when every structured item is present, there is at least one item and at least one row; each part of the report is the result of its own assessment on the same inputs, and the recommendations are derived from those parts |
| Validation.CleanRunIff | src/core/validation_framework.py:24-48 | a run recommends nothing exactly when the rounded reliability verdict holds, every convergent entry is acceptable and the 10:1 rule holds |
| Pipeline.Level4Of | src/analytics/statistical_pipeline.py:281-290 | the level's floor is at most the score and every higher level's floor is above it |
| Pipeline.Level4Monotone | src/analytics/statistical_pipeline.py:281-290 | a higher score never gets a lower level |
| Pipeline.Level4BoundaryGoesUp | src/analytics/statistical_pipeline.py:283-288 | a score exactly at 80, 60 or 40 gets the higher level |
| Pipeline.RespondentScores | src/analytics/statistical_pipeline.py:84-91 | one score per respondent, 20 times the mean of that respondent's answers |
| Pipeline.RespondentScoreRange | src/analytics/statistical_pipeline.py:88 | answers in [1, 5] give a score in [20, 100] |
| Pipeline.RespondentScoreMonotone | src/analytics/statistical_pipeline.py:88 | answering higher on every item never lowers the score |
| Pipeline.RespondentScoreShift | src/analytics/statistical_pipeline.py:88 | adding c to every answer adds 20c to the score |
| Pipeline.ScoreOf | src/analytics/statistical_pipeline.py:86-98 | the mean score is finite exactly when there are items and rows, and the level is the four-level grade of the mean |
| Pipeline.DimensionScoresCoverage | src/analytics/statistical_pipeline.py:84-85 | a dimension gets an entry exactly when all its items are present |
| Pipeline.DimensionMeanRange | src/analytics/statistical_pipeline.py:88-92 | for answers in [1, 5] the mean dimension score lies in [20, 100] |
| Pipeline.PresentComplete | src/analytics/statistical_pipeline.py:114 | with no missing answers every answer is counted |
| Pipeline.NpqsOfAnswers | src/analytics/statistical_pipeline.py:112-124 | the total counts non-missing answers; a zero total makes every field 0; otherwise the promoter and detractor shares are the percentages of present answers of at least 9 and at most 6, the passive share is the rest, the shares sum to 100 and the score is promoters minus detractors, all before rounding |
| Pipeline.NpqsIgnoresMissing | src/analytics/statistical_pipeline.py:114 | a missing answer anywhere in the column changes nothing |
| Pipeline.NpqsAgreesWithScorer | src/analytics/statistical_pipeline.py:112-116 | on complete answers the pipeline NPQS equals the scorer's NPQS |
| Pipeline.LastRecommendColumn | src/analytics/statistical_pipeline.py:108 | the last column whose name contains "recommend", absent exactly when there is none |
| Pipeline.CalculateNpqsScore | src/analytics/statistical_pipeline.py:102-124 | an IndexError exactly when no column name contains "recommend"; otherwise the NPQS of the last such column |
| Pipeline.CompletionRate | src/analytics/statistical_pipeline.py:263-267 | the rate lies in [0, 100], is 0 for no rows, is 100 exactly when every row is complete, and is 0 exactly when none is, all before rounding |
| Pipeline.CompletionOfFullFrame | src/analytics/statistical_pipeline.py:263-267 | a frame without missing values has completion 100 |
| Pipeline.ValueCounts | src/analytics/statistical_pipeline.py:277 | the keys are exactly the values that occur, each mapped to its number of occurrences |
| Pipeline.Demographics | src/analytics/statistical_pipeline.py:269-279 | exactly the demographic columns appear, each with its value counts |
| Pipeline.ManagementIsDemographic | src/analytics/statistical_pipeline.py:271-272 | "Management" is selected because its lower-cased name contains "age" |
| Pipeline.DemographicIgnoresCase | src/analytics/statistical_pipeline.py:271-272 | the selection does not depend on letter case |
| Pipeline.StrengthOf | src/analytics/statistical_pipeline.py:334 | strong exactly when the absolute correlation exceeds 0.7 |
| Pipeline.SignificantCorrelations | src/analytics/statistical_pipeline.py:324-336 | every off-diagonal cell with absolute correlation above 0.5 is listed, and only such cells |
| Pipeline.SignificantSymmetric | src/analytics/statistical_pipeline.py:328-335 | for a symmetric matrix both orders of a significant pair are listed |
| Pipeline.CorrelationAnalysis | src/analytics/statistical_pipeline.py:191-216 | empty exactly when no dimension is fully present; otherwise the significant pairs of the dimension-score matrix |
| Pipeline.ScoreMatrixSymmetric | src/analytics/statistical_pipeline.py:203-205 | a symmetric correlation gives a symmetric matrix |
| Pipeline.TrendDirection | src/analytics/statistical_pipeline.py:338-351 | exactly the columns with more than one value get a trend, which compares the means of the halves split at len//2 |
| Pipeline.ConstantIsStable | src/analytics/statistical_pipeline.py:345-350 | a constant column is stable |
| Pipeline.NonDecreasingNeverDeclines | src/analytics/statistical_pipeline.py:343-348 | a non-decreasing column is never declining |
| Pipeline.ReversedTrend | src/analytics/statistical_pipeline.py:343-350 | reversing an even-length column swaps improving and declining |
| Pipeline.FirstArgMax | src/analytics/statistical_pipeline.py:299 | the first index of a maximum |
| Pipeline.FirstArgMin | src/analytics/statistical_pipeline.py:300 | the first index of a minimum |
| Pipeline.ProfileOf | src/analytics/statistical_pipeline.py:297-302 | the profile names the first dimension with the highest mean and the first with the lowest, as `idxmax` and `idxmin` do on ties |
| Pipeline.ProfileFlatIff | src/analytics/statistical_pipeline.py:297-302 | with distinct names, strongest and weakest coincide exactly when all means are equal |
| Pipeline.ClusterMeans | src/analytics/statistical_pipeline.py:172-174 | each dimension's cluster mean is the mean of `Members`, the values of the respondents with that label, which MembersOne and MembersConcat characterise |
| Pipeline.MembersOne | src/analytics/statistical_pipeline.py:171-173 | a single respondent is a member of the cluster exactly when it carries the label |
| Pipeline.MembersConcat | src/analytics/statistical_pipeline.py:171-173 | the members of two blocks of respondents are the first block's members followed by the second's, so the members are exactly the labelled values in row order |
| Pipeline.SummaryOf | src/analytics/statistical_pipeline.py:171-181 | size is the number of respondents with the label, percentage is size/rows × 100, and an empty cluster has no profile |
| Pipeline.ClusterAnalysis | src/analytics/statistical_pipeline.py:145-189 | no clusters exactly when no dimension is fully present; a ValueError exactly when some dimension is scored and one is skipped, a dimension has no items, or there are fewer rows than the three clusters; otherwise three clusters with their sizes and percentages |
| Pipeline.ClusterPercentagesTotal | src/analytics/statistical_pipeline.py:145-181 | with every dimension scored and non-empty, at least three rows and every respondent carrying one of the three labels, the analysis succeeds, the sizes sum to the rows and the percentages to 100 before rounding |
| Sectors.DomainsNonEmpty | src/sectors/pharma_assessment.py:26-57 | every domain of every sector has at least one item |
| Sectors.DomainScore | src/sectors/pharma_assessment.py:75-78 | the domain score is finite exactly when there are rows |
| Sectors.DomainScoreRange | src/sectors/pharma_assessment.py:77-78 | answers in [0, 5] give a domain score in [0, 100] |
| Sectors.DomainScoreAgreesWithPipeline | src/sectors/pharma_assessment.py:77-78 | (mean of item means)/5 × 100 equals the pipeline's mean dimension score |
| Sectors.MaturityScores | src/sectors/pharma_assessment.py:71-80 | one score per domain whose items are all present, in domain order |
| Sectors.PharmaLevel | src/sectors/pharma_assessment.py:93-96 | the level is in 1..5, 1 exactly when the score is at most 20, 5 exactly when it exceeds 80, and otherwise the ceiling of score/20 |
| Sectors.MultiplesFallToLowerLevel | src/sectors/pharma_assessment.py:95 | a score of exactly 20k gets level k |
| Sectors.PharmaLevelMonotone | src/sectors/pharma_assessment.py:95 | a higher score never gets a lower level |
| Sectors.CriticalAreas | src/sectors/pharma_assessment.py:98-101 | exactly the domains scoring strictly below 60 |
| Sectors.CriticalAreasConcat | src/sectors/pharma_assessment.py:98-101 | critical areas keep the order of the scores: the areas of a concatenation are the concatenated areas |
| Sectors.CriticalAreasOne | src/sectors/pharma_assessment.py:98-101 | a single score is critical exactly when it is below 60, and a NaN score never is |
| Sectors.Lookup | src/sectors/pharma_assessment.py:107-119 | a missing key reads as 0, a present key as its first score |
| Sectors.SectorRecommendations | src/sectors/pharma_assessment.py:103-122 | a recommendation appears exactly when its domain scores below 70 or is missing, in the fixed check order |
| Sectors.CriticalIsRecommended | src/sectors/pharma_assessment.py:98-120 | a critical watched domain always triggers its recommendation |
| Sectors.HealthcareGetsEveryRecommendation | src/sectors/pharma_assessment.py:137-160 | healthcare domains match no pharma key, so all five recommendations always appear |
| Sectors.EducationRecommendations | src/sectors/pharma_assessment.py:165-188 | for education the four checks on unmatched keys always fire |
| Sectors.EducationImprovementFollowsScore | src/sectors/pharma_assessment.py:116-117 | for education the improvement recommendation fires exactly when the shared "Continuous Improvement" domain is missing or below 70 |
| Sectors.GenerateComplianceReport | src/sectors/pharma_assessment.py:82-96 | an error for no scores; otherwise the level of the mean score with its name, the critical areas, the recommendations and the five fixed next steps |
| Sectors.OverallLevelBetween | src/sectors/pharma_assessment.py:85-96 | the overall level lies between the levels of the lowest and highest possible score |
| Pdca.Under | src/continuous_improvement/pdca_loop.py:102-110 | keeps exactly the entries strictly below the threshold |
| Pdca.UnderUnder | src/continuous_improvement/pdca_loop.py:42-45 | the below-70 filter after the below-80 filter equals the below-70 filter alone |
| Pdca.TargetsAreNumbersBelowThreshold | src/continuous_improvement/pdca_loop.py:42-45 | an area is targeted exactly when its result is a number below 70 |
| Pdca.Plan | src/continuous_improvement/pdca_loop.py:37-60 | the i-th new action has id (stamp, i), so ids are distinct; every action is planned with a current score below 70 and target 80; high priority exactly when the score is below 50, otherwise medium |
| Pdca.PlanCoverage | src/continuous_improvement/pdca_loop.py:44-57 | a numeric result below 70 exactly when some new action is planned for it |
| Pdca.FindAction | src/continuous_improvement/pdca_loop.py:64 | the index of the first action with the id, absent exactly when none has it |
| Pdca.DoPhase | src/continuous_improvement/pdca_loop.py:62-68 | the first matching action becomes in progress with merged metrics; every other action, and everything for an unknown id, is unchanged |
| Pdca.DoPhaseMetrics | src/continuous_improvement/pdca_loop.py:67 | the update's metrics win and the others are kept |
| Pdca.CheckResultsKeys | src/continuous_improvement/pdca_loop.py:72-78 | the results are keyed exactly by the in-progress actions whose area was reassessed |
| Pdca.CheckResultsValues | src/continuous_improvement/pdca_loop.py:72-80 | for the last reassessed action with an id, the result is whether its reassessed score exceeds its current score by more than 5 |
| Pdca.CheckPhase | src/continuous_improvement/pdca_loop.py:70-88 | the verdicts are the check results; a reassessed action is completed exactly when it gained more than 5 points, with the final score recorded; all other actions are unchanged |
| Pdca.CheckVerdictsMatchPromotions | src/continuous_improvement/pdca_loop.py:78-86 | with distinct ids an action is completed exactly when its verdict is true |
| Pdca.AreaOfPlanned | src/continuous_improvement/pdca_loop.py:46-74 | the area of a planned action is the area it was planned for |
| Pdca.AreaDropsInnerPrefix | src/continuous_improvement/pdca_loop.py:74 | an area that itself contains "Improve " loses it too |
| Pdca.CompletedWithId | src/continuous_improvement/pdca_loop.py:93-95 | a found action is listed, completed and has the id |
| Pdca.ActPhaseKeys | src/continuous_improvement/pdca_loop.py:90-100 | keys are exactly the titles of listed, existing, completed actions |
| Pdca.ActPhaseValues | src/continuous_improvement/pdca_loop.py:90-132 | each entry is the standardization of a completed action with that title |
| Pdca.Apply | src/continuous_improvement/pdca_loop.py:37-88 | planning appends after the existing actions; do and check keep the length, ids, titles and priorities |
| Pdca.RunNeverCancels | src/continuous_improvement/pdca_loop.py:15-23 | no sequence of phases ever produces a cancelled action |
| Pdca.StrategicRecommendations | src/continuous_improvement/pdca_loop.py:173-188 | nothing for no actions; execution exactly when completed/total < 0.7; focus exactly when more than 5 actions are high priority, in that order |
| Pdca.Report | src/continuous_improvement/pdca_loop.py:134-188 | an IndexError exactly when some title has no second word; otherwise a NameError exactly when an action is completed; a successful report counts the actions by status, has no completed action, and carries the strategic recommendations |
| Pdca.SuccessfulReportAdvisesExecution | src/continuous_improvement/pdca_loop.py:173-185 | a successful report on some actions always advises on execution, its completion rate being 0 |
| Pdca.BlankAreaBreaksReport | src/continuous_improvement/pdca_loop.py:46-156 | an action planned for a blank area makes every report fail with an IndexError |
| Pdca.PlannedTitleHasSecondWord | src/continuous_improvement/pdca_loop.py:46-156 | an action planned for an area with a visible character has a second word to group by |
| Pdca.ReportCountsAddUp | src/continuous_improvement/pdca_loop.py:139-142 | for any run of the loop, completed + in progress + planned = total |
| Engine.IsoWeightTotal | src/core/assessment_engine.py:66-87 | ISO 10010 weights sum to exactly 1 |
| Engine.AfnorWeightTotal | src/core/assessment_engine.py:104-115 | AFNOR weights sum to exactly 1 |
| Engine.EfqmWeightTotal | src/core/assessment_engine.py:143-153 | EFQM weights sum to 1.03 |
| Engine.BaldrigeWeightTotal | src/core/assessment_engine.py:163-171 | Baldrige weights sum to 1.10 |
| Engine.NormalisedFrameworks | src/core/assessment_engine.py:52-176 | the weights total 1 exactly for ISO 10010 and AFNOR |
| Engine.CustomIsEmpty | src/core/assessment_engine.py:52-301 | the framework and the methodology are empty exactly for the custom type |
| Engine.AfnorCategoriesAgreeWithScorer | src/core/assessment_engine.py:309-313 | the AFNOR categories partition 0..10 and agree with the scorer's thresholds |
| Engine.RadarMethodologyWeights | src/core/assessment_engine.py:340-348 | the EFQM weights sum to 1 and match the scorer's, but one criterion is named "refinement" where the scorer says "results" |
| Engine.SelectItems | src/core/assessment_engine.py:264-275 | the generic bank grows by the sector items; freemium returns its first 20 items, other versions the whole, aliased, bank |
| Engine.BankGrowsPerSelection | src/core/assessment_engine.py:266-270 | after n selections the bank has grown by n copies of the sector items |
| Engine.GenerateAssessment | src/core/assessment_engine.py:253-284 | framework and methodology from the dispatch; thresholds 0.7 and 0.5; minimum sample at least 200; two selections happen |
| Engine.PaidItemsRepeatSector | src/core/assessment_engine.py:253-284 | a paid assessment lists the generic items followed by the sector items twice |
| Engine.FreemiumItemsAreFirstSelection | src/core/assessment_engine.py:253-275 | a freemium assessment lists the items of the first selection |
| Engine.MinimumSample | src/core/assessment_engine.py:280 | max(200, 10 × the number of items after the second selection) |
| Engine.FreshMinimumSample | src/core/assessment_engine.py:280 | a fresh engine's minimum sample is 200 |
| Versions.TierOfKey | src/versions/version_manager.py:25-78 | a key names a tier exactly when it is that tier's key |
| Versions.GetVersionConfig | src/versions/version_manager.py:80-82 | lower-cased lookup, falling back to freemium |
| Versions.ConfigIgnoresCase | src/versions/version_manager.py:80-82 | the configuration does not depend on letter case |
| Versions.CheckFeatureAccess | src/versions/version_manager.py:84-87 | access exactly when the feature is listed for the resolved tier |
| Versions.TiersAreNotNested | src/versions/version_manager.py:30-72 | premium has API access and enterprise does not |
| Versions.UnknownVersionIsFreemium | src/versions/version_manager.py:80-87 | an unknown name has the freemium features |
| Versions.RespondentLimitsIncrease | src/versions/version_manager.py:28-66 | each tier admits more respondents than the one below |
| Versions.GetUpgradePath | src/versions/version_manager.py:89-114 | an upgrade exists exactly for "freemium" and "premium"; freemium leads to premium and premium to enterprise, each with more respondents |
| Versions.UpgradeIsNextTierUp | src/versions/version_manager.py:25-114 | an upgrade leads to the smallest tier admitting more respondents: no tier lies between |
| Versions.UpgradeIsCaseSensitive | src/versions/version_manager.py:89-114 | "enterprise" and "Freemium" have no upgrade although the configuration accepts "Freemium" |
| Versions.BenefitsAreFeaturesOfNextTier | src/versions/version_manager.py:95-112 | every benefit after the first is a feature of the next tier |
| Versions.FeatureComparison | src/versions/version_manager.py:116-136 | one row per tier in table order; the respondents column holds the limit and every other cell is feature access |
| Versions.NeverTickedColumns | src/versions/version_manager.py:118-134 | the advanced assessment, multi-site and white-label columns are crossed in every row |

## Left out

- The Streamlit dashboards and the application entry point are left out, because they are user interface, file upload and plotting.
- Pearson correlation, skewness, kurtosis, quantiles and the median are left out, because they need square roots or interpolation. Correlations and skewness are parameters. Standard deviation, median and quartile outputs are not modelled.
- Construct validity by principal component analysis (`src/core/validation_framework.py:335-356`) is left out. It needs `StandardScaler` and an eigen-decomposition.
- Cluster labels are a parameter, because the program obtains them from k-means (`src/analytics/statistical_pipeline.py:160-167`). The silhouette score is a stub and is left out.
- The fixed stubs are modelled only through how their values are combined: KMO 0.8, Bartlett, parallel analysis, EFA, the three-cluster choice, percentile rank, gap analysis and p-values.
- Display rounding to 2 or 3 decimals is left out except where a rounded value feeds a decision or a sum.
- NaN propagation is modelled where the program's own data or arithmetic produce it: missing answers, empty dimensions, zero divisions. Correlations are the exception, see below.
- Scoring.CalculateValidity: correlations are assumed defined. pandas gives a NaN correlation for a constant item or a single row, which makes the AVE and composite reliability NaN and the verdict false; the model's correlation parameter always returns a number in [-1, 1].
- Validation.AssessReliability: correlations are assumed defined, as above, so a constant item's NaN composite reliability is not modelled.
- Validation.AssessValidity: correlations are assumed defined, as above, for the convergent and discriminant parts.
- Dates, timestamps and generated text are left out or taken as parameters:
  - the timestamp in action ids is a parameter;
  - target dates, owners, descriptions and dependencies are left out;
  - the standardization text and the review date are left out.
- The QMS integration table, `QualityCultureAmbassador`, the freemium/premium assessment classes, visualization file names, descriptive statistics, monthly trend grouping and the demonstration blocks are not part of this model.
- Pdca.StrategicRecommendations: the third, low-improvement recommendation is left out. It reads the trends, and a report that succeeds has no completed action, so its trends are always empty.
- Pdca.Report: the trend field is left out for the same reason. `src/continuous_improvement/pdca_loop.py:165` calls `np.mean` without importing `np`, which the model states as a NameError.
- Pdca.Report: `str.split` also splits at non-ASCII whitespace; the model treats only ASCII whitespace and the separators 0x1c-0x1f as spaces.
- The missing `Dict`/`Optional` imports at `src/analytics/statistical_pipeline.py:28` are left out; the model assumes the module loads.
- Engine: the assessment configuration's sample size, anonymity, language and stakeholder flags are left out, because no modelled rule reads them. The items' text, type and mirror fields are left out for the same reason.
- Versions.GetVersionConfig: lower-casing is ASCII only. Python's `str.lower` also folds non-ASCII letters.
- Pipeline.Demographics: lower-casing is ASCII only, as above, so a non-ASCII name is matched letter for letter.
- Pipeline.ValueCounts: counts every value it is given, whereas pandas' `value_counts()` drops NaN; a caller leaves missing cells out of the series instead.

## Notes on the code

These follow the code, where a design reading would suggest otherwise:
- The education assessment renames four of its five domains, but keeps "Continuous Improvement". So only four of the five pharmaceutical recommendations always fire for education; the fifth depends on the score.
- `assess_reliability` decides the overall verdict on alphas rounded to three decimals, and the per-dimension verdict on the exact alpha. The two can disagree.
- The statistical validator does not clamp alpha, while the validation framework clamps it at 0.
- Selecting items extends the generic item bank in place. A paid assessment therefore lists the sector items twice.
- The comparison table names three features that no tier lists verbatim.
- Enterprise is advertised as "Unlimited respondents", but its configured maximum is 100000.

=== FILE: engine.dfy ===
/** The assessment engine: framework and scoring-method dispatch, item
    selection from the item bank, and the validation criteria of a
    generated assessment. */
module Engine {
  import opened Numeric
  import opened Frames
  import Scoring
  import Validation

  datatype AssessmentType = Iso10010 | Afnor | Pda | Efqm | Baldrige | Custom

  datatype Sector = Generic | Pharmaceutical | Healthcare | Education | Manufacturing | Financial

  /** The enum value, which is also the key of the sector's item list. */
  function SectorValue(s: Sector): string
  {
    match s
    case Generic => "generic"
    case Pharmaceutical => "pharmaceutical"
    case Healthcare => "healthcare"
    case Education => "education"
    case Manufacturing => "manufacturing"
    case Financial => "financial"
  }

  /** The fields of the configuration that a decision reads. */
  datatype Config = Config(assessmentType: AssessmentType, sector: Sector, version: string)

  // ---------------------------------------------------------------------------
  // Frameworks
  // ---------------------------------------------------------------------------

  /** A framework's dimensions (ISO 10010, AFNOR) or criteria (EFQM,
      Baldrige) with their weights, or the PDA maturity elements. */
  datatype Framework =
    | Weighted(section: string, weights: seq<(string, real)>)
    | MaturityElements(elements: seq<(string, nat)>, levels: nat)
    | NoFramework

  const IsoWeights: seq<(string, real)> :=
    [("leadership", 0.25), ("engagement", 0.20), ("process_approach", 0.20),
     ("customer_focus", 0.15), ("learning_development", 0.20)]

  const AfnorWeights: seq<(string, real)> :=
    [("responsibility", 0.10), ("first_time_right", 0.10), ("problem_reporting", 0.10),
     ("continuous_improvement", 0.10), ("customer_focus", 0.10), ("leadership", 0.10),
     ("engagement", 0.10), ("training", 0.10), ("communication", 0.10),
     ("results_orientation", 0.10)]

  const PdaElements: seq<(string, nat)> :=
    [("leadership", 5), ("communication", 4), ("ownership", 4),
     ("continuous_improvement", 4), ("technical_excellence", 4)]

  const EfqmWeights: seq<(string, real)> :=
    [("leadership", 0.10), ("strategy", 0.08), ("people", 0.09), ("partnerships", 0.09),
     ("processes", 0.14), ("customer_results", 0.20), ("people_results", 0.12),
     ("society_results", 0.06), ("business_results", 0.15)]

  const BaldrigeWeights: seq<(string, real)> :=
    [("leadership", 0.12), ("strategy", 0.08), ("customers", 0.12), ("measurement", 0.09),
     ("workforce", 0.12), ("operations", 0.12), ("results", 0.45)]

  /** `_load_framework`: CUSTOM has no entry, so the lookup yields `{}`. */
  function LoadFramework(t: AssessmentType): Framework
  {
    match t
    case Iso10010 => Weighted("dimensions", IsoWeights)
    case Afnor => Weighted("dimensions", AfnorWeights)
    case Pda => MaturityElements(PdaElements, 5)
    case Efqm => Weighted("criteria", EfqmWeights)
    case Baldrige => Weighted("criteria", BaldrigeWeights)
    case Custom => NoFramework
  }

  function WeightSum(ws: seq<(string, real)>): real
    decreases |ws|
  {
    if |ws| == 0 then 0.0 else ws[0].1 + WeightSum(ws[1..])
  }

  /** The total weight of a weighted framework, on exact reals. */
  function TotalWeight(t: AssessmentType): (r: Option<real>)
    ensures r.Some? <==> LoadFramework(t).Weighted?
    ensures r.Some? ==> r.value == WeightSum(LoadFramework(t).weights)
  {
    match LoadFramework(t)
    case Weighted(_, ws) => Some(WeightSum(ws))
    case _ => None
  }

  /** ISO 10010 dimension weights sum to one. */
  lemma IsoWeightTotal()
    ensures TotalWeight(Iso10010) == Some(1.0)
  {
    assert WeightSum(IsoWeights[4..]) == 0.20;
    assert WeightSum(IsoWeights[3..]) == 0.35;
    assert WeightSum(IsoWeights[2..]) == 0.55;
    assert WeightSum(IsoWeights[1..]) == 0.75;
  }

  /** AFNOR's ten dimension weights sum to one. */
  lemma AfnorWeightTotal()
    ensures TotalWeight(Afnor) == Some(1.0)
  {
    assert WeightSum(AfnorWeights[9..]) == 0.10;
    assert WeightSum(AfnorWeights[8..]) == 0.20;
    assert WeightSum(AfnorWeights[7..]) == 0.30;
    assert WeightSum(AfnorWeights[6..]) == 0.40;
    assert WeightSum(AfnorWeights[5..]) == 0.50;
    assert WeightSum(AfnorWeights[4..]) == 0.60;
    assert WeightSum(AfnorWeights[3..]) == 0.70;
    assert WeightSum(AfnorWeights[2..]) == 0.80;
    assert WeightSum(AfnorWeights[1..]) == 0.90;
  }

  /** EFQM's criteria weights sum to 1.03, not one. */
  lemma EfqmWeightTotal()
    ensures TotalWeight(Efqm) == Some(1.03)
  {
    assert WeightSum(EfqmWeights[8..]) == 0.15;
    assert WeightSum(EfqmWeights[7..]) == 0.21;
    assert WeightSum(EfqmWeights[6..]) == 0.33;
    assert WeightSum(EfqmWeights[5..]) == 0.53;
    assert WeightSum(EfqmWeights[4..]) == 0.67;
    assert WeightSum(EfqmWeights[3..]) == 0.76;
    assert WeightSum(EfqmWeights[2..]) == 0.85;
    assert WeightSum(EfqmWeights[1..]) == 0.93;
  }

  /** Baldrige's criteria weights sum to 1.10, not one. */
  lemma BaldrigeWeightTotal()
    ensures TotalWeight(Baldrige) == Some(1.10)
  {
    assert WeightSum(BaldrigeWeights[6..]) == 0.45;
    assert WeightSum(BaldrigeWeights[5..]) == 0.57;
    assert WeightSum(BaldrigeWeights[4..]) == 0.69;
    assert WeightSum(BaldrigeWeights[3..]) == 0.78;
    assert WeightSum(BaldrigeWeights[2..]) == 0.90;
    assert WeightSum(BaldrigeWeights[1..]) == 0.98;
  }

  /** Exactly the ISO 10010 and AFNOR weights are normalised. */
  lemma NormalisedFrameworks(t: AssessmentType)
    ensures TotalWeight(t) == Some(1.0) <==> t == Iso10010 || t == Afnor
  {
    IsoWeightTotal();
    AfnorWeightTotal();
    EfqmWeightTotal();
    BaldrigeWeightTotal();
  }

  // ---------------------------------------------------------------------------
  // Scoring methodologies
  // ---------------------------------------------------------------------------

  /** The AFNOR answer categories on the 0..10 scale. */
  datatype Categories = Categories(promoters: seq<int>, passives: seq<int>, detractors: seq<int>)

  datatype Methodology =
    | Npqs(categories: Categories)
    | Maturity(levels: nat, descriptions: seq<string>)
    | MaturityMatrix(levels: nat, dimensions: seq<string>)
    | Radar(weights: seq<(string, real)>)
    | MaturityLevels(levels: nat)
    | NoMethodology

  const AfnorCategories: Categories := Categories([9, 10], [7, 8], [0, 1, 2, 3, 4, 5, 6])

  /** `ScoringEngine.get_methodology`: CUSTOM has no entry, so `{}`. */
  function GetMethodology(t: AssessmentType): Methodology
  {
    match t
    case Afnor => Npqs(AfnorCategories)
    case Iso10010 => Maturity(5, ["Initial/Ad-hoc", "Managed", "Defined", "Quantitatively Managed", "Optimizing"])
    case Pda => MaturityMatrix(5, ["leadership", "communication", "ownership", "ci", "technical"])
    case Efqm => Radar([("approach", 0.25), ("deployment", 0.25), ("assessment", 0.25), ("refinement", 0.25)])
    case Baldrige => MaturityLevels(6)
    case Custom => NoMethodology
  }

  /** CUSTOM, and only CUSTOM, has neither a framework nor a methodology. */
  lemma CustomIsEmpty(t: AssessmentType)
    ensures LoadFramework(t) == NoFramework <==> t == Custom
    ensures GetMethodology(t) == NoMethodology <==> t == Custom
  {
  }

  /** The category table partitions the whole answers 0..10 exactly as the
      NPQS scorer's thresholds do. */
  lemma AfnorCategoriesAgreeWithScorer(k: int)
    requires 0 <= k <= 10
    ensures k in AfnorCategories.promoters <==> Scoring.Promoter(k as real)
    ensures k in AfnorCategories.passives <==> Scoring.Passive(k as real)
    ensures k in AfnorCategories.detractors <==> Scoring.Detractor(k as real)
    ensures k in AfnorCategories.promoters || k in AfnorCategories.passives || k in AfnorCategories.detractors
    ensures !(k in AfnorCategories.promoters && k in AfnorCategories.passives)
    ensures !(k in AfnorCategories.promoters && k in AfnorCategories.detractors)
    ensures !(k in AfnorCategories.passives && k in AfnorCategories.detractors)
  {
  }

  /** The RADAR weights of the methodology sum to one, but name
      "refinement" where the RADAR scorer reads "results". */
  lemma RadarMethodologyWeights()
    ensures GetMethodology(Efqm).Radar?
    ensures WeightSum(GetMethodology(Efqm).weights) == 1.0
    ensures forall i :: 0 <= i < |GetMethodology(Efqm).weights| ==>
              GetMethodology(Efqm).weights[i].1 == Scoring.RadarWeight
    ensures exists i :: 0 <= i < |GetMethodology(Efqm).weights| && GetMethodology(Efqm).weights[i].0 !in Scoring.RadarCriteria
  {
    var ws := GetMethodology(Efqm).weights;
    assert WeightSum(ws[3..]) == 0.25;
    assert WeightSum(ws[2..]) == 0.50;
    assert WeightSum(ws[1..]) == 0.75;
    assert ws[3].0 == "refinement";
    assert ws[3].0 !in Scoring.RadarCriteria;
  }

  // ---------------------------------------------------------------------------
  // Item selection
  // ---------------------------------------------------------------------------

  datatype Item = Item(id: string, dimension: string)

  const GenericItems: seq<Item> :=
    [Item("L1", "leadership"), Item("B3", "behaviors"), Item("P2", "process")]

  /** `items_bank.get(sector.value, [])` for a sector other than GENERIC:
      manufacturing and financial have no list. */
  function SectorItems(s: Sector): seq<Item>
  {
    match s
    case Pharmaceutical => [Item("PH1", "regulatory"), Item("PH2", "validation")]
    case Healthcare => [Item("HC1", "patient_safety")]
    case Education => [Item("ED1", "student_focus")]
    case _ => []
  }

  const FreemiumLimit: nat := 20

  /** The outcome of `_select_items`: the returned items, the bank's generic
      list afterwards, and whether the returned list IS that generic list
      (a later extension shows through it). */
  datatype Selection = Selection(items: seq<Item>, generic: seq<Item>, aliased: bool)

  function Added(s: Sector): seq<Item>
  {
    if s == Generic then [] else SectorItems(s)
  }

  /** `_select_items`: `extend` grows the bank's generic list in place, and
      only a freemium selection is a copy, cut at 20 items. */
  function SelectItems(generic: seq<Item>, sector: Sector, version: string): (r: Selection)
    ensures |r.generic| == |generic| + |Added(sector)| && r.generic[..|generic|] == generic
    ensures r.generic[|generic|..] == Added(sector)
    ensures r.aliased <==> version != "freemium"
    ensures version != "freemium" ==> r.items == r.generic
    ensures version == "freemium" ==> |r.items| == (if |r.generic| < FreemiumLimit then |r.generic| else FreemiumLimit)
    ensures forall i :: 0 <= i < |r.items| ==> r.items[i] == r.generic[i]
  {
    var grown := generic + Added(sector);
    if version == "freemium" then
      Selection(if |grown| < FreemiumLimit then grown else grown[..FreemiumLimit], grown, false)
    else Selection(grown, grown, true)
  }

  /** On the shipped bank, a selection holds the generic items followed by
      the sector's items. */
  lemma FreshSelection(sector: Sector, version: string)
    ensures SelectItems(GenericItems, sector, version).items == GenericItems + Added(sector)
  {
  }

  /** The generic list after `n` selections. */
  function AfterSelections(generic: seq<Item>, sector: Sector, version: string, n: nat): seq<Item>
    decreases n
  {
    if n == 0 then generic else SelectItems(AfterSelections(generic, sector, version, n - 1), sector, version).generic
  }

  /** Every selection for a non-generic sector appends the sector's items
      again. */
  lemma {:induction false} BankGrowsPerSelection(generic: seq<Item>, sector: Sector, version: string, n: nat)
    ensures |AfterSelections(generic, sector, version, n)| == |generic| + n * |Added(sector)|
    ensures AfterSelections(generic, sector, version, n)[..|generic|] == generic
    decreases n
  {
    if n > 0 {
      var prev := AfterSelections(generic, sector, version, n - 1);
      BankGrowsPerSelection(generic, sector, version, n - 1);
      assert prev[..|generic|] == generic;
      var next := SelectItems(prev, sector, version).generic;
      assert next[..|prev|] == prev;
      assert next[..|generic|] == prev[..|prev|][..|generic|];
    }
  }

  // ---------------------------------------------------------------------------
  // Generated assessment
  // ---------------------------------------------------------------------------

  const MinimumSampleFloor: nat := 200
  const SamplePerItem: nat := 10
  const ResponseRateTarget: real := 0.7

  datatype Criteria = Criteria(minimumSample: nat, alphaThreshold: real, aveThreshold: real, responseRate: real)

  datatype Assessment = Assessment(
    framework: Framework, items: seq<Item>, methodology: Methodology, criteria: Criteria, generic: seq<Item>)

  /** `generate_assessment`: items are selected, then selected again while
      the validation criteria are computed. */
  function GenerateAssessment(c: Config, generic: seq<Item>): (r: Assessment)
    ensures r.framework == LoadFramework(c.assessmentType) && r.methodology == GetMethodology(c.assessmentType)
    ensures r.criteria.minimumSample >= MinimumSampleFloor
    ensures r.criteria.alphaThreshold == Validation.DefaultAlphaThreshold
    ensures r.criteria.aveThreshold == Validation.DefaultAveThreshold
    ensures r.generic == AfterSelections(generic, c.sector, c.version, 2)
    ensures c.version == "freemium" ==> |r.items| <= FreemiumLimit
  {
    var first := SelectItems(generic, c.sector, c.version);
    var second := SelectItems(first.generic, c.sector, c.version);
    var items := if first.aliased then second.generic else first.items;
    var sample := MaxInt(MinimumSampleFloor, SamplePerItem * |second.items|);
    Assessment(LoadFramework(c.assessmentType), items, GetMethodology(c.assessmentType),
               Criteria(sample, 0.7, 0.5, ResponseRateTarget), second.generic)
  }

  /** A non-freemium assessment of a sector with items lists the sector's
      items twice, because the returned list is extended by the second
      selection. */
  lemma PaidItemsRepeatSector(c: Config, generic: seq<Item>)
    requires c.version != "freemium"
    ensures GenerateAssessment(c, generic).items == generic + Added(c.sector) + Added(c.sector)
  {
  }

  /** A freemium assessment keeps the first selection's copy. */
  lemma FreemiumItemsAreFirstSelection(c: Config, generic: seq<Item>)
    requires c.version == "freemium"
    ensures GenerateAssessment(c, generic).items == SelectItems(generic, c.sector, c.version).items
  {
  }

  /** The minimum sample is ten per item of the second selection, never
      below 200. */
  lemma MinimumSample(c: Config, generic: seq<Item>)
    ensures var n := |SelectItems(SelectItems(generic, c.sector, c.version).generic, c.sector, c.version).items|;
            GenerateAssessment(c, generic).criteria.minimumSample
            == (if SamplePerItem * n > MinimumSampleFloor then SamplePerItem * n else MinimumSampleFloor)
  {
  }

  /** On the shipped bank the second selection has at most seven items, so
      the minimum sample is always 200. */
  lemma FreshMinimumSample(c: Config)
    ensures GenerateAssessment(c, GenericItems).criteria.minimumSample == MinimumSampleFloor
  {
    var first := SelectItems(GenericItems, c.sector, c.version);
    var second := SelectItems(first.generic, c.sector, c.version);
    assert |Added(c.sector)| <= 2;
    assert |second.items| <= |second.generic| == 3 + 2 * |Added(c.sector)|;
  }
}

=== FILE: frames.dfy ===
/** The shape of the data the assessment code works on: named columns of
    equal length (a pandas DataFrame read column by column), optional and
    fallible results, and row-wise folds over a choice of columns. */
module Frames {
  import opened Numeric

  datatype Option<T> = None | Some(value: T)

  datatype Result<T> = Ok(value: T) | Err(error: string)

  datatype Column<T> = Column(name: string, values: seq<T>)

  /** A table of `nRows` rows, stored column by column. */
  datatype Frame<T> = Frame(nRows: nat, cols: seq<Column<T>>)
  {
    /** Every column has one value per row and column names are unique. */
    ghost predicate Valid()
    {
      (forall i :: 0 <= i < |cols| ==> |cols[i].values| == nRows) &&
      (forall i, j :: 0 <= i < j < |cols| ==> cols[i].name != cols[j].name)
    }

    /** pandas' `df.empty`: no rows or no columns. */
    predicate Empty()
    {
      nRows == 0 || |cols| == 0
    }
  }

  function Names<T>(cols: seq<Column<T>>): (r: seq<string>)
    ensures |r| == |cols|
    ensures forall i :: 0 <= i < |cols| ==> r[i] == cols[i].name
  {
    seq(|cols|, i requires 0 <= i < |cols| => cols[i].name)
  }

  predicate Has<T>(f: Frame<T>, name: string)
  {
    name in Names(f.cols)
  }

  /** Position of the first occurrence of `x`. */
  function IndexOf<T(==)>(xs: seq<T>, x: T): (i: nat)
    requires x in xs
    ensures i < |xs| && xs[i] == x
    ensures forall j :: 0 <= j < i ==> xs[j] != x
  {
    if xs[0] == x then 0 else 1 + IndexOf(xs[1..], x)
  }

  /** `df[name]`. */
  function Get<T>(f: Frame<T>, name: string): (c: Column<T>)
    requires Has(f, name)
    ensures c in f.cols && c.name == name
  {
    f.cols[IndexOf(Names(f.cols), name)]
  }

  /** Every listed item is a column of the frame. */
  predicate HasAll<T>(f: Frame<T>, items: seq<string>)
  {
    forall i :: 0 <= i < |items| ==> Has(f, items[i])
  }

  /** `df[items]`: the listed columns, in the listed order. */
  function Select<T>(f: Frame<T>, items: seq<string>): (r: seq<Column<T>>)
    requires HasAll(f, items)
    ensures |r| == |items|
    ensures forall i :: 0 <= i < |items| ==> r[i].name == items[i] && r[i] in f.cols
  {
    seq(|items|, i requires 0 <= i < |items| => Get(f, items[i]))
  }

  /** Every column of a selection from a valid frame has `nRows` values. */
  lemma SelectRectangular<T>(f: Frame<T>, items: seq<string>)
    requires f.Valid() && HasAll(f, items)
    ensures Rectangular(Select(f, items), f.nRows)
  {
  }

  /** Every column has exactly `n` values. */
  predicate Rectangular<T>(cols: seq<Column<T>>, n: nat)
  {
    forall j :: 0 <= j < |cols| ==> |cols[j].values| == n
  }

  /** The values of row `r` across the given columns. */
  function Row<T>(cols: seq<Column<T>>, r: nat): (row: seq<T>)
    requires forall j :: 0 <= j < |cols| ==> r < |cols[j].values|
    ensures |row| == |cols|
    ensures forall j :: 0 <= j < |cols| ==> row[j] == cols[j].values[r]
  {
    seq(|cols|, j requires 0 <= j < |cols| => cols[j].values[r])
  }

  /** `df.sum(axis=1)`. */
  function RowSums(cols: seq<Column<real>>, n: nat): (sums: seq<real>)
    requires Rectangular(cols, n)
    ensures |sums| == n
    ensures forall r :: 0 <= r < n ==> sums[r] == Sum(Row(cols, r))
  {
    seq(n, r requires 0 <= r < n => Sum(Row(cols, r)))
  }

  /** `df.mean(axis=1)` over at least one column. */
  function RowMeans(cols: seq<Column<real>>, n: nat): (means: seq<real>)
    requires |cols| > 0 && Rectangular(cols, n)
    ensures |means| == n
    ensures forall r :: 0 <= r < n ==> means[r] == Mean(Row(cols, r))
  {
    seq(n, r requires 0 <= r < n => Mean(Row(cols, r)))
  }

  /** `df.sum()`: the total of every column. */
  function ColumnSums(cols: seq<Column<real>>): (sums: seq<real>)
    ensures |sums| == |cols|
    ensures forall j :: 0 <= j < |cols| ==> sums[j] == Sum(cols[j].values)
  {
    seq(|cols|, j requires 0 <= j < |cols| => Sum(cols[j].values))
  }

  /** Adding up a table column by column or row by row gives the same total. */
  lemma {:induction false} SumExchange(cols: seq<Column<real>>, n: nat)
    requires Rectangular(cols, n)
    ensures Sum(ColumnSums(cols)) == Sum(RowSums(cols, n))
    decreases |cols|
  {
    var rs := RowSums(cols, n);
    if |cols| == 0 {
      assert forall r :: 0 <= r < n ==> Row(cols, r) == [];
      SumConst(rs, 0.0);
    } else {
      var m := |cols| - 1;
      var init, last := cols[..m], cols[m];
      SumExchange(init, n);
      assert ColumnSums(cols) == ColumnSums(init) + [Sum(last.values)];
      SumConcat(ColumnSums(init), [Sum(last.values)]);
      forall r | 0 <= r < n ensures rs[r] == RowSums(init, n)[r] + last.values[r] {
        assert Row(cols, r) == Row(init, r) + [last.values[r]];
        SumConcat(Row(init, r), [last.values[r]]);
      }
      assert rs == AddSeq(RowSums(init, n), last.values);
      SumAdd(RowSums(init, n), last.values);
    }
  }

  /** A named group of item columns (the `dimensions` dictionaries). */
  datatype Dimension = Dimension(name: string, items: seq<string>)
}

=== FILE: numeric.dfy ===
/** Exact-rational numeric kernel: sums, means, sample variance, counting and
    the round-half-even rounding that the report fields go through. Dafny reals
    are exact, so the floating-point error of the program disappears;
    NaN is modelled explicitly by the callers where it changes a verdict. */
module Numeric {

  /** A Pearson correlation coefficient. */
  type Correlation = r: real | -1.0 <= r <= 1.0

  /** A loading proxy: the absolute value of a correlation. */
  type Loading = r: real | 0.0 <= r <= 1.0

  function Abs(x: real): (r: real)
    ensures r >= 0.0 && (r == x || r == -x)
  {
    if x < 0.0 then -x else x
  }

  /** Python's `max` on floats. */
  function MaxReal(a: real, b: real): (r: real)
    ensures r >= a && r >= b && (r == a || r == b)
  {
    if a >= b then a else b
  }

  /** Python's `max` on ints; Dafny has no ordering shared by `int` and
      `real`, so the two are kept apart. */
  function MaxInt(a: int, b: int): (r: int)
    ensures r >= a && r >= b && (r == a || r == b)
  {
    if a >= b then a else b
  }

  /** The loading of an item: |corr(item, dimension score)|. */
  function LoadingOf(c: Correlation): (l: Loading)
    ensures l * l == c * c
  {
    Abs(c)
  }

  // ---------------------------------------------------------------------------
  // Sums and means
  // ---------------------------------------------------------------------------

  function Sum(xs: seq<real>): real
  {
    if |xs| == 0 then 0.0 else xs[0] + Sum(xs[1..])
  }

  /** Arithmetic mean; the callers guard the empty case (pandas gives NaN). */
  function Mean(xs: seq<real>): real
    requires |xs| > 0
  {
    Div(Sum(xs), |xs| as real)
  }

  /** Product, kept behind a function so that the solver treats squares as
      ordinary terms. */
  function Mul(a: real, b: real): real
  {
    a * b
  }

  function Sq(x: real): real
  {
    Mul(x, x)
  }

  /** Quotient, kept behind a function for the same reason: equal operands
      then give equal quotients by congruence alone. */
  function Div(a: real, b: real): real
    requires b != 0.0
  {
    a / b
  }

  /** Sum of squared deviations from `m`. */
  function SqDev(xs: seq<real>, m: real): real
  {
    if |xs| == 0 then 0.0 else Sq(xs[0] - m) + SqDev(xs[1..], m)
  }

  /** Unbiased (n - 1) sample variance, the pandas default. */
  function SampleVar(xs: seq<real>): real
    requires |xs| >= 2
  {
    Div(SqDev(xs, Mean(xs)), (|xs| - 1) as real)
  }

  function Scale(c: real, xs: seq<real>): seq<real>
  {
    seq(|xs|, i requires 0 <= i < |xs| => c * xs[i])
  }

  function Reverse<T>(xs: seq<T>): seq<T>
  {
    seq(|xs|, i requires 0 <= i < |xs| => xs[|xs| - 1 - i])
  }

  function Squares(xs: seq<real>): (r: seq<real>)
    ensures |r| == |xs|
    ensures forall i :: 0 <= i < |xs| ==> r[i] == Sq(xs[i])
  {
    seq(|xs|, i requires 0 <= i < |xs| => Sq(xs[i]))
  }

  predicate NonNegative(xs: seq<real>)
  {
    forall i :: 0 <= i < |xs| ==> xs[i] >= 0.0
  }

  predicate AllIn(xs: seq<real>, lo: real, hi: real)
  {
    forall i :: 0 <= i < |xs| ==> lo <= xs[i] <= hi
  }

  predicate Constant(xs: seq<real>)
  {
    forall i, j :: 0 <= i < |xs| && 0 <= j < |xs| ==> xs[i] == xs[j]
  }

  lemma ScaleTail(c: real, xs: seq<real>)
    requires |xs| > 0
    ensures Scale(c, xs)[1..] == Scale(c, xs[1..])
  {
    assert forall i :: 0 <= i < |xs| - 1 ==> Scale(c, xs)[1..][i] == c * xs[i + 1] == Scale(c, xs[1..])[i];
  }

  lemma MulPos(a: real, b: real)
    requires a > 0.0 && b > 0.0
    ensures Mul(a, b) > 0.0
  {
  }

  lemma MulNonNeg(a: real, b: real)
    requires a >= 0.0 && b >= 0.0
    ensures Mul(a, b) >= 0.0
  {
  }

  lemma SquareNonNeg(d: real)
    ensures Sq(d) >= 0.0
  {
    if d >= 0.0 {
      MulNonNeg(d, d);
    } else {
      MulNonNeg(-d, -d);
      assert Mul(-d, -d) == Mul(d, d);
    }
  }

  lemma SquarePos(d: real)
    requires d != 0.0
    ensures Sq(d) > 0.0
  {
    if d > 0.0 {
      MulPos(d, d);
    } else {
      MulPos(-d, -d);
      assert Mul(-d, -d) == Mul(d, d);
    }
  }

  lemma SquareOfProduct(c: real, d: real)
    ensures Sq(c * d) == Sq(c) * Sq(d)
  {
  }

  lemma MulDiv(c: real, a: real, n: real)
    requires n != 0.0
    ensures Div(c * a, n) == c * Div(a, n)
  {
  }

  lemma DivPos(a: real, n: real)
    requires a > 0.0 && n > 0.0
    ensures Div(a, n) > 0.0
  {
  }

  lemma DivNonNeg(a: real, n: real)
    requires a >= 0.0 && n > 0.0
    ensures Div(a, n) >= 0.0
  {
  }

  lemma DivMono(a: real, b: real, n: real)
    requires n > 0.0 && a <= b
    ensures Div(a, n) <= Div(b, n)
  {
  }

  lemma DivCancel(a: real, n: real)
    requires n != 0.0
    ensures Div(n * a, n) == a
  {
  }

  lemma {:induction false} SumConcat(a: seq<real>, b: seq<real>)
    ensures Sum(a + b) == Sum(a) + Sum(b)
    decreases |a|
  {
    if |a| == 0 {
      assert a + b == b;
    } else {
      assert (a + b)[1..] == a[1..] + b;
      SumConcat(a[1..], b);
    }
  }

  lemma {:induction false} SumScale(c: real, xs: seq<real>)
    ensures Sum(Scale(c, xs)) == c * Sum(xs)
    decreases |xs|
  {
    if |xs| > 0 {
      ScaleTail(c, xs);
      SumScale(c, xs[1..]);
    }
  }

  /** Every element in [lo, hi] bounds the sum by n*lo and n*hi. */
  lemma {:induction false} SumBounds(xs: seq<real>, lo: real, hi: real)
    requires AllIn(xs, lo, hi)
    ensures |xs| as real * lo <= Sum(xs) <= |xs| as real * hi
    decreases |xs|
  {
    if |xs| > 0 {
      SumBounds(xs[1..], lo, hi);
    }
  }

  lemma MeanBounds(xs: seq<real>, lo: real, hi: real)
    requires |xs| > 0 && AllIn(xs, lo, hi)
    ensures lo <= Mean(xs) <= hi
  {
    SumBounds(xs, lo, hi);
    var n := |xs| as real;
    DivMono(n * lo, Sum(xs), n);
    DivMono(Sum(xs), n * hi, n);
    DivCancel(lo, n);
    DivCancel(hi, n);
  }

  /** Pointwise order is preserved by the sum. */
  lemma {:induction false} SumMono(xs: seq<real>, ys: seq<real>)
    requires |xs| == |ys|
    requires forall i :: 0 <= i < |xs| ==> xs[i] <= ys[i]
    ensures Sum(xs) <= Sum(ys)
    decreases |xs|
  {
    if |xs| > 0 {
      SumMono(xs[1..], ys[1..]);
    }
  }

  lemma {:induction false} SumNonNeg(xs: seq<real>)
    requires forall i :: 0 <= i < |xs| ==> xs[i] >= 0.0
    ensures Sum(xs) >= 0.0
    decreases |xs|
  {
    if |xs| > 0 {
      SumNonNeg(xs[1..]);
    }
  }

  /** A sum of non-negative terms is zero exactly when every term is. */
  lemma {:induction false} SumZeroIff(xs: seq<real>)
    requires forall i :: 0 <= i < |xs| ==> xs[i] >= 0.0
    ensures Sum(xs) == 0.0 <==> forall i :: 0 <= i < |xs| ==> xs[i] == 0.0
    decreases |xs|
  {
    if |xs| > 0 {
      SumZeroIff(xs[1..]);
      SumNonNeg(xs[1..]);
      assert forall i :: 1 <= i < |xs| ==> xs[1..][i - 1] == xs[i];
    }
  }

  lemma {:induction false} SumConst(xs: seq<real>, c: real)
    requires forall i :: 0 <= i < |xs| ==> xs[i] == c
    ensures Sum(xs) == |xs| as real * c
    decreases |xs|
  {
    if |xs| > 0 {
      SumConst(xs[1..], c);
    }
  }

  lemma MeanConst(xs: seq<real>, c: real)
    requires |xs| > 0
    requires forall i :: 0 <= i < |xs| ==> xs[i] == c
    ensures Mean(xs) == c
  {
    SumConst(xs, c);
  }

  lemma {:induction false} SumReverse(xs: seq<real>)
    ensures Sum(Reverse(xs)) == Sum(xs)
    decreases |xs|
  {
    if |xs| > 0 {
      var last := xs[|xs| - 1];
      var init := xs[..|xs| - 1];
      assert Reverse(xs) == [last] + Reverse(init);
      assert xs == init + [last];
      SumReverse(init);
      assert Sum([last]) == last;
      SumConcat([last], Reverse(init));
      SumConcat(init, [last]);
    }
  }

  // ---------------------------------------------------------------------------
  // Squared deviations and variance
  // ---------------------------------------------------------------------------

  lemma {:induction false} SqDevNonNeg(xs: seq<real>, m: real)
    ensures SqDev(xs, m) >= 0.0
    decreases |xs|
  {
    if |xs| > 0 {
      SqDevNonNeg(xs[1..], m);
      SquareNonNeg(xs[0] - m);
    }
  }

  /** Each squared deviation is bounded by the total. */
  lemma {:induction false} SqDevAtLeastTerm(xs: seq<real>, m: real, i: int)
    requires 0 <= i < |xs|
    ensures SqDev(xs, m) >= Sq(xs[i] - m)
    decreases |xs|
  {
    SqDevNonNeg(xs[1..], m);
    SquareNonNeg(xs[0] - m);
    if i > 0 {
      assert xs[1..][i - 1] == xs[i];
      SqDevAtLeastTerm(xs[1..], m, i - 1);
    }
  }

  lemma {:induction false} SqDevConst(xs: seq<real>, m: real)
    requires forall i :: 0 <= i < |xs| ==> xs[i] == m
    ensures SqDev(xs, m) == 0.0
    decreases |xs|
  {
    if |xs| > 0 {
      SqDevConst(xs[1..], m);
    }
  }

  lemma {:induction false} SqDevScale(c: real, xs: seq<real>, m: real, cm: real)
    requires cm == c * m
    ensures SqDev(Scale(c, xs), cm) == Sq(c) * SqDev(xs, m)
    decreases |xs|
  {
    if |xs| > 0 {
      ScaleTail(c, xs);
      SqDevScale(c, xs[1..], m, cm);
      var d := xs[0] - m;
      assert Scale(c, xs)[0] - cm == c * d;
      SquareOfProduct(c, d);
    }
  }

  /** Pointwise sum of two sequences of the same length. */
  function AddSeq(xs: seq<real>, ys: seq<real>): (r: seq<real>)
    requires |xs| == |ys|
    ensures |r| == |xs| && forall i :: 0 <= i < |xs| ==> r[i] == xs[i] + ys[i]
  {
    seq(|xs|, i requires 0 <= i < |xs| => xs[i] + ys[i])
  }

  lemma {:induction false} SumAdd(xs: seq<real>, ys: seq<real>)
    requires |xs| == |ys|
    ensures Sum(AddSeq(xs, ys)) == Sum(xs) + Sum(ys)
    decreases |xs|
  {
    if |xs| > 0 {
      assert AddSeq(xs, ys)[1..] == AddSeq(xs[1..], ys[1..]);
      SumAdd(xs[1..], ys[1..]);
    }
  }

  /** Every element divided by `n`. */
  function DivAll(xs: seq<real>, n: real): (r: seq<real>)
    requires n != 0.0
    ensures |r| == |xs| && forall i :: 0 <= i < |xs| ==> r[i] == Div(xs[i], n)
  {
    seq(|xs|, i requires 0 <= i < |xs| => Div(xs[i], n))
  }

  lemma {:induction false} SumDivAll(xs: seq<real>, n: real)
    requires n != 0.0
    ensures Sum(DivAll(xs, n)) == Div(Sum(xs), n)
    decreases |xs|
  {
    if |xs| > 0 {
      assert DivAll(xs, n)[1..] == DivAll(xs[1..], n);
      SumDivAll(xs[1..], n);
      DivAdd(xs[0], Sum(xs[1..]), n);
    }
  }

  /** Dividing by two numbers in either order gives the same quotient. */
  lemma DivSwap(a: real, b: real, c: real)
    requires b != 0.0 && c != 0.0
    ensures Div(Div(a, b), c) == Div(Div(a, c), b)
  {
    var x, y := Div(Div(a, b), c), Div(Div(a, c), b);
    assert x * c == Div(a, b);
    assert y * b == Div(a, c);
    assert (x * c) * b == a;
    assert (y * b) * c == a;
    assert x * (b * c) == y * (b * c);
  }

  lemma MeanScale(c: real, xs: seq<real>)
    requires |xs| > 0
    ensures Mean(Scale(c, xs)) == c * Mean(xs)
  {
    SumScale(c, xs);
    MulDiv(c, Sum(xs), |xs| as real);
  }

  /** Scaling a column by c scales its variance by c squared. */
  lemma SampleVarScale(c: real, xs: seq<real>)
    requires |xs| >= 2
    ensures SampleVar(Scale(c, xs)) == Sq(c) * SampleVar(xs)
  {
    var ys := Scale(c, xs);
    var n1 := (|xs| - 1) as real;
    var s := SqDev(xs, Mean(xs));
    MeanScale(c, xs);
    SqDevScale(c, xs, Mean(xs), Mean(ys));
    assert |ys| == |xs|;
    assert SqDev(ys, Mean(ys)) == Sq(c) * s;
    assert (|ys| - 1) as real == n1;
    assert SampleVar(ys) == Div(SqDev(ys, Mean(ys)), n1);
    assert SampleVar(ys) == Div(Sq(c) * s, n1);
    MulDiv(Sq(c), s, n1);
  }

  lemma SampleVarConst(xs: seq<real>)
    requires |xs| >= 2 && Constant(xs)
    ensures SampleVar(xs) == 0.0
  {
    MeanConst(xs, xs[0]);
    SqDevConst(xs, xs[0]);
  }

  /** A column that is not constant has a positive sample variance. */
  lemma SampleVarPositive(xs: seq<real>)
    requires |xs| >= 2 && !Constant(xs)
    ensures SampleVar(xs) > 0.0
  {
    var i, j :| 0 <= i < |xs| && 0 <= j < |xs| && xs[i] != xs[j];
    var m := Mean(xs);
    var k := if xs[i] != m then i else j;
    assert xs[k] != m;
    SqDevAtLeastTerm(xs, m, k);
    var d := xs[k] - m;
    SquarePos(d);
    DivPos(SqDev(xs, m), (|xs| - 1) as real);
  }

  lemma SampleVarNonNeg(xs: seq<real>)
    requires |xs| >= 2
    ensures SampleVar(xs) >= 0.0
  {
    SqDevNonNeg(xs, Mean(xs));
  }

  // ---------------------------------------------------------------------------
  // Counting
  // ---------------------------------------------------------------------------

  function CountIf<T>(xs: seq<T>, p: T -> bool): (r: nat)
    ensures r <= |xs|
  {
    if |xs| == 0 then 0 else (if p(xs[0]) then 1 else 0) + CountIf(xs[1..], p)
  }

  /** The count reaches the length exactly when every element qualifies. */
  lemma {:induction false} CountAll<T>(xs: seq<T>, p: T -> bool)
    ensures CountIf(xs, p) == |xs| <==> forall i :: 0 <= i < |xs| ==> p(xs[i])
    decreases |xs|
  {
    if |xs| > 0 {
      CountAll(xs[1..], p);
      assert forall i :: 1 <= i < |xs| ==> xs[1..][i - 1] == xs[i];
    }
  }

  /** The count is zero exactly when no element qualifies. */
  lemma {:induction false} CountNone<T>(xs: seq<T>, p: T -> bool)
    ensures CountIf(xs, p) == 0 <==> forall i :: 0 <= i < |xs| ==> !p(xs[i])
    decreases |xs|
  {
    if |xs| > 0 {
      CountNone(xs[1..], p);
      assert forall i :: 1 <= i < |xs| ==> xs[1..][i - 1] == xs[i];
    }
  }

  lemma {:induction false} CountConcat<T>(a: seq<T>, b: seq<T>, p: T -> bool)
    ensures CountIf(a + b, p) == CountIf(a, p) + CountIf(b, p)
    decreases |a|
  {
    if |a| == 0 {
      assert a + b == b;
    } else {
      assert (a + b)[1..] == a[1..] + b;
      CountConcat(a[1..], b, p);
    }
  }

  /** Three mutually exclusive predicates count at most the length, and
      exactly the length when every element satisfies one of them. */
  lemma {:induction false} CountThree<T>(xs: seq<T>, p: T -> bool, q: T -> bool, s: T -> bool)
    requires forall i :: 0 <= i < |xs| ==> !(p(xs[i]) && q(xs[i])) && !(p(xs[i]) && s(xs[i])) && !(q(xs[i]) && s(xs[i]))
    ensures CountIf(xs, p) + CountIf(xs, q) + CountIf(xs, s) <= |xs|
    ensures (forall i :: 0 <= i < |xs| ==> p(xs[i]) || q(xs[i]) || s(xs[i]))
            ==> CountIf(xs, p) + CountIf(xs, q) + CountIf(xs, s) == |xs|
    decreases |xs|
  {
    if |xs| > 0 {
      assert forall i :: 1 <= i < |xs| ==> xs[1..][i - 1] == xs[i];
      CountThree(xs[1..], p, q, s);
    }
  }

  // ---------------------------------------------------------------------------
  // Rounding (round half to even, as numpy's round does on the scaled value)
  // ---------------------------------------------------------------------------

  function RoundHalfEven(y: real): (k: int)
    ensures y - 0.5 <= k as real <= y + 0.5
  {
    var f := y.Floor;
    var frac := y - f as real;
    if frac < 0.5 then f
    else if frac > 0.5 then f + 1
    else if f % 2 == 0 then f else f + 1
  }

  /** Rounding to an integer is monotone. */
  lemma RoundHalfEvenMono(y: real, z: real)
    requires y <= z
    ensures RoundHalfEven(y) <= RoundHalfEven(z)
  {
    var fy, fz := y.Floor, z.Floor;
    assert fy <= fz;
    if fy < fz {
      assert RoundHalfEven(y) <= fy + 1 <= fz <= RoundHalfEven(z);
    }
  }

  lemma RoundHalfEvenInt(k: int)
    ensures RoundHalfEven(k as real) == k
  {
    assert (k as real).Floor == k;
  }

  /** round(x, 2) */
  function Round2(x: real): (r: real)
    ensures x - 0.005 <= r <= x + 0.005
  {
    RoundHalfEven(x * 100.0) as real / 100.0
  }

  /** round(x, 3) */
  function Round3(x: real): (r: real)
    ensures x - 0.0005 <= r <= x + 0.0005
  {
    RoundHalfEven(x * 1000.0) as real / 1000.0
  }

  lemma Round3Mono(x: real, y: real)
    requires x <= y
    ensures Round3(x) <= Round3(y)
  {
    RoundHalfEvenMono(x * 1000.0, y * 1000.0);
  }

  lemma Round2Mono(x: real, y: real)
    requires x <= y
    ensures Round2(x) <= Round2(y)
  {
    RoundHalfEvenMono(x * 100.0, y * 100.0);
  }

  /** A value with three decimals is unchanged by round(., 3). */
  lemma Round3Fixed(k: int)
    ensures Round3(k as real / 1000.0) == k as real / 1000.0
  {
    assert (k as real / 1000.0) * 1000.0 == k as real;
    RoundHalfEvenInt(k);
  }

  lemma Round2Fixed(k: int)
    ensures Round2(k as real / 100.0) == k as real / 100.0
  {
    assert (k as real / 100.0) * 100.0 == k as real;
    RoundHalfEvenInt(k);
  }

  // ---------------------------------------------------------------------------
  // Quotients and non-finite results
  // ---------------------------------------------------------------------------

  /** A floating-point result that may be NaN or infinite in the program. */
  datatype Coefficient = Finite(value: real) | NotFinite

  /** `c >= t` on a float: false for NaN and -inf. */
  predicate AtLeast(c: Coefficient, t: real)
  {
    c.Finite? && c.value >= t
  }

  lemma DivUnit(a: real, n: real)
    requires n > 0.0
    ensures -n <= a <= n ==> -1.0 <= Div(a, n) <= 1.0
    ensures Div(a, n) == 1.0 <==> a == n
    ensures Div(a, n) == -1.0 <==> a == -n
  {
    assert Div(a, n) * n == a;
  }

  lemma DivMulCancel(a: real, b: real)
    requires b != 0.0
    ensures Div(a, b) * b == a
  {
  }

  lemma DivAdd(a: real, b: real, n: real)
    requires n != 0.0
    ensures Div(a, n) + Div(b, n) == Div(a + b, n)
  {
  }

  lemma DivLess(a: real, n: real)
    requires 0.0 <= a < n
    ensures 0.0 <= Div(a, n) < 1.0
  {
    assert Div(a, n) * n == a;
  }

  // ---------------------------------------------------------------------------
  // Sums of squares
  // ---------------------------------------------------------------------------

  lemma SqOfSum(a: real, b: real)
    ensures Sq(a + b) == Sq(a) + 2.0 * Mul(a, b) + Sq(b)
  {
  }

  /** A number in [0, 1] has its square in [0, 1]. */
  lemma SqUnit(x: real)
    requires 0.0 <= x <= 1.0
    ensures 0.0 <= Sq(x) <= x <= 1.0
  {
    assert Mul(x, 1.0 - x) >= 0.0 by { MulNonNeg(x, 1.0 - x); }
  }

  lemma SquaresUnit(xs: seq<real>)
    requires AllIn(xs, 0.0, 1.0)
    ensures AllIn(Squares(xs), 0.0, 1.0)
  {
    forall i | 0 <= i < |xs| ensures 0.0 <= Squares(xs)[i] <= 1.0 {
      SqUnit(xs[i]);
    }
  }

  lemma SumSquaresNonNeg(xs: seq<real>)
    ensures Sum(Squares(xs)) >= 0.0
  {
    forall i | 0 <= i < |xs| ensures Squares(xs)[i] >= 0.0 {
      SquareNonNeg(xs[i]);
    }
    SumNonNeg(Squares(xs));
  }

  /** For non-negative terms the square of the sum dominates the sum of the
      squares. */
  lemma {:induction false} SumSquaresAtMostSquareSum(xs: seq<real>)
    requires NonNegative(xs)
    ensures Sum(Squares(xs)) <= Sq(Sum(xs))
    decreases |xs|
  {
    if |xs| > 0 {
      var rest := xs[1..];
      assert Squares(xs)[1..] == Squares(rest);
      assert NonNegative(rest) by {
        forall i | 0 <= i < |rest| ensures rest[i] >= 0.0 { assert rest[i] == xs[i + 1]; }
      }
      SumSquaresAtMostSquareSum(rest);
      SumNonNeg(rest);
      MulNonNeg(xs[0], Sum(rest));
      SqOfSum(xs[0], Sum(rest));
    }
  }
}

=== FILE: pdca.dfy ===
/** The Plan-Do-Check-Act improvement loop: a list of improvement actions
    that move from Planned through In Progress to Completed. */
module Pdca {
  import opened Numeric
  import opened Text
  import opened Frames

  datatype Status = Planned | InProgress | Completed | Cancelled

  datatype Priority = High | Medium | Low

  /** `IMP_<timestamp>_<n>`: the timestamp is the caller's clock reading and
      `n` the number of actions created before it in the same call. */
  datatype ActionId = ActionId(stamp: string, index: nat)

  /** An improvement action. Description, owner, target date and
      dependencies are free text or dates that no decision reads. */
  datatype Action = Action(id: ActionId, title: string, priority: Priority, status: Status, metrics: map<string, real>)

  /** A value of an assessment dictionary: `Number` for the values that pass
      `isinstance(score, (int, float))`. */
  datatype Value = Number(x: real) | NotNumber

  const TitlePrefix: string := "Improve "
  const LowScore: real := 80.0
  const ImprovementThreshold: real := 70.0
  const HighPriorityBelow: real := 50.0
  const TargetScore: real := 80.0
  const SuccessMargin: real := 5.0
  const CurrentKey: string := "current_score"
  const TargetKey: string := "target_score"
  const FinalKey: string := "final_score"

  /** `metrics.get(key, default)`. */
  function MetricOr(m: map<string, real>, key: string, default: real): real
  {
    if key in m then m[key] else default
  }

  // ---------------------------------------------------------------------------
  // Plan
  // ---------------------------------------------------------------------------

  /** The numeric entries of an assessment dictionary, in insertion order. */
  function NumericEntries(results: seq<(string, Value)>): (r: seq<(string, real)>)
    ensures |r| <= |results|
    ensures forall p :: p in r <==> (p.0, Number(p.1)) in results
    decreases |results|
  {
    if |results| == 0 then []
    else
      assert results == [results[0]] + results[1..];
      var rest := NumericEntries(results[1..]);
      if results[0].1.Number? then [(results[0].0, results[0].1.x)] + rest else rest
  }

  /** The entries whose score is strictly below `t`, in order. */
  function Under(xs: seq<(string, real)>, t: real): (r: seq<(string, real)>)
    ensures |r| <= |xs|
    ensures forall p :: p in r <==> p in xs && p.1 < t
    decreases |xs|
  {
    if |xs| == 0 then []
    else
      assert xs == [xs[0]] + xs[1..];
      (if xs[0].1 < t then [xs[0]] else []) + Under(xs[1..], t)
  }

  /** `_identify_low_scoring_areas`: numeric scores below 80. */
  function LowScoringAreas(results: seq<(string, Value)>): seq<(string, real)>
  {
    Under(NumericEntries(results), LowScore)
  }

  /** The areas `plan_phase` creates actions for. */
  function Targets(results: seq<(string, Value)>): seq<(string, real)>
  {
    Under(LowScoringAreas(results), ImprovementThreshold)
  }

  /** Filtering below `s` and then below a lower `t` is filtering below `t`. */
  lemma {:induction false} UnderUnder(xs: seq<(string, real)>, s: real, t: real)
    requires t <= s
    ensures Under(Under(xs, s), t) == Under(xs, t)
    decreases |xs|
  {
    if |xs| > 0 {
      UnderUnder(xs[1..], s, t);
      var head := if xs[0].1 < s then [xs[0]] else [];
      assert Under(xs, s) == head + Under(xs[1..], s);
      if xs[0].1 < s {
        assert Under(xs, s)[0] == xs[0];
        assert Under(xs, s)[1..] == Under(xs[1..], s);
      } else {
        assert Under(xs, s) == Under(xs[1..], s);
      }
    }
  }

  /** The 80-point pre-filter is subsumed by the 70-point threshold. */
  lemma TargetsAreNumbersBelowThreshold(results: seq<(string, Value)>)
    ensures Targets(results) == Under(NumericEntries(results), ImprovementThreshold)
    ensures forall p :: p in Targets(results) <==> (p.0, Number(p.1)) in results && p.1 < ImprovementThreshold
  {
    UnderUnder(NumericEntries(results), LowScore, ImprovementThreshold);
  }

  function NewAction(stamp: string, index: nat, area: string, score: real): Action
  {
    Action(ActionId(stamp, index), TitlePrefix + area,
           if score < HighPriorityBelow then High else Medium,
           Planned, map[TargetKey := TargetScore, CurrentKey := score])
  }

  /** The action was planned for `area` at `score`. */
  predicate PlannedFor(a: Action, area: string, score: real)
  {
    a.title == TitlePrefix + area && CurrentKey in a.metrics && a.metrics[CurrentKey] == score
  }

  /** The actions one `plan_phase` call creates. */
  function Plan(results: seq<(string, Value)>, stamp: string): (created: seq<Action>)
    ensures forall i :: 0 <= i < |created| ==> created[i].id == ActionId(stamp, i)
    ensures forall i, j :: 0 <= i < j < |created| ==> created[i].id != created[j].id
    ensures forall a :: a in created ==>
              a.status == Planned && a.priority != Low
              && CurrentKey in a.metrics && a.metrics[CurrentKey] < ImprovementThreshold
              && TargetKey in a.metrics && a.metrics[TargetKey] == TargetScore
              && (a.priority == High <==> a.metrics[CurrentKey] < HighPriorityBelow)
  {
    var ts := Targets(results);
    assert forall i :: 0 <= i < |ts| ==> ts[i] in ts;
    seq(|ts|, i requires 0 <= i < |ts| => NewAction(stamp, i, ts[i].0, ts[i].1))
  }

  /** A numeric score below 70 gets an action, and every action comes from one. */
  lemma PlanCoverage(results: seq<(string, Value)>, stamp: string, area: string, score: real)
    ensures ((area, Number(score)) in results && score < ImprovementThreshold)
            <==> exists a :: a in Plan(results, stamp) && PlannedFor(a, area, score)
  {
    if (area, Number(score)) in results && score < ImprovementThreshold {
      PlanCoversTarget(results, stamp, area, score);
    }
    if a :| a in Plan(results, stamp) && PlannedFor(a, area, score) {
      PlanComesFromTarget(results, stamp, a, area, score);
    }
  }

  lemma PlanCoversTarget(results: seq<(string, Value)>, stamp: string, area: string, score: real)
    requires (area, Number(score)) in results && score < ImprovementThreshold
    ensures exists a :: a in Plan(results, stamp) && PlannedFor(a, area, score)
  {
    TargetsAreNumbersBelowThreshold(results);
    var ts := Targets(results);
    var created := Plan(results, stamp);
    assert (area, score) in ts;
    var i :| 0 <= i < |ts| && ts[i] == (area, score);
    assert created[i] == NewAction(stamp, i, area, score);
    assert PlannedFor(created[i], area, score);
  }

  lemma PlanComesFromTarget(results: seq<(string, Value)>, stamp: string, a: Action, area: string, score: real)
    requires a in Plan(results, stamp) && PlannedFor(a, area, score)
    ensures (area, Number(score)) in results && score < ImprovementThreshold
  {
    TargetsAreNumbersBelowThreshold(results);
    var ts := Targets(results);
    var created := Plan(results, stamp);
    var i :| 0 <= i < |created| && created[i] == a;
    assert a == NewAction(stamp, i, ts[i].0, ts[i].1);
    assert a.title[|TitlePrefix|..] == area;
    assert a.title[|TitlePrefix|..] == ts[i].0;
    assert ts[i] == (area, score);
    assert ts[i] in ts;
  }

  // ---------------------------------------------------------------------------
  // Do
  // ---------------------------------------------------------------------------

  /** The first action carrying `id`, as `next(...)` finds it. */
  function FindAction(actions: seq<Action>, id: ActionId): (r: Option<nat>)
    ensures r.None? <==> forall i :: 0 <= i < |actions| ==> actions[i].id != id
    ensures r.Some? ==> r.value < |actions| && actions[r.value].id == id
                        && forall j :: 0 <= j < r.value ==> actions[j].id != id
    decreases |actions|
  {
    if |actions| == 0 then None
    else if actions[0].id == id then Some(0)
    else
      match FindAction(actions[1..], id)
      case None => None
      case Some(k) => Some(k + 1)
  }

  /** `i` is the first position holding `id`. */
  predicate FirstWithId(actions: seq<Action>, id: ActionId, i: int)
  {
    0 <= i < |actions| && actions[i].id == id && forall j :: 0 <= j < i ==> actions[j].id != id
  }

  /** `do_phase`: the first action with the id becomes In Progress, whatever
      its status was, and its metrics take the update's values. */
  function DoPhase(actions: seq<Action>, id: ActionId, update: map<string, real>): (r: seq<Action>)
    ensures |r| == |actions|
    ensures (forall i :: 0 <= i < |actions| ==> actions[i].id != id) ==> r == actions
    ensures forall i :: FirstWithId(actions, id, i) ==>
              r[i] == actions[i].(status := InProgress, metrics := actions[i].metrics + update)
    ensures forall i :: 0 <= i < |actions| && !FirstWithId(actions, id, i) ==> r[i] == actions[i]
  {
    match FindAction(actions, id)
    case None => actions
    case Some(k) => actions[k := actions[k].(status := InProgress, metrics := actions[k].metrics + update)]
  }

  /** The update wins over the old metrics and every other metric is kept. */
  lemma DoPhaseMetrics(actions: seq<Action>, id: ActionId, update: map<string, real>, i: nat, key: string)
    requires FirstWithId(actions, id, i)
    ensures key in update ==> key in DoPhase(actions, id, update)[i].metrics
                              && DoPhase(actions, id, update)[i].metrics[key] == update[key]
    ensures key !in update && key in actions[i].metrics ==>
              key in DoPhase(actions, id, update)[i].metrics
              && DoPhase(actions, id, update)[i].metrics[key] == actions[i].metrics[key]
  {
  }

  // ---------------------------------------------------------------------------
  // Check
  // ---------------------------------------------------------------------------

  /** `title.replace("Improve ", "")`: every occurrence goes, not only the prefix. */
  function Area(a: Action): string
  {
    RemoveAll(a.title, TitlePrefix)
  }

  /** The action is In Progress and its area was reassessed. */
  predicate Reassessed(a: Action, re: map<string, real>)
  {
    a.status == InProgress && Area(a) in re
  }

  function Improvement(a: Action, re: map<string, real>): real
    requires Area(a) in re
  {
    re[Area(a)] - MetricOr(a.metrics, CurrentKey, 0.0)
  }

  predicate Improved(a: Action, re: map<string, real>)
    requires Area(a) in re
  {
    Improvement(a, re) > SuccessMargin
  }

  /** Some reassessed action carries `k`. */
  predicate ReassessedId(actions: seq<Action>, re: map<string, real>, k: ActionId)
  {
    exists i :: 0 <= i < |actions| && Reassessed(actions[i], re) && actions[i].id == k
  }

  /** No later reassessed action carries the id of action `i`. */
  predicate LastReassessed(actions: seq<Action>, re: map<string, real>, i: int)
    requires 0 <= i < |actions|
  {
    forall j :: i < j < |actions| && Reassessed(actions[j], re) ==> actions[j].id != actions[i].id
  }

  /** The dictionary `check_phase` returns: one entry per reassessed action,
      a later action with the same id overwriting an earlier one. */
  function CheckResults(actions: seq<Action>, re: map<string, real>): map<ActionId, bool>
    decreases |actions|
  {
    if |actions| == 0 then map[]
    else
      var a := actions[|actions| - 1];
      var prev := CheckResults(actions[..|actions| - 1], re);
      if Reassessed(a, re) then prev[a.id := Improved(a, re)] else prev
  }

  /** The keys are the ids of the reassessed actions. */
  lemma {:induction false} CheckResultsKeys(actions: seq<Action>, re: map<string, real>)
    ensures forall k :: k in CheckResults(actions, re) <==> ReassessedId(actions, re, k)
    decreases |actions|
  {
    if |actions| > 0 {
      var n := |actions| - 1;
      var init := actions[..n];
      var a := actions[n];
      var r := CheckResults(actions, re);
      CheckResultsKeys(init, re);
      forall k
        ensures k in r <==> ReassessedId(actions, re, k)
      {
        if ReassessedId(init, re, k) {
          var i :| 0 <= i < n && Reassessed(init[i], re) && init[i].id == k;
          assert init[i] == actions[i];
        }
        if ReassessedId(actions, re, k) && !(Reassessed(a, re) && a.id == k) {
          var i :| 0 <= i < |actions| && Reassessed(actions[i], re) && actions[i].id == k;
          assert i < n && init[i] == actions[i];
        }
      }
    }
  }

  /** Each id holds the verdict of the last reassessed action carrying it. */
  lemma {:induction false} CheckResultsValues(actions: seq<Action>, re: map<string, real>, i: nat)
    requires i < |actions| && Reassessed(actions[i], re) && LastReassessed(actions, re, i)
    ensures actions[i].id in CheckResults(actions, re)
    ensures CheckResults(actions, re)[actions[i].id] == Improved(actions[i], re)
    decreases |actions|
  {
    var n := |actions| - 1;
    if i < n {
      var init := actions[..n];
      assert init[i] == actions[i];
      assert LastReassessed(init, re, i) by {
        forall j | i < j < n && Reassessed(init[j], re)
          ensures init[j].id != init[i].id
        {
          assert init[j] == actions[j];
        }
      }
      CheckResultsValues(init, re, i);
      assert Reassessed(actions[n], re) ==> actions[n].id != actions[i].id;
    }
  }

  /** An action after the check: promoted with its final score when it improved. */
  function CheckAction(a: Action, re: map<string, real>): Action
  {
    if Reassessed(a, re) && Improved(a, re)
    then a.(status := Completed, metrics := a.metrics[FinalKey := re[Area(a)]])
    else a
  }

  datatype Checked = Checked(actions: seq<Action>, results: map<ActionId, bool>)

  /** `check_phase`: reassessed actions that gained more than five points
      become Completed and record their final score; nothing else changes. */
  function CheckPhase(actions: seq<Action>, re: map<string, real>): (r: Checked)
    ensures |r.actions| == |actions|
    ensures r.results == CheckResults(actions, re)
    ensures forall i :: 0 <= i < |actions| && Reassessed(actions[i], re) ==>
              (r.actions[i].status == Completed <==> Improved(actions[i], re))
    ensures forall k :: k in r.results <==> ReassessedId(actions, re, k)
    ensures forall i :: 0 <= i < |actions| && Reassessed(actions[i], re) ==> actions[i].id in r.results
    ensures forall i :: 0 <= i < |actions| && !Reassessed(actions[i], re) ==> r.actions[i] == actions[i]
    ensures forall i :: 0 <= i < |actions| && r.actions[i] != actions[i] ==>
              actions[i].status == InProgress && r.actions[i].status == Completed
              && r.actions[i] == actions[i].(status := Completed, metrics := r.actions[i].metrics)
              && FinalKey in r.actions[i].metrics && Area(actions[i]) in re
              && r.actions[i].metrics[FinalKey] == re[Area(actions[i])]
    ensures forall i :: 0 <= i < |actions| && Reassessed(actions[i], re) && LastReassessed(actions, re, i) ==>
              (r.results[actions[i].id] <==> r.actions[i].status == Completed)
  {
    CheckResultsKeys(actions, re);
    assert forall i :: 0 <= i < |actions| && Reassessed(actions[i], re) ==> ReassessedId(actions, re, actions[i].id);
    assert forall i :: 0 <= i < |actions| && Reassessed(actions[i], re) && LastReassessed(actions, re, i) ==>
             CheckResults(actions, re)[actions[i].id] == Improved(actions[i], re) by {
      forall i | 0 <= i < |actions| && Reassessed(actions[i], re) && LastReassessed(actions, re, i)
        ensures CheckResults(actions, re)[actions[i].id] == Improved(actions[i], re)
      {
        CheckResultsValues(actions, re, i);
      }
    }
    Checked(seq(|actions|, i requires 0 <= i < |actions| => CheckAction(actions[i], re)),
            CheckResults(actions, re))
  }

  /** With distinct ids, the returned verdict of every reassessed action is
      exactly whether it was promoted. */
  lemma CheckVerdictsMatchPromotions(actions: seq<Action>, re: map<string, real>)
    requires forall i, j :: 0 <= i < j < |actions| ==> actions[i].id != actions[j].id
    ensures forall i :: 0 <= i < |actions| && Reassessed(actions[i], re) ==>
              actions[i].id in CheckPhase(actions, re).results
              && (CheckPhase(actions, re).results[actions[i].id] <==> CheckPhase(actions, re).actions[i].status == Completed)
  {
    var r := CheckPhase(actions, re);
    forall i | 0 <= i < |actions| && Reassessed(actions[i], re)
      ensures actions[i].id in r.results
      ensures r.results[actions[i].id] <==> r.actions[i].status == Completed
    {
      assert LastReassessed(actions, re, i);
    }
  }

  /** An action planned for an area without an inner "Improve " is looked up
      under that area. */
  lemma AreaOfPlanned(stamp: string, index: nat, area: string, score: real)
    requires !Contains(area, TitlePrefix)
    ensures Area(NewAction(stamp, index, area, score)) == area
  {
    RemoveAllPrefix(TitlePrefix, area);
    RemoveAllAbsent(area, TitlePrefix);
  }

  /** An area whose own name contains "Improve " loses it: the check looks
      up "X" for the area "Improve X". */
  lemma AreaDropsInnerPrefix()
    ensures Area(NewAction("20240101_000000", 0, "Improve X", 0.0)) == "X"
  {
    RemoveAllPrefix(TitlePrefix, "Improve X");
    assert "Improve X" == TitlePrefix + "X";
    RemoveAllPrefix(TitlePrefix, "X");
    RemoveAllAbsent("X", TitlePrefix);
  }

  // ---------------------------------------------------------------------------
  // Act
  // ---------------------------------------------------------------------------

  /** The figures of a standardization document. */
  datatype Standardization = Standardization(title: string, initial: real, target: real, final: real)

  function StandardizationOf(a: Action): Standardization
  {
    Standardization(a.title, MetricOr(a.metrics, CurrentKey, 0.0),
                    MetricOr(a.metrics, TargetKey, TargetScore), MetricOr(a.metrics, FinalKey, 0.0))
  }

  /** The first action carrying `id`, when it exists and is Completed. */
  function CompletedWithId(actions: seq<Action>, id: ActionId): (r: Option<Action>)
    ensures r.Some? ==> r.value in actions && r.value.status == Completed && r.value.id == id
  {
    match FindAction(actions, id)
    case None => None
    case Some(k) => if actions[k].status == Completed then Some(actions[k]) else None
  }

  /** Some listed id standardizes an action titled `t`. */
  predicate ListedTitle(actions: seq<Action>, ids: seq<ActionId>, t: string)
  {
    exists j :: 0 <= j < |ids| && CompletedWithId(actions, ids[j]).Some?
                && CompletedWithId(actions, ids[j]).value.title == t
  }

  /** `act_phase`: standardizations keyed by title, a later id overwriting
      an earlier one with the same title. */
  function ActPhase(actions: seq<Action>, ids: seq<ActionId>): map<string, Standardization>
    decreases |ids|
  {
    if |ids| == 0 then map[]
    else
      var prev := ActPhase(actions, ids[..|ids| - 1]);
      match CompletedWithId(actions, ids[|ids| - 1])
      case None => prev
      case Some(a) => prev[a.title := StandardizationOf(a)]
  }

  /** Entries exist exactly for the titles of listed ids whose first action
      is Completed. */
  lemma {:induction false} ActPhaseKeys(actions: seq<Action>, ids: seq<ActionId>)
    ensures forall t :: t in ActPhase(actions, ids) <==> ListedTitle(actions, ids, t)
    decreases |ids|
  {
    if |ids| > 0 {
      var n := |ids| - 1;
      var last := CompletedWithId(actions, ids[n]);
      ActPhaseKeys(actions, ids[..n]);
      forall t
        ensures t in ActPhase(actions, ids) <==> ListedTitle(actions, ids, t)
      {
        ListedTitleStep(actions, ids, t);
        assert t in ActPhase(actions, ids) <==>
               t in ActPhase(actions, ids[..n]) || (last.Some? && last.value.title == t);
      }
    }
  }

  /** A title is listed by a longer id list when the shorter list or the
      last id lists it. */
  lemma ListedTitleStep(actions: seq<Action>, ids: seq<ActionId>, t: string)
    requires |ids| > 0
    ensures var n := |ids| - 1;
            ListedTitle(actions, ids, t) <==>
            ListedTitle(actions, ids[..n], t) ||
            (CompletedWithId(actions, ids[n]).Some? && CompletedWithId(actions, ids[n]).value.title == t)
  {
    ListedTitleOfPrefix(actions, ids, t);
    ListedTitleSplits(actions, ids, t);
  }

  /** A title listed by a prefix of the ids is listed by all of them. */
  lemma ListedTitleOfPrefix(actions: seq<Action>, ids: seq<ActionId>, t: string)
    requires |ids| > 0
    ensures ListedTitle(actions, ids[..|ids| - 1], t) ==> ListedTitle(actions, ids, t)
  {
    var init := ids[..|ids| - 1];
    if ListedTitle(actions, init, t) {
      var j :| 0 <= j < |init| && CompletedWithId(actions, init[j]).Some?
               && CompletedWithId(actions, init[j]).value.title == t;
      assert init[j] == ids[j];
    }
  }

  /** A title listed by the ids is listed by their prefix or by the last id. */
  lemma ListedTitleSplits(actions: seq<Action>, ids: seq<ActionId>, t: string)
    requires |ids| > 0
    ensures var n := |ids| - 1;
            ListedTitle(actions, ids, t) ==>
            ListedTitle(actions, ids[..n], t) ||
            (CompletedWithId(actions, ids[n]).Some? && CompletedWithId(actions, ids[n]).value.title == t)
  {
    var n := |ids| - 1;
    if ListedTitle(actions, ids, t) {
      var j :| 0 <= j < |ids| && CompletedWithId(actions, ids[j]).Some?
               && CompletedWithId(actions, ids[j]).value.title == t;
      if j < n {
        assert ids[..n][j] == ids[j];
      }
    }
  }

  /** Every entry holds the figures of a Completed action with its title. */
  lemma {:induction false} ActPhaseValues(actions: seq<Action>, ids: seq<ActionId>, t: string)
    requires t in ActPhase(actions, ids)
    ensures exists a :: a in actions && a.status == Completed && a.title == t
                        && ActPhase(actions, ids)[t] == StandardizationOf(a)
    decreases |ids|
  {
    var n := |ids| - 1;
    var last := CompletedWithId(actions, ids[n]);
    if last.Some? && last.value.title == t {
      assert ActPhase(actions, ids)[t] == StandardizationOf(last.value);
    } else {
      ActPhaseValues(actions, ids[..n], t);
    }
  }

  // ---------------------------------------------------------------------------
  // The loop as a state machine
  // ---------------------------------------------------------------------------

  datatype Step =
    | PlanStep(results: seq<(string, Value)>, stamp: string)
    | DoStep(id: ActionId, update: map<string, real>)
    | CheckStep(reassessment: map<string, real>)

  /** The action list after one phase; the act phase reads it only. */
  function Apply(actions: seq<Action>, step: Step): (r: seq<Action>)
    ensures |r| >= |actions|
    ensures !step.PlanStep? ==> |r| == |actions|
    ensures step.PlanStep? ==> r[..|actions|] == actions
    ensures forall i :: 0 <= i < |actions| ==>
              r[i].id == actions[i].id && r[i].title == actions[i].title && r[i].priority == actions[i].priority
  {
    match step
    case PlanStep(results, stamp) => actions + Plan(results, stamp)
    case DoStep(id, update) => DoPhase(actions, id, update)
    case CheckStep(re) => CheckPhase(actions, re).actions
  }

  /** The action list of a loop that started empty and ran `steps` in order. */
  function Run(steps: seq<Step>): seq<Action>
    decreases |steps|
  {
    if |steps| == 0 then [] else Apply(Run(steps[..|steps| - 1]), steps[|steps| - 1])
  }

  predicate NoCancelled(actions: seq<Action>)
  {
    forall i :: 0 <= i < |actions| ==> actions[i].status != Cancelled
  }

  /** No phase ever cancels an action. */
  lemma ApplyKeepsNoCancelled(actions: seq<Action>, step: Step)
    requires NoCancelled(actions)
    ensures NoCancelled(Apply(actions, step))
  {
    var r := Apply(actions, step);
    if step.PlanStep? {
      var created := Plan(step.results, step.stamp);
      assert r == actions + created;
      forall i | 0 <= i < |r|
        ensures r[i].status != Cancelled
      {
        if i >= |actions| {
          assert r[i] == created[i - |actions|];
          assert created[i - |actions|] in created;
        }
      }
    }
  }

  lemma {:induction false} RunNeverCancels(steps: seq<Step>)
    ensures NoCancelled(Run(steps))
    decreases |steps|
  {
    if |steps| > 0 {
      RunNeverCancels(steps[..|steps| - 1]);
      ApplyKeepsNoCancelled(Run(steps[..|steps| - 1]), steps[|steps| - 1]);
    }
  }

  // ---------------------------------------------------------------------------
  // Report
  // ---------------------------------------------------------------------------

  function StatusIs(s: Status): Action -> bool
  {
    (a: Action) => a.status == s
  }

  function CountStatus(actions: seq<Action>, s: Status): nat
  {
    CountIf(actions, StatusIs(s))
  }

  function CountHigh(actions: seq<Action>): nat
  {
    CountIf(actions, (a: Action) => a.priority == High)
  }

  const ExecutionAdvice: string := "Improve action execution - consider resource allocation"
  const FocusAdvice: string := "Focus on high-priority improvements to maximize impact"
  const CompletionTarget: real := 0.7
  const HighPriorityLimit: nat := 5

  /** The count-based strategic recommendations of the report. */
  function StrategicRecommendations(actions: seq<Action>): (r: seq<string>)
    ensures |actions| == 0 ==> r == []
    ensures ExecutionAdvice in r <==>
              |actions| > 0 && 10 * CountStatus(actions, Completed) < 7 * |actions|
    ensures FocusAdvice in r <==> CountHigh(actions) > HighPriorityLimit
    ensures |r| <= 2 && (|r| == 2 ==> r == [ExecutionAdvice, FocusAdvice])
  {
    var total := |actions|;
    if total > 0 then
      var rate := Div(CountStatus(actions, Completed) as real, total as real);
      DivMulCancel(CountStatus(actions, Completed) as real, total as real);
      assert Mul(rate, total as real) == CountStatus(actions, Completed) as real;
      assert rate < CompletionTarget <==> 10 * CountStatus(actions, Completed) < 7 * total by {
        RateBelow(rate, CountStatus(actions, Completed), total);
      }
      (if rate < CompletionTarget then [ExecutionAdvice] else [])
      + (if CountHigh(actions) > HighPriorityLimit then [FocusAdvice] else [])
    else
      assert CountHigh(actions) == 0;
      []
  }

  /** A completion ratio below 0.7 means fewer than seven in ten completed. */
  lemma RateBelow(rate: real, completed: nat, total: nat)
    requires total > 0 && Mul(rate, total as real) == completed as real
    ensures rate < 0.7 <==> 10 * completed < 7 * total
  {
    var c := completed as real;
    var t := total as real;
    if rate < 0.7 {
      MulPos(0.7 - rate, t);
      assert Mul(0.7 - rate, t) == 0.7 * t - Mul(rate, t);
      assert c < 0.7 * t;
    } else {
      MulNonNeg(rate - 0.7, t);
      assert Mul(rate - 0.7, t) == Mul(rate, t) - 0.7 * t;
      assert c >= 0.7 * t;
    }
  }

  /** The figures of `generate_improvement_report`, without its date and its
      organisation id. Its improvement trends are always empty when the
      report succeeds, so they are not a field. */
  datatype ImprovementReport = ImprovementReport(
    total: nat, completed: nat, inProgress: nat, planned: nat, recommendations: seq<string>)

  /** Some action's title has no second word, so `title.split()[1]` raises. */
  predicate UngroupableTitle(actions: seq<Action>)
  {
    exists i :: 0 <= i < |actions| && !HasSecondWord(actions[i].title)
  }

  /** `generate_improvement_report`. The trend computation first groups
      every action by the second word of its title (an IndexError when a
      title has none) and then calls the unimported `np.mean` for each group
      holding a completed action (a NameError). */
  function Report(actions: seq<Action>): (r: Result<ImprovementReport>)
    ensures r == Err("IndexError") <==> UngroupableTitle(actions)
    ensures r == Err("NameError") <==> !UngroupableTitle(actions) && CountStatus(actions, Completed) > 0
    ensures r.Err? ==> r == Err("IndexError") || r == Err("NameError")
    ensures r.Ok? ==>
              r.value.total == |actions| &&
              r.value.completed == CountStatus(actions, Completed) == 0 &&
              r.value.inProgress == CountStatus(actions, InProgress) &&
              r.value.planned == CountStatus(actions, Planned) &&
              r.value.recommendations == StrategicRecommendations(actions)
    ensures r.Ok? ==> r.value.completed + r.value.inProgress + r.value.planned <= r.value.total
    ensures r.Ok? && NoCancelled(actions) ==> r.value.completed + r.value.inProgress + r.value.planned == r.value.total
    ensures |actions| == 0 ==> r == Ok(ImprovementReport(0, 0, 0, 0, []))
  {
    if UngroupableTitle(actions) then Err("IndexError")
    else if CountStatus(actions, Completed) > 0 then Err("NameError")
    else
      CountThree(actions, StatusIs(Completed), StatusIs(InProgress), StatusIs(Planned));
      Ok(ImprovementReport(|actions|, CountStatus(actions, Completed), CountStatus(actions, InProgress),
                           CountStatus(actions, Planned), StrategicRecommendations(actions)))
  }

  /** A report that succeeds has no completed action, so its completion
      rate is 0 and it always advises on execution. */
  lemma SuccessfulReportAdvisesExecution(actions: seq<Action>)
    requires Report(actions).Ok? && |actions| > 0
    ensures ExecutionAdvice in Report(actions).value.recommendations
  {
  }

  /** An action planned for an area with no visible character, such as the
      empty area, makes every later report fail. */
  lemma BlankAreaBreaksReport(actions: seq<Action>, a: Action, area: string)
    requires a in actions && a.title == TitlePrefix + area
    requires forall j :: 0 <= j < |area| ==> IsSpace(area[j])
    ensures Report(actions) == Err("IndexError")
  {
    assert TitlePrefix == "Improve" + " ";
    SecondWordAfterPrefix("Improve", area);
    assert a.title == "Improve" + " " + area;
    var i :| 0 <= i < |actions| && actions[i] == a;
    assert !HasSecondWord(actions[i].title);
  }

  /** An action planned for an area with a visible character can be grouped. */
  lemma PlannedTitleHasSecondWord(area: string, j: nat)
    requires j < |area| && !IsSpace(area[j])
    ensures HasSecondWord(TitlePrefix + area)
  {
    assert TitlePrefix == "Improve" + " ";
    SecondWordAfterPrefix("Improve", area);
    assert TitlePrefix + area == "Improve" + " " + area;
  }

  /** Whatever phases ran, the three status counts add up to the total. */
  lemma ReportCountsAddUp(steps: seq<Step>)
    ensures var r := Report(Run(steps));
            r.Ok? ==> r.value.completed + r.value.inProgress + r.value.planned == r.value.total
  {
    RunNeverCancels(steps);
  }
}

=== FILE: pipeline.dfy ===
/** The analytics pipeline: per-respondent dimension scores on a 0..100
    scale with their four-level label, the pipeline's own NPQS over answers
    that may be missing, the completion rate, the demographic columns, the
    significant correlations between dimensions, the trend direction and the
    per-cluster summaries. */
module Pipeline {
  import opened Numeric
  import opened Text
  import opened Frames
  import Scoring
  import Validation

  // ---------------------------------------------------------------------------
  // Four-level label on the 0..100 scale
  // ---------------------------------------------------------------------------

  datatype Level4 = Initial | Developpement | Amelioration | Excellence

  function Level4Rank(l: Level4): nat
  {
    match l
    case Initial => 0
    case Developpement => 1
    case Amelioration => 2
    case Excellence => 3
  }

  function Level4Name(l: Level4): string
  {
    match l
    case Initial => "Initial"
    case Developpement => "Développement"
    case Amelioration => "Amélioration"
    case Excellence => "Excellence"
  }

  /** The lowest score that earns a level. */
  function Level4Floor(l: Level4): real
  {
    match l
    case Initial => 0.0
    case Developpement => 40.0
    case Amelioration => 60.0
    case Excellence => 80.0
  }

  /** The label of a mean score: bands of 20 points above 40, closed below. */
  function Level4Of(score: real): (l: Level4)
    ensures l != Initial ==> score >= Level4Floor(l)
    ensures forall m :: Level4Rank(m) > Level4Rank(l) ==> score < Level4Floor(m)
  {
    if score >= 80.0 then Excellence
    else if score >= 60.0 then Amelioration
    else if score >= 40.0 then Developpement
    else Initial
  }

  /** A higher score never gets a lower label. */
  lemma Level4Monotone(a: real, b: real)
    requires a <= b
    ensures Level4Rank(Level4Of(a)) <= Level4Rank(Level4Of(b))
  {
  }

  /** A score exactly on a boundary takes the higher label. */
  lemma Level4BoundaryGoesUp(l: Level4)
    requires l != Initial
    ensures Level4Of(Level4Floor(l)) == l
  {
  }

  /** The label of a possibly undefined mean: every comparison with NaN is
      false, so an undefined mean is labelled Initial. */
  function Level4OfMean(c: Coefficient): (l: Level4)
    ensures c.NotFinite? ==> l == Initial
    ensures c.Finite? ==> l == Level4Of(c.value)
  {
    match c
    case Finite(v) => Level4Of(v)
    case NotFinite => Initial
  }

  // ---------------------------------------------------------------------------
  // Dimension scores
  // ---------------------------------------------------------------------------

  /** Answers on the 1..5 scale become scores on the 20..100 scale. */
  const ScoreScale: real := 20.0

  /** Every respondent's score on a dimension whose items are present:
      twenty times the mean of that respondent's answers to the items. */
  function RespondentScores(f: Frame<real>, d: Dimension): (s: seq<real>)
    requires f.Valid() && HasAll(f, d.items) && |d.items| > 0
    ensures |s| == f.nRows
    ensures forall r :: 0 <= r < f.nRows ==>
              s[r] == ScoreScale * Mean(Row(Validation.DimensionData(f, d), r))
  {
    Scale(ScoreScale, RowMeans(Validation.DimensionData(f, d), f.nRows))
  }

  /** The score of one respondent lies in [20, 100] when the answers lie in [1, 5]. */
  lemma RespondentScoreRange(answers: seq<real>)
    requires |answers| > 0 && AllIn(answers, 1.0, 5.0)
    ensures 20.0 <= ScoreScale * Mean(answers) <= 100.0
  {
    MeanBounds(answers, 1.0, 5.0);
  }

  /** Answering every item at least as high never lowers the score. */
  lemma RespondentScoreMonotone(a: seq<real>, b: seq<real>)
    requires |a| == |b| > 0
    requires forall i :: 0 <= i < |a| ==> a[i] <= b[i]
    ensures ScoreScale * Mean(a) <= ScoreScale * Mean(b)
  {
    SumMono(a, b);
    DivMono(Sum(a), Sum(b), |a| as real);
  }

  /** The score is linear in the answers: shifting every answer by `c`
      shifts the score by 20c. */
  lemma RespondentScoreShift(a: seq<real>, c: real)
    requires |a| > 0
    ensures ScoreScale * Mean(Scoring.Shift(a, c)) == ScoreScale * Mean(a) + ScoreScale * c
  {
    Scoring.SumShift(a, c);
    var n := |a| as real;
    DivAdd(Sum(a), n * c, n);
    DivCancel(c, n);
  }

  /** One entry of the dimension-score report. The individual scores are
      absent (a series of NaN) for a dimension with no items. */
  datatype DimensionScore = DimensionScore(dimension: string, individual: Option<seq<real>>,
                                           mean: Coefficient, level: Level4)

  function ScoreOf(f: Frame<real>, d: Dimension): (e: DimensionScore)
    requires f.Valid() && HasAll(f, d.items)
    ensures e.dimension == d.name
    ensures e.individual.Some? <==> |d.items| > 0
    ensures e.individual.Some? ==> e.individual.value == RespondentScores(f, d)
    ensures e.mean.Finite? <==> |d.items| > 0 && f.nRows > 0
    ensures e.mean.Finite? ==> e.mean.value == Mean(RespondentScores(f, d))
    ensures e.level == Level4OfMean(e.mean)
  {
    if |d.items| == 0 then DimensionScore(d.name, None, NotFinite, Initial)
    else
      var s := RespondentScores(f, d);
      var m := if f.nRows > 0 then Finite(Mean(s)) else NotFinite;
      DimensionScore(d.name, Some(s), m, Level4OfMean(m))
  }

  /** `calculate_dimension_scores`: one entry per dimension whose items are
      all present, in the order of the structure. */
  function DimensionScores(f: Frame<real>, dims: seq<Dimension>): (r: seq<DimensionScore>)
    requires f.Valid()
    ensures |r| == |Validation.Scored(f, dims)|
    ensures forall i :: 0 <= i < |r| ==> r[i] == ScoreOf(f, Validation.Scored(f, dims)[i])
  {
    var ds := Validation.Scored(f, dims);
    seq(|ds|, i requires 0 <= i < |ds| => ScoreOf(f, ds[i]))
  }

  /** With distinct dimension names, a dimension is reported exactly when
      all its items are present. */
  lemma DimensionScoresCoverage(f: Frame<real>, dims: seq<Dimension>, d: Dimension)
    requires f.Valid() && Validation.UniqueNames(dims) && d in dims
    ensures HasAll(f, d.items) <==>
              exists i :: 0 <= i < |DimensionScores(f, dims)| && DimensionScores(f, dims)[i].dimension == d.name
  {
    var ds := Validation.Scored(f, dims);
    var r := DimensionScores(f, dims);
    if HasAll(f, d.items) {
      var i :| 0 <= i < |ds| && ds[i] == d;
      assert r[i].dimension == d.name;
    }
    if i :| 0 <= i < |r| && r[i].dimension == d.name {
      assert ds[i] in dims && ds[i].name == d.name;
      var a :| 0 <= a < |dims| && dims[a] == ds[i];
      var b :| 0 <= b < |dims| && dims[b] == d;
      assert a == b;
    }
  }

  /** With answers in [1, 5] every reported mean lies in [20, 100], so the
      label is never decided by an out-of-scale value. */
  lemma DimensionMeanRange(f: Frame<real>, d: Dimension)
    requires f.Valid() && HasAll(f, d.items) && |d.items| > 0 && f.nRows > 0
    requires forall j :: 0 <= j < |f.cols| ==> AllIn(f.cols[j].values, 1.0, 5.0)
    ensures 20.0 <= ScoreOf(f, d).mean.value <= 100.0
  {
    var cols := Validation.DimensionData(f, d);
    var s := RespondentScores(f, d);
    forall r | 0 <= r < f.nRows ensures 20.0 <= s[r] <= 100.0 {
      var row := Row(cols, r);
      forall j | 0 <= j < |row| ensures 1.0 <= row[j] <= 5.0 {
        assert cols[j] in f.cols;
      }
      RespondentScoreRange(row);
    }
    MeanBounds(s, 20.0, 100.0);
  }

  // ---------------------------------------------------------------------------
  // NPQS over a column that may hold missing answers
  // ---------------------------------------------------------------------------

  /** `series.dropna()`. */
  function Present(xs: seq<Option<real>>): (r: seq<real>)
    ensures |r| <= |xs|
    ensures forall i :: 0 <= i < |xs| && xs[i].Some? ==> xs[i].value in r
  {
    if |xs| == 0 then []
    else
      var rest := Present(xs[1..]);
      assert forall i :: 1 <= i < |xs| ==> xs[i] == xs[1..][i - 1];
      (if xs[0].Some? then [xs[0].value] else []) + rest
  }

  /** `dropna` keeps the order of the answers: it distributes over
      concatenation. */
  lemma {:induction false} PresentConcat(a: seq<Option<real>>, b: seq<Option<real>>)
    ensures Present(a + b) == Present(a) + Present(b)
    decreases |a|
  {
    if |a| == 0 {
      assert a + b == b;
    } else {
      assert (a + b)[0] == a[0];
      assert (a + b)[1..] == a[1..] + b;
      PresentConcat(a[1..], b);
    }
  }

  /** A column without missing answers loses nothing. */
  lemma {:induction false} PresentComplete(xs: seq<real>)
    ensures Present(seq(|xs|, i requires 0 <= i < |xs| => Some(xs[i]))) == xs
    decreases |xs|
  {
    if |xs| > 0 {
      var os := seq(|xs|, i requires 0 <= i < |xs| => Some(xs[i]));
      assert os[1..] == seq(|xs[1..]|, i requires 0 <= i < |xs[1..]| => Some(xs[1..][i]));
      PresentComplete(xs[1..]);
      assert [xs[0]] + xs[1..] == xs;
    }
  }

  datatype PipelineNpqs = PipelineNpqs(score: real, promotersPct: real, detractorsPct: real,
                                       passivesPct: real, responses: nat)

  /** The three shares of `n` answers of which `p` promote and `d` detract
      add up to 100 and their difference is the score. */
  lemma SharesArithmetic(p: nat, d: nat, n: nat)
    requires 0 < n && p + d <= n
    ensures Scoring.Percent(p, n) + Scoring.Percent(n - p - d, n) + Scoring.Percent(d, n) == 100.0
    ensures Div(p as real - d as real, n as real) * 100.0 == Scoring.Percent(p, n) - Scoring.Percent(d, n)
    ensures -100.0 <= Div(p as real - d as real, n as real) * 100.0 <= 100.0
    ensures Scoring.Percent(p, n) >= 0.0 && Scoring.Percent(d, n) >= 0.0 && Scoring.Percent(n - p - d, n) >= 0.0
  {
    DivAdd(p as real, (n - p - d) as real, n as real);
    DivAdd((n - d) as real, d as real, n as real);
    DivUnit(n as real, n as real);
    DivUnit(p as real - d as real, n as real);
    DivAdd(p as real, -(d as real), n as real);
    MulDiv(-1.0, d as real, n as real);
    DivNonNeg(p as real, n as real);
    DivNonNeg(d as real, n as real);
    DivNonNeg((n - p - d) as real, n as real);
  }

  /** The score and the three shares of the non-missing answers. Passives are
      every answer that is neither a promoter nor a detractor, so the shares
      always add up to 100. */
  function NpqsOfAnswers(xs: seq<Option<real>>): (r: PipelineNpqs)
    ensures r.responses == |Present(xs)|
    ensures r.responses == 0 ==> r == PipelineNpqs(0.0, 0.0, 0.0, 0.0, 0)
    ensures r.responses > 0 ==>
              var p := CountIf(Present(xs), Scoring.Promoter);
              var d := CountIf(Present(xs), Scoring.Detractor);
              p + d <= r.responses &&
              r.promotersPct == Scoring.Percent(p, r.responses) &&
              r.detractorsPct == Scoring.Percent(d, r.responses) &&
              r.passivesPct == Scoring.Percent(r.responses - p - d, r.responses)
    ensures r.responses > 0 ==>
              r.promotersPct + r.passivesPct + r.detractorsPct == 100.0 &&
              r.score == r.promotersPct - r.detractorsPct
    ensures -100.0 <= r.score <= 100.0
    ensures 0.0 <= r.promotersPct && 0.0 <= r.passivesPct && 0.0 <= r.detractorsPct
  {
    var ys := Present(xs);
    var n := |ys|;
    if n == 0 then PipelineNpqs(0.0, 0.0, 0.0, 0.0, 0)
    else
      var p := CountIf(ys, Scoring.Promoter);
      var q := CountIf(ys, Scoring.Passive);
      var d := CountIf(ys, Scoring.Detractor);
      CountThree(ys, Scoring.Promoter, Scoring.Passive, Scoring.Detractor);
      var pp := Scoring.Percent(p, n);
      var dp := Scoring.Percent(d, n);
      var np := Scoring.Percent(n - p - d, n);
      SharesArithmetic(p, d, n);
      PipelineNpqs(Div(p as real - d as real, n as real) * 100.0, pp, dp, np, n)
  }

  /** On a column without missing answers the pipeline and the scoring
      system give the same score. */
  lemma NpqsAgreesWithScorer(xs: seq<real>)
    ensures NpqsOfAnswers(seq(|xs|, i requires 0 <= i < |xs| => Some(xs[i]))).score
            == Scoring.CalculateNpqs(xs).score
  {
    PresentComplete(xs);
  }

  /** A missing answer anywhere in the column changes nothing. */
  lemma NpqsIgnoresMissing(a: seq<Option<real>>, b: seq<Option<real>>)
    ensures NpqsOfAnswers(a + [None] + b) == NpqsOfAnswers(a + b)
  {
    PresentConcat(a + [None], b);
    PresentConcat(a, [None]);
    PresentConcat(a, b);
    assert Present([None]) == [];
    assert Present(a) + [] == Present(a);
  }

  /** The index of the last column whose name contains `recommend`. */
  function LastRecommendColumn<T>(cols: seq<Column<T>>): (r: Option<nat>)
    ensures r.None? <==> forall i :: 0 <= i < |cols| ==> !Contains(cols[i].name, "recommend")
    ensures r.Some? ==> r.value < |cols| && Contains(cols[r.value].name, "recommend") &&
                        forall i :: r.value < i < |cols| ==> !Contains(cols[i].name, "recommend")
  {
    if |cols| == 0 then None
    else if Contains(cols[|cols| - 1].name, "recommend") then Some(|cols| - 1)
    else LastRecommendColumn(cols[..|cols| - 1])
  }

  /** `calculate_npqs_score`: a frame without a `recommend` column is an
      error (the program indexes an empty column list). */
  function CalculateNpqsScore(f: Frame<Option<real>>): (r: Result<PipelineNpqs>)
    ensures r.Err? <==> LastRecommendColumn(f.cols).None?
    ensures r.Err? ==> r == Err("IndexError")
    ensures r.Ok? ==> r.value == NpqsOfAnswers(f.cols[LastRecommendColumn(f.cols).value].values)
  {
    match LastRecommendColumn(f.cols)
    case None => Err("IndexError")
    case Some(i) => Ok(NpqsOfAnswers(f.cols[i].values))
  }

  // ---------------------------------------------------------------------------
  // Completion rate
  // ---------------------------------------------------------------------------

  /** A row with an answer in every column. */
  predicate CompleteRow(cols: seq<Column<Option<real>>>, r: nat)
    requires forall j :: 0 <= j < |cols| ==> r < |cols[j].values|
  {
    forall j :: 0 <= j < |cols| ==> cols[j].values[r].Some?
  }

  /** The number of complete rows among the first `k`. */
  function CompleteRows(cols: seq<Column<Option<real>>>, k: nat): (c: nat)
    requires forall j :: 0 <= j < |cols| ==> k <= |cols[j].values|
    ensures c <= k
    ensures c == k <==> forall r :: 0 <= r < k ==> CompleteRow(cols, r)
    ensures c == 0 <==> forall r :: 0 <= r < k ==> !CompleteRow(cols, r)
  {
    if k == 0 then 0
    else CompleteRows(cols, k - 1) + (if CompleteRow(cols, k - 1) then 1 else 0)
  }

  /** `_calculate_completion_rate`: the share of complete rows, in percent. */
  function CompletionRate(f: Frame<Option<real>>): (rate: real)
    requires Rectangular(f.cols, f.nRows)
    ensures 0.0 <= rate <= 100.0
    ensures f.nRows == 0 ==> rate == 0.0
    ensures f.nRows > 0 ==> (rate == 100.0 <==> forall r :: 0 <= r < f.nRows ==> CompleteRow(f.cols, r))
    ensures f.nRows > 0 ==> (rate == 0.0 <==> forall r :: 0 <= r < f.nRows ==> !CompleteRow(f.cols, r))
  {
    if f.nRows == 0 then 0.0
    else
      var c := CompleteRows(f.cols, f.nRows);
      var n := f.nRows as real;
      DivUnit(c as real, n);
      DivNonNeg(c as real, n);
      Div(c as real, n) * 100.0
  }

  /** A frame with an answer in every cell is complete. */
  lemma CompletionOfFullFrame(f: Frame<Option<real>>)
    requires Rectangular(f.cols, f.nRows) && f.nRows > 0
    requires forall j, r :: 0 <= j < |f.cols| && 0 <= r < f.nRows ==> f.cols[j].values[r].Some?
    ensures CompletionRate(f) == 100.0
  {
  }

  // ---------------------------------------------------------------------------
  // Demographic columns
  // ---------------------------------------------------------------------------

  const DemographicKeywords: seq<string> := ["age", "department", "role", "experience", "site"]

  /** A column is demographic when its lower-cased name contains a keyword
      anywhere, not only as a whole word. */
  predicate IsDemographic(name: string)
  {
    exists k :: 0 <= k < |DemographicKeywords| && Contains(Lower(name), DemographicKeywords[k])
  }

  /** How often `v` occurs in `xs`. */
  function Occurrences<T(==)>(xs: seq<T>, v: T): nat
  {
    if |xs| == 0 then 0 else (if xs[0] == v then 1 else 0) + Occurrences(xs[1..], v)
  }

  lemma {:induction false} OccurrencesPositive<T>(xs: seq<T>, v: T)
    ensures Occurrences(xs, v) > 0 <==> v in xs
    decreases |xs|
  {
    if |xs| > 0 {
      OccurrencesPositive(xs[1..], v);
      assert v in xs <==> xs[0] == v || v in xs[1..];
    }
  }

  /** `series.value_counts()`: every distinct value with its number of
      occurrences. The values are generic, so every value is counted:
      pandas drops NaN (a missing answer) by default, which a caller
      models by leaving missing cells out of `xs`. */
  function ValueCounts<T(==, !new)>(xs: seq<T>): (m: map<T, nat>)
    ensures forall v :: v in m <==> v in xs
    ensures forall v :: v in m ==> m[v] == Occurrences(xs, v)
  {
    if |xs| == 0 then map[]
    else
      var m := ValueCounts(xs[1..]);
      assert forall v :: v in xs <==> v == xs[0] || v in xs[1..];
      OccurrencesPositive(xs[1..], xs[0]);
      m[xs[0] := (if xs[0] in m then m[xs[0]] else 0) + 1]
  }

  /** `_analyze_demographics`: the value counts of every demographic column,
      in column order. */
  function Demographics<T(==, !new)>(cols: seq<Column<T>>): (r: seq<(string, map<T, nat>)>)
    ensures forall i :: 0 <= i < |r| ==>
              (IsDemographic(r[i].0) &&
               exists j :: 0 <= j < |cols| && cols[j].name == r[i].0 && r[i].1 == ValueCounts(cols[j].values))
    ensures forall j :: 0 <= j < |cols| && IsDemographic(cols[j].name) ==>
              (cols[j].name, ValueCounts(cols[j].values)) in r
  {
    if |cols| == 0 then []
    else
      var rest := Demographics(cols[1..]);
      assert forall j :: 1 <= j < |cols| ==> cols[j] == cols[1..][j - 1];
      (if IsDemographic(cols[0].name) then [(cols[0].name, ValueCounts(cols[0].values))] else []) + rest
  }

  /** The keyword test matches inside words: a `Management` column counts as
      demographic because it contains `age`. */
  lemma ManagementIsDemographic(name: string)
    requires name == "Management"
    ensures IsDemographic(name)
  {
    var l := Lower(name);
    assert l[3..6] == "age";
    ContainsAt(l, "age", 3);
    assert DemographicKeywords[0] == "age";
  }

  /** Upper and lower case make no difference to the selection. */
  lemma DemographicIgnoresCase(name: string)
    ensures IsDemographic(Lower(name)) <==> IsDemographic(name)
  {
    LowerIdempotent(name);
  }

  // ---------------------------------------------------------------------------
  // Significant correlations
  // ---------------------------------------------------------------------------

  /** A labelled correlation matrix; a cell may be NaN. */
  datatype Matrix = Matrix(names: seq<string>, cells: seq<seq<Coefficient>>)
  {
    predicate Square()
    {
      |cells| == |names| && forall i :: 0 <= i < |cells| ==> |cells[i]| == |names|
    }

    predicate Symmetric()
      requires Square()
    {
      forall i, j :: 0 <= i < |names| && 0 <= j < |names| ==> cells[i][j] == cells[j][i]
    }
  }

  datatype Strength = Moderate | Strong

  datatype SignificantPair = SignificantPair(first: string, second: string, correlation: real, strength: Strength)

  /** `|r| > 0.5`; NaN is never above a threshold. */
  predicate Notable(c: Coefficient)
  {
    c.Finite? && Abs(c.value) > 0.5
  }

  /** Strong above 0.7 in absolute value, moderate otherwise. */
  function StrengthOf(v: real): (s: Strength)
    ensures s == Strong <==> Abs(v) > 0.7
  {
    if Abs(v) > 0.7 then Strong else Moderate
  }

  /** The entry an off-diagonal cell contributes. */
  function PairAt(m: Matrix, i: nat, j: nat): SignificantPair
    requires m.Square() && i < |m.names| && j < |m.names| && m.cells[i][j].Finite?
  {
    var v := m.cells[i][j].value;
    SignificantPair(m.names[i], m.names[j], v, StrengthOf(v))
  }

  /** A cell between two differently labelled rows with a notable value. */
  predicate Selected(m: Matrix, i: nat, j: nat)
    requires m.Square() && i < |m.names| && j < |m.names|
  {
    m.names[i] != m.names[j] && Notable(m.cells[i][j])
  }

  predicate IsSignificant(m: Matrix, p: SignificantPair)
    requires m.Square()
  {
    exists i, j :: 0 <= i < |m.names| && 0 <= j < |m.names| && Selected(m, i, j) && p == PairAt(m, i, j)
  }

  /** The entries of row `i` from column `j` on. */
  function RowPairs(m: Matrix, i: nat, j: nat): (r: seq<SignificantPair>)
    requires m.Square() && i < |m.names| && j <= |m.names|
    ensures forall p :: p in r ==> IsSignificant(m, p)
    ensures forall k :: j <= k < |m.names| && Selected(m, i, k) ==> PairAt(m, i, k) in r
    decreases |m.names| - j
  {
    if j == |m.names| then []
    else (if Selected(m, i, j) then [PairAt(m, i, j)] else []) + RowPairs(m, i, j + 1)
  }

  /** The entries of the rows from `i` on. */
  function MatrixPairs(m: Matrix, i: nat): (r: seq<SignificantPair>)
    requires m.Square() && i <= |m.names|
    ensures forall p :: p in r ==> IsSignificant(m, p)
    ensures forall a, b :: i <= a < |m.names| && 0 <= b < |m.names| && Selected(m, a, b) ==> PairAt(m, a, b) in r
    decreases |m.names| - i
  {
    if i == |m.names| then [] else RowPairs(m, i, 0) + MatrixPairs(m, i + 1)
  }

  /** `_identify_significant_correlations`: every off-diagonal cell above 0.5
      in absolute value, row by row, so both orders of a pair appear. */
  function SignificantCorrelations(m: Matrix): (r: seq<SignificantPair>)
    requires m.Square()
    ensures forall p :: p in r ==> IsSignificant(m, p)
    ensures forall i, j :: 0 <= i < |m.names| && 0 <= j < |m.names| && Selected(m, i, j) ==> PairAt(m, i, j) in r
    ensures forall p :: p in r ==> Abs(p.correlation) > 0.5 && p.first != p.second
  {
    var r := MatrixPairs(m, 0);
    assert forall p :: p in r ==> Abs(p.correlation) > 0.5 && p.first != p.second by {
      forall p | p in r ensures Abs(p.correlation) > 0.5 && p.first != p.second {
        assert IsSignificant(m, p);
      }
    }
    r
  }

  /** In a symmetric matrix a pair is listed in one order exactly when it is
      listed in the other. */
  lemma SignificantSymmetric(m: Matrix, p: SignificantPair)
    requires m.Square() && m.Symmetric()
    requires p in SignificantCorrelations(m)
    ensures SignificantPair(p.second, p.first, p.correlation, p.strength) in SignificantCorrelations(m)
  {
    assert IsSignificant(m, p);
    var i, j :| 0 <= i < |m.names| && 0 <= j < |m.names| && Selected(m, i, j) && p == PairAt(m, i, j);
    assert Selected(m, j, i);
    assert PairAt(m, j, i) == SignificantPair(p.second, p.first, p.correlation, p.strength);
  }

  /** The correlation of two dimension-score series; NaN when a series is
      undefined. */
  function CellOf(f: Frame<real>, a: Dimension, b: Dimension, corr: Validation.Corr): Coefficient
    requires f.Valid() && HasAll(f, a.items) && HasAll(f, b.items)
  {
    match (Validation.ScoreSeries(f, a), Validation.ScoreSeries(f, b))
    case (Some(x), Some(y)) => Finite(corr(x, y))
    case _ => NotFinite
  }

  /** The correlation matrix of the per-respondent scores of the dimensions
      whose items are present; a dimension without items has NaN scores and
      so a NaN correlation. */
  function ScoreMatrix(f: Frame<real>, ds: seq<Dimension>, corr: Validation.Corr): (m: Matrix)
    requires f.Valid() && forall i :: 0 <= i < |ds| ==> HasAll(f, ds[i].items)
    ensures m.Square() && |m.names| == |ds|
    ensures forall i :: 0 <= i < |ds| ==> m.names[i] == ds[i].name
    ensures forall i, j :: 0 <= i < |ds| && 0 <= j < |ds| ==> m.cells[i][j] == CellOf(f, ds[i], ds[j], corr)
  {
    Matrix(seq(|ds|, i requires 0 <= i < |ds| => ds[i].name),
           seq(|ds|, i requires 0 <= i < |ds| =>
             seq(|ds|, j requires 0 <= j < |ds| => CellOf(f, ds[i], ds[j], corr))))
  }

  /** `perform_correlation_analysis`: nothing when no dimension is scored,
      otherwise the significant pairs of the score matrix. */
  function CorrelationAnalysis(f: Frame<real>, dims: seq<Dimension>, corr: Validation.Corr): (r: Option<seq<SignificantPair>>)
    requires f.Valid()
    ensures r.None? <==> |Validation.Scored(f, dims)| == 0
    ensures r.Some? ==> r.value == SignificantCorrelations(ScoreMatrix(f, Validation.Scored(f, dims), corr))
  {
    var ds := Validation.Scored(f, dims);
    if |ds| == 0 then None else Some(SignificantCorrelations(ScoreMatrix(f, ds, corr)))
  }

  /** With a symmetric correlation the score matrix is symmetric, so the
      significant pairs come in both orders. */
  lemma ScoreMatrixSymmetric(f: Frame<real>, ds: seq<Dimension>, corr: Validation.Corr)
    requires f.Valid() && forall i :: 0 <= i < |ds| ==> HasAll(f, ds[i].items)
    requires forall x, y :: corr(x, y) == corr(y, x)
    ensures ScoreMatrix(f, ds, corr).Symmetric()
  {
    var m := ScoreMatrix(f, ds, corr);
    forall i, j | 0 <= i < |ds| && 0 <= j < |ds| ensures m.cells[i][j] == m.cells[j][i] {
      CellSymmetric(f, ds[i], ds[j], corr);
    }
  }

  lemma CellSymmetric(f: Frame<real>, a: Dimension, b: Dimension, corr: Validation.Corr)
    requires f.Valid() && HasAll(f, a.items) && HasAll(f, b.items)
    requires forall x, y :: corr(x, y) == corr(y, x)
    ensures CellOf(f, a, b, corr) == CellOf(f, b, a, corr)
  {
  }

  // ---------------------------------------------------------------------------
  // Trend direction
  // ---------------------------------------------------------------------------

  datatype Trend = Improving | Declining | Stable

  /** Compares the mean of the second half with the mean of the first; for
      an odd length the middle value belongs to the second half. */
  function TrendOf(xs: seq<real>): Trend
    requires |xs| > 1
  {
    var h := |xs| / 2;
    var first := Mean(xs[..h]);
    var second := Mean(xs[h..]);
    if second > first then Improving
    else if second < first then Declining
    else Stable
  }

  /** `_calculate_trend_direction`: one entry per column with more than one
      value, in column order. */
  function TrendDirection(cols: seq<Column<real>>): (r: seq<(string, Trend)>)
    ensures forall i :: 0 <= i < |r| ==>
              exists j :: 0 <= j < |cols| && |cols[j].values| > 1 && r[i] == (cols[j].name, TrendOf(cols[j].values))
    ensures forall j :: 0 <= j < |cols| && |cols[j].values| > 1 ==> (cols[j].name, TrendOf(cols[j].values)) in r
  {
    if |cols| == 0 then []
    else
      var rest := TrendDirection(cols[1..]);
      assert forall j :: 1 <= j < |cols| ==> cols[j] == cols[1..][j - 1];
      (if |cols[0].values| > 1 then [(cols[0].name, TrendOf(cols[0].values))] else []) + rest
  }

  /** A flat series is stable. */
  lemma ConstantIsStable(xs: seq<real>, c: real)
    requires |xs| > 1 && forall i :: 0 <= i < |xs| ==> xs[i] == c
    ensures TrendOf(xs) == Stable
  {
    var h := |xs| / 2;
    MeanConst(xs[..h], c);
    MeanConst(xs[h..], c);
  }

  /** A series that never goes down is never declining. */
  lemma NonDecreasingNeverDeclines(xs: seq<real>)
    requires |xs| > 1
    requires forall i, j :: 0 <= i <= j < |xs| ==> xs[i] <= xs[j]
    ensures TrendOf(xs) != Declining
  {
    var h := |xs| / 2;
    var pivot := xs[h];
    assert AllIn(xs[..h], xs[0], pivot);
    assert AllIn(xs[h..], pivot, xs[|xs| - 1]);
    MeanBounds(xs[..h], xs[0], pivot);
    MeanBounds(xs[h..], pivot, xs[|xs| - 1]);
  }

  /** For an even number of periods, reading the series backwards swaps the
      halves and so swaps improving and declining. */
  lemma ReversedTrend(xs: seq<real>)
    requires |xs| > 1 && |xs| % 2 == 0
    ensures TrendOf(Reverse(xs)) == match TrendOf(xs)
                                    case Improving => Declining
                                    case Declining => Improving
                                    case Stable => Stable
  {
    var n := |xs|;
    var h := n / 2;
    var ys := Reverse(xs);
    assert ys[..h] == Reverse(xs[h..]);
    assert ys[h..] == Reverse(xs[..h]);
    SumReverse(xs[h..]);
    SumReverse(xs[..h]);
  }

  // ---------------------------------------------------------------------------
  // Cluster summaries
  // ---------------------------------------------------------------------------

  /** The position of the first largest value (`idxmax`). */
  function FirstArgMax(xs: seq<real>): (i: nat)
    requires |xs| > 0
    ensures i < |xs|
    ensures forall j :: 0 <= j < |xs| ==> xs[j] <= xs[i]
    ensures forall j :: 0 <= j < i ==> xs[j] < xs[i]
  {
    if |xs| == 1 then 0
    else
      var k := FirstArgMax(xs[..|xs| - 1]);
      assert forall j :: 0 <= j < |xs| - 1 ==> xs[..|xs| - 1][j] == xs[j];
      if xs[|xs| - 1] > xs[k] then |xs| - 1 else k
  }

  /** The position of the first smallest value (`idxmin`). */
  function FirstArgMin(xs: seq<real>): (i: nat)
    requires |xs| > 0
    ensures i < |xs|
    ensures forall j :: 0 <= j < |xs| ==> xs[i] <= xs[j]
    ensures forall j :: 0 <= j < i ==> xs[i] < xs[j]
  {
    if |xs| == 1 then 0
    else
      var k := FirstArgMin(xs[..|xs| - 1]);
      assert forall j :: 0 <= j < |xs| - 1 ==> xs[..|xs| - 1][j] == xs[j];
      if xs[|xs| - 1] < xs[k] then |xs| - 1 else k
  }

  /** `i` is where `idxmax` lands: a maximum with every earlier value smaller. */
  predicate IsFirstMax(xs: seq<real>, i: int)
  {
    0 <= i < |xs| && (forall j :: 0 <= j < |xs| ==> xs[j] <= xs[i]) && forall j :: 0 <= j < i ==> xs[j] < xs[i]
  }

  /** `i` is where `idxmin` lands: a minimum with every earlier value larger. */
  predicate IsFirstMin(xs: seq<real>, i: int)
  {
    0 <= i < |xs| && (forall j :: 0 <= j < |xs| ==> xs[i] <= xs[j]) && forall j :: 0 <= j < i ==> xs[i] < xs[j]
  }

  /** The strongest and the weakest dimension of a cluster. */
  datatype Profile = Profile(strongest: string, weakest: string)

  function ProfileOf(names: seq<string>, means: seq<real>): (p: Profile)
    requires |names| == |means| > 0
    ensures exists i :: 0 <= i < |means| && p.strongest == names[i] && IsFirstMax(means, i)
    ensures exists i :: 0 <= i < |means| && p.weakest == names[i] && IsFirstMin(means, i)
  {
    Profile(names[FirstArgMax(means)], names[FirstArgMin(means)])
  }

  /** `_interpret_cluster_profile`. */
  function ProfileText(p: Profile): string
  {
    "Fort en " + p.strongest + ", à améliorer en " + p.weakest
  }

  /** With distinct names, the strongest and the weakest dimension coincide
      exactly when all the means are equal. */
  lemma ProfileFlatIff(names: seq<string>, means: seq<real>)
    requires |names| == |means| > 0
    requires forall i, j :: 0 <= i < j < |names| ==> names[i] != names[j]
    ensures ProfileOf(names, means).strongest == ProfileOf(names, means).weakest <==> Constant(means)
  {
    var hi, lo := FirstArgMax(means), FirstArgMin(means);
    if Constant(means) {
      assert means[0] == means[hi] && means[0] == means[lo];
    }
    if names[hi] == names[lo] {
      assert hi == lo;
    }
  }

  /** The number of clusters the pipeline always asks for. */
  const ClusterCount: nat := 3

  /** The values of `xs` on the rows labelled `c`. */
  function Members(xs: seq<real>, labels: seq<nat>, c: nat): (r: seq<real>)
    requires |xs| == |labels|
    ensures |r| == Occurrences(labels, c)
    ensures forall v :: v in r ==> v in xs
  {
    if |xs| == 0 then []
    else (if labels[0] == c then [xs[0]] else []) + Members(xs[1..], labels[1..], c)
  }

  /** A single row is a member exactly when it carries the label. */
  lemma MembersOne(x: real, l: nat, c: nat)
    ensures Members([x], [l], c) == if l == c then [x] else []
  {
  }

  /** The members of two blocks of rows are the members of the first block
      followed by those of the second: with `MembersOne`, this pins
      `Members` down as the label mask `cluster_data[cluster_mask]`. */
  lemma {:induction false} MembersConcat(a: seq<real>, la: seq<nat>, b: seq<real>, lb: seq<nat>, c: nat)
    requires |a| == |la| && |b| == |lb|
    ensures Members(a + b, la + lb, c) == Members(a, la, c) + Members(b, lb, c)
    decreases |a|
  {
    if |a| > 0 {
      assert (a + b)[1..] == a[1..] + b && (la + lb)[1..] == la[1..] + lb;
      MembersConcat(a[1..], la[1..], b, lb, c);
    } else {
      assert a + b == b && la + lb == lb;
    }
  }

  /** The per-respondent mean of every dimension (unscaled), one series per
      dimension. */
  function DimensionSeries(f: Frame<real>, ds: seq<Dimension>): (r: seq<seq<real>>)
    requires f.Valid() && forall i :: 0 <= i < |ds| ==> HasAll(f, ds[i].items) && |ds[i].items| > 0
    ensures |r| == |ds|
    ensures forall i :: 0 <= i < |ds| ==> |r[i]| == f.nRows
    ensures forall i :: 0 <= i < |ds| ==> r[i] == RowMeans(Validation.DimensionData(f, ds[i]), f.nRows)
  {
    seq(|ds|, i requires 0 <= i < |ds| => RowMeans(Validation.DimensionData(f, ds[i]), f.nRows))
  }

  function NamesOf(ds: seq<Dimension>): (r: seq<string>)
    ensures |r| == |ds| && forall i :: 0 <= i < |ds| ==> r[i] == ds[i].name
  {
    seq(|ds|, i requires 0 <= i < |ds| => ds[i].name)
  }

  /** The mean of every dimension over the members of a non-empty cluster. */
  function ClusterMeans(series: seq<seq<real>>, labels: seq<nat>, c: nat): (ms: seq<real>)
    requires Occurrences(labels, c) > 0
    requires forall k :: 0 <= k < |series| ==> |series[k]| == |labels|
    ensures |ms| == |series|
    ensures forall k :: 0 <= k < |series| ==> ms[k] == Mean(Members(series[k], labels, c))
  {
    seq(|series|, k requires 0 <= k < |series| => Mean(Members(series[k], labels, c)))
  }

  /** One cluster: its 1-based label, size, share of the respondents, and
      (when it has members) its dimension means and profile. */
  datatype ClusterSummary = ClusterSummary(number: nat, size: nat, percentage: real,
                                           characteristics: Option<seq<real>>, profile: Option<Profile>)

  datatype Clustering = NoClusters | Clustered(count: nat, clusters: seq<ClusterSummary>)

  function SummaryOf(names: seq<string>, series: seq<seq<real>>, labels: seq<nat>, c: nat, n: nat): (s: ClusterSummary)
    requires n > 0 && |names| == |series| > 0
    requires forall k :: 0 <= k < |series| ==> |series[k]| == |labels|
    ensures s.number == c + 1 && s.size == Occurrences(labels, c)
    ensures s.percentage == Div(s.size as real, n as real) * 100.0
    ensures s.characteristics.Some? <==> s.size > 0
    ensures s.characteristics.Some? ==> |s.characteristics.value| == |names|
    ensures s.profile.Some? <==> s.size > 0
    ensures s.size > 0 ==> s.profile.value == ProfileOf(names, s.characteristics.value)
  {
    var size := Occurrences(labels, c);
    if size == 0 then ClusterSummary(c + 1, 0, Div(0.0, n as real) * 100.0, None, None)
    else
      var ms := ClusterMeans(series, labels, c);
      ClusterSummary(c + 1, size, Div(size as real, n as real) * 100.0, Some(ms), Some(ProfileOf(names, ms)))
  }

  /** One summary per cluster label 0, 1, 2. */
  function Summaries(names: seq<string>, series: seq<seq<real>>, labels: seq<nat>, n: nat): (cs: seq<ClusterSummary>)
    requires n > 0 && |names| == |series| > 0
    requires forall k :: 0 <= k < |series| ==> |series[k]| == |labels|
    ensures |cs| == ClusterCount
    ensures forall c :: 0 <= c < ClusterCount ==> cs[c] == SummaryOf(names, series, labels, c, n)
    ensures forall c: nat :: c < ClusterCount ==>
              cs[c].number == c + 1 && cs[c].size == Occurrences(labels, c) &&
              cs[c].percentage == Div(cs[c].size as real, n as real) * 100.0
  {
    var cs := seq(ClusterCount, c requires 0 <= c < ClusterCount => SummaryOf(names, series, labels, c, n));
    assert forall c: nat :: c < ClusterCount ==> cs[c].size == Occurrences(labels, c);
    cs
  }

  /** Some scored dimension has no items: its row means are NaN, which
      k-means rejects. */
  predicate EmptyDimension(ds: seq<Dimension>)
  {
    exists i :: 0 <= i < |ds| && |ds[i].items| == 0
  }

  /** `perform_clustering_analysis` around a given labelling of the
      respondents: no clusters when no dimension is scored, otherwise one
      summary per cluster label. Naming the columns after every dimension
      fails when one was skipped, and k-means fails on fewer rows than
      clusters and on NaN means; each is a ValueError. */
  function ClusterAnalysis(f: Frame<real>, dims: seq<Dimension>, labels: seq<nat>): (r: Result<Clustering>)
    requires f.Valid() && |labels| == f.nRows
    ensures r == Ok(NoClusters) <==> |Validation.Scored(f, dims)| == 0
    ensures r.Err? <==>
              |Validation.Scored(f, dims)| > 0 &&
              (|Validation.Scored(f, dims)| != |dims| || f.nRows < ClusterCount || EmptyDimension(dims))
    ensures r.Err? ==> r == Err("ValueError")
    ensures r.Ok? && r.value.Clustered? ==>
              Validation.Scored(f, dims) == dims && r.value.count == ClusterCount && |r.value.clusters| == ClusterCount
    ensures r.Ok? && r.value.Clustered? ==> forall c: nat :: c < ClusterCount ==>
              r.value.clusters[c].number == c + 1 && r.value.clusters[c].size == Occurrences(labels, c) &&
              r.value.clusters[c].percentage == Div(r.value.clusters[c].size as real, f.nRows as real) * 100.0
  {
    var ds := Validation.Scored(f, dims);
    if |ds| == 0 then Ok(NoClusters)
    else if |ds| != |dims| || f.nRows < ClusterCount || EmptyDimension(dims) then Err("ValueError")
    else
      ScoredAll(f, dims);
      assert forall i :: 0 <= i < |ds| ==> HasAll(f, ds[i].items) && |ds[i].items| > 0;
      var series := DimensionSeries(f, ds);
      Ok(Clustered(ClusterCount, Summaries(NamesOf(ds), series, labels, f.nRows)))
  }

  /** Scoring keeps every dimension exactly when none is skipped. */
  lemma ScoredAll(f: Frame<real>, dims: seq<Dimension>)
    requires |Validation.Scored(f, dims)| == |dims|
    ensures Validation.Scored(f, dims) == dims
  {
    if |dims| > 0 {
      ScoredAll(f, dims[1..]);
    }
  }

  lemma {:induction false} OccurrencesOfThree(labels: seq<nat>)
    requires forall i :: 0 <= i < |labels| ==> labels[i] < 3
    ensures Occurrences(labels, 0) + Occurrences(labels, 1) + Occurrences(labels, 2) == |labels|
    decreases |labels|
  {
    if |labels| > 0 {
      OccurrencesOfThree(labels[1..]);
    }
  }

  /** When every respondent carries one of the three labels, the cluster
      sizes add up to the number of respondents and the percentages to 100. */
  lemma ClusterPercentagesTotal(f: Frame<real>, dims: seq<Dimension>, labels: seq<nat>)
    requires f.Valid() && |labels| == f.nRows
    requires |dims| > 0 && |Validation.Scored(f, dims)| == |dims|
    requires f.nRows >= ClusterCount && !EmptyDimension(dims)
    requires forall i :: 0 <= i < |labels| ==> labels[i] < ClusterCount
    ensures ClusterAnalysis(f, dims, labels).Ok? && ClusterAnalysis(f, dims, labels).value.Clustered?
    ensures var cs := ClusterAnalysis(f, dims, labels).value.clusters;
            cs[0].size + cs[1].size + cs[2].size == f.nRows &&
            cs[0].percentage + cs[1].percentage + cs[2].percentage == 100.0
  {
    SharesTotal(ClusterAnalysis(f, dims, labels).value.clusters, labels);
  }

  lemma SharesTotal(cs: seq<ClusterSummary>, labels: seq<nat>)
    requires |labels| > 0 && |cs| == ClusterCount
    requires forall i :: 0 <= i < |labels| ==> labels[i] < ClusterCount
    requires forall c: nat :: c < ClusterCount ==>
               cs[c].size == Occurrences(labels, c) &&
               cs[c].percentage == Div(cs[c].size as real, |labels| as real) * 100.0
    ensures cs[0].size + cs[1].size + cs[2].size == |labels|
    ensures cs[0].percentage + cs[1].percentage + cs[2].percentage == 100.0
  {
    OccurrencesOfThree(labels);
    var n := |labels| as real;
    assert (cs[0].size + cs[1].size + cs[2].size) as real == n;
    ThreeShares(cs[0].size as real, cs[1].size as real, cs[2].size as real, n);
  }

  lemma ThreeShares(a: real, b: real, c: real, n: real)
    requires n > 0.0 && a + b + c == n
    ensures Div(a, n) * 100.0 + Div(b, n) * 100.0 + Div(c, n) * 100.0 == 100.0
  {
    DivAdd(a, b, n);
    DivAdd(a + b, c, n);
    DivUnit(n, n);
  }
}

=== FILE: scoring.dfy ===
/** The scoring system: the Net Promoter Quality Score, the five-level
    maturity grid, the EFQM RADAR weighted score, the statistical validator's
    reliability and validity verdicts and the benchmark position. */
module Scoring {
  import opened Numeric
  import opened Frames
  import Validation

  // ---------------------------------------------------------------------------
  // Net Promoter Quality Score
  // ---------------------------------------------------------------------------

  /** The AFNOR thresholds on a 0..10 answer. */
  predicate Promoter(x: real) { x >= 9.0 }
  predicate Passive(x: real) { 7.0 <= x <= 8.0 }
  predicate Detractor(x: real) { x <= 6.0 }

  /** A whole answer on the 0..10 scale. */
  predicate OnScale(x: real)
  {
    x == x.Floor as real && 0.0 <= x <= 10.0
  }

  datatype Shares = Shares(promoter: real, passive: real, detractor: real)

  /** The score and category counts; the percentages are only reported for
      a non-empty series. */
  datatype Npqs = Npqs(score: real, promoters: nat, passives: nat, detractors: nat, shares: Option<Shares>)

  function Percent(count: nat, total: nat): real
    requires total > 0
  {
    Div(count as real, total as real) * 100.0
  }

  function CalculateNpqs(responses: seq<real>): (r: Npqs)
    ensures -100.0 <= r.score <= 100.0
    ensures r.promoters == CountIf(responses, Promoter)
    ensures r.passives == CountIf(responses, Passive)
    ensures r.detractors == CountIf(responses, Detractor)
    ensures r.promoters + r.passives + r.detractors <= |responses|
    ensures r.shares.None? <==> |responses| == 0
    ensures |responses| == 0 ==> r.score == 0.0
    ensures |responses| > 0 ==>
              var n := |responses|;
              r.score == Div(r.promoters as real - r.detractors as real, n as real) * 100.0 &&
              r.shares == Some(Shares(Percent(r.promoters, n), Percent(r.passives, n), Percent(r.detractors, n)))
  {
    var p := CountIf(responses, Promoter);
    var q := CountIf(responses, Passive);
    var d := CountIf(responses, Detractor);
    CountThree(responses, Promoter, Passive, Detractor);
    var n := |responses|;
    if n == 0 then Npqs(0.0, 0, 0, 0, None)
    else
      DivUnit(p as real - d as real, n as real);
      Npqs(Div(p as real - d as real, n as real) * 100.0, p, q, d,
           Some(Shares(Percent(p, n), Percent(q, n), Percent(d, n))))
  }

  /** The score is 100 exactly when every answer is a promoter. */
  lemma NpqsTopIff(responses: seq<real>)
    requires |responses| > 0
    ensures CalculateNpqs(responses).score == 100.0 <==> forall i :: 0 <= i < |responses| ==> Promoter(responses[i])
  {
    var n := |responses|;
    var p := CountIf(responses, Promoter);
    var d := CountIf(responses, Detractor);
    CountThree(responses, Promoter, Passive, Detractor);
    DivUnit(p as real - d as real, n as real);
    CountAll(responses, Promoter);
  }

  /** The score is -100 exactly when every answer is a detractor. */
  lemma NpqsBottomIff(responses: seq<real>)
    requires |responses| > 0
    ensures CalculateNpqs(responses).score == -100.0 <==> forall i :: 0 <= i < |responses| ==> Detractor(responses[i])
  {
    var n := |responses|;
    var p := CountIf(responses, Promoter);
    var d := CountIf(responses, Detractor);
    CountThree(responses, Promoter, Passive, Detractor);
    DivUnit(p as real - d as real, n as real);
    CountAll(responses, Detractor);
  }

  /** Every whole answer on the scale falls in exactly one category. */
  lemma CategoriesPartitionScale(x: real)
    requires OnScale(x)
    ensures Promoter(x) || Passive(x) || Detractor(x)
    ensures !(Promoter(x) && Passive(x)) && !(Promoter(x) && Detractor(x)) && !(Passive(x) && Detractor(x))
  {
  }

  /** An answer between two whole points (8.5) is in no category, so the
      counts need not add up for fractional data. */
  lemma FractionalAnswerUncounted()
    ensures !Promoter(8.5) && !Passive(8.5) && !Detractor(8.5)
  {
  }

  /** For whole answers the counts add up to the total and the shares to 100. */
  lemma NpqsSharesTotal(responses: seq<real>)
    requires |responses| > 0
    requires forall i :: 0 <= i < |responses| ==> OnScale(responses[i])
    ensures var r := CalculateNpqs(responses);
            r.promoters + r.passives + r.detractors == |responses| &&
            r.shares.value.promoter + r.shares.value.passive + r.shares.value.detractor == 100.0
  {
    var n := |responses|;
    forall i | 0 <= i < n
      ensures Promoter(responses[i]) || Passive(responses[i]) || Detractor(responses[i])
    {
      CategoriesPartitionScale(responses[i]);
    }
    CountThree(responses, Promoter, Passive, Detractor);
    var p := CountIf(responses, Promoter);
    var q := CountIf(responses, Passive);
    var d := CountIf(responses, Detractor);
    DivAdd(p as real, q as real, n as real);
    DivAdd((p + q) as real, d as real, n as real);
    DivUnit(n as real, n as real);
  }

  // ---------------------------------------------------------------------------
  // Five-level maturity grid
  // ---------------------------------------------------------------------------

  datatype Maturity = InitialAdHoc | Managed | Defined | QuantitativelyManaged | Optimizing

  function Rank(l: Maturity): (k: nat)
    ensures 1 <= k <= 5
  {
    match l
    case InitialAdHoc => 1
    case Managed => 2
    case Defined => 3
    case QuantitativelyManaged => 4
    case Optimizing => 5
  }

  function MaturityName(l: Maturity): string
  {
    match l
    case InitialAdHoc => "Initial/Ad-hoc"
    case Managed => "Managed"
    case Defined => "Defined"
    case QuantitativelyManaged => "Quantitatively Managed"
    case Optimizing => "Optimizing"
  }

  lemma RankInjective(a: Maturity, b: Maturity)
    ensures Rank(a) == Rank(b) <==> a == b
  {
  }

  /** The grid rounds the score to the nearest level, halves going up, and
      clamps to 1..5. */
  function MaturityLevel(score: real): (l: Maturity)
    ensures Rank(l) == MaxInt(1, if (score + 0.5).Floor < 5 then (score + 0.5).Floor else 5)
  {
    if score >= 4.5 then Optimizing
    else if score >= 3.5 then QuantitativelyManaged
    else if score >= 2.5 then Defined
    else if score >= 1.5 then Managed
    else InitialAdHoc
  }

  /** A higher score never gives a lower level. */
  lemma MaturityLevelMonotone(a: real, b: real)
    requires a <= b
    ensures Rank(MaturityLevel(a)) <= Rank(MaturityLevel(b))
  {
  }

  /** A score exactly on a boundary belongs to the higher level. */
  lemma MaturityBoundaryGoesUp(k: int)
    requires 1 <= k <= 4
    ensures Rank(MaturityLevel(k as real + 0.5)) == k + 1
  {
  }

  // ---------------------------------------------------------------------------
  // Weighted maturity
  // ---------------------------------------------------------------------------

  datatype DimensionMaturity = DimensionMaturity(dimension: string, score: real, weightedScore: real, level: Maturity)

  datatype MaturityReport =
    | NoResponses
    | Report(overall: Coefficient, overallLevel: Maturity, dimensions: seq<DimensionMaturity>,
             distribution: seq<LevelCounts>)

  /** Per-level response counts of one column, indexed by rank - 1. */
  datatype LevelCounts = LevelCounts(dimension: string, counts: seq<nat>)

  /** The weight of a column: 1.0 for every column by default. */
  function WeightOf(weights: Option<map<string, real>>, name: string): Option<real>
  {
    match weights
    case None => Some(1.0)
    case Some(m) => if name in m then Some(m[name]) else None
  }

  /** The columns that carry a weight, in column order. */
  function WeightedColumns(cols: seq<Column<real>>, weights: Option<map<string, real>>): (r: seq<Column<real>>)
    ensures |r| <= |cols|
    ensures forall i :: 0 <= i < |r| ==> r[i] in cols && WeightOf(weights, r[i].name).Some?
    ensures forall c :: c in cols && WeightOf(weights, c.name).Some? ==> c in r
    ensures weights.None? ==> r == cols
  {
    if |cols| == 0 then []
    else
      var rest := WeightedColumns(cols[1..], weights);
      if WeightOf(weights, cols[0].name).Some? then
        assert cols == [cols[0]] + cols[1..];
        [cols[0]] + rest
      else
        assert weights.Some?;
        rest
  }

  function Weights(cols: seq<Column<real>>, weights: Option<map<string, real>>): (ws: seq<real>)
    requires forall i :: 0 <= i < |cols| ==> WeightOf(weights, cols[i].name).Some?
    ensures |ws| == |cols|
    ensures forall i :: 0 <= i < |cols| ==> ws[i] == WeightOf(weights, cols[i].name).value
  {
    seq(|cols|, i requires 0 <= i < |cols| => WeightOf(weights, cols[i].name).value)
  }

  function ColumnMeans(cols: seq<Column<real>>, n: nat): (ms: seq<real>)
    requires n > 0 && Rectangular(cols, n)
    ensures |ms| == |cols|
    ensures forall i :: 0 <= i < |cols| ==> ms[i] == Mean(cols[i].values)
  {
    seq(|cols|, i requires 0 <= i < |cols| => Mean(cols[i].values))
  }

  /** round(mean * weight, 2) for every weighted column. */
  function WeightedScores(means: seq<real>, ws: seq<real>): (r: seq<real>)
    requires |means| == |ws|
    ensures |r| == |means|
    ensures forall i :: 0 <= i < |r| ==> r[i] == Round2(Mul(means[i], ws[i]))
  {
    seq(|means|, i requires 0 <= i < |means| => Round2(Mul(means[i], ws[i])))
  }

  /** The weighted scores of a report's dimensions. */
  function WeightedScoreValues(dims: seq<DimensionMaturity>): (r: seq<real>)
    ensures |r| == |dims|
    ensures forall i :: 0 <= i < |dims| ==> r[i] == dims[i].weightedScore
  {
    seq(|dims|, i requires 0 <= i < |dims| => dims[i].weightedScore)
  }

  /** The overall level when the weights cancel out: numpy divides by zero to
      +inf (Optimizing), -inf or NaN (both Initial/Ad-hoc). */
  function DegenerateLevel(total: real): Maturity
  {
    if total > 0.0 then Optimizing else InitialAdHoc
  }

  /** Scores every weighted column and the weighted overall score. Without
      any weighted column the program divides zero by zero. */
  function CalculateMaturity(f: Frame<real>, weights: Option<map<string, real>>): (r: Result<MaturityReport>)
    requires f.Valid()
    ensures f.Empty() ==> r == Ok(NoResponses)
    ensures r.Err? <==> !f.Empty() && |WeightedColumns(f.cols, weights)| == 0
    ensures r.Ok? && r.value.Report? ==>
              var scored := WeightedColumns(f.cols, weights);
              |r.value.dimensions| == |scored| &&
              (forall i :: 0 <= i < |scored| ==>
                 r.value.dimensions[i].dimension == scored[i].name &&
                 r.value.dimensions[i].level == MaturityLevel(r.value.dimensions[i].score)) &&
              (r.value.overall.Finite? ==> r.value.overallLevel == MaturityLevel(r.value.overall.value)) &&
              r.value.distribution == Distribution(f)
    ensures r.Ok? && r.value.Report? ==>
              var scored := WeightedColumns(f.cols, weights);
              forall i :: 0 <= i < |scored| ==>
                |scored[i].values| > 0 &&
                r.value.dimensions[i].score == Mean(scored[i].values) &&
                r.value.dimensions[i].weightedScore
                  == Round2(Mul(Mean(scored[i].values), WeightOf(weights, scored[i].name).value))
    ensures r.Ok? && r.value.Report? ==>
              var totalWeight := Sum(Weights(WeightedColumns(f.cols, weights), weights));
              var total := Sum(WeightedScoreValues(r.value.dimensions));
              (totalWeight == 0.0 ==> r.value.overall == NotFinite && r.value.overallLevel == DegenerateLevel(total)) &&
              (totalWeight != 0.0 ==> r.value.overall == Finite(Div(total, totalWeight)))
  {
    if f.Empty() then Ok(NoResponses)
    else
      var scored := WeightedColumns(f.cols, weights);
      if |scored| == 0 then Err("division by zero")
      else
        var means := ColumnMeans(scored, f.nRows);
        var ws := Weights(scored, weights);
        var weighted := WeightedScores(means, ws);
        var dims := seq(|scored|, i requires 0 <= i < |scored| =>
          DimensionMaturity(scored[i].name, means[i], weighted[i], MaturityLevel(means[i])));
        assert WeightedScoreValues(dims) == weighted;
        var totalWeight := Sum(ws);
        var total := Sum(weighted);
        var overall := if totalWeight == 0.0 then NotFinite else Finite(Div(total, totalWeight));
        var level := if totalWeight == 0.0 then DegenerateLevel(total) else MaturityLevel(Div(total, totalWeight));
        Ok(Report(overall, level, dims, Distribution(f)))
  }

  /** With the default weights the overall score is the mean of the rounded
      column means, so it is within 0.005 of the mean of the column means. */
  lemma DefaultWeightsAverage(f: Frame<real>)
    requires f.Valid() && !f.Empty()
    ensures var r := CalculateMaturity(f, None);
            var means := ColumnMeans(f.cols, f.nRows);
            r.Ok? && r.value.Report? && r.value.overall.Finite? &&
            r.value.overall.value == Mean(WeightedScores(means, Weights(f.cols, None))) &&
            Mean(means) - 0.005 <= r.value.overall.value <= Mean(means) + 0.005
  {
    var means := ColumnMeans(f.cols, f.nRows);
    var ws := Weights(f.cols, None);
    var weighted := WeightedScores(means, ws);
    assert WeightedColumns(f.cols, None) == f.cols;
    SumConst(ws, 1.0);
    assert Sum(ws) == |weighted| as real;
    MaturityOverall(f, None);
    var r := CalculateMaturity(f, None);
    assert r.value.overall == Finite(Mean(weighted));
    forall i | 0 <= i < |means| ensures means[i] - 0.005 <= weighted[i] <= means[i] + 0.005 {
      assert Mul(means[i], ws[i]) == means[i];
    }
    RoundedMeanBounds(means, weighted);
  }

  /** Answers of 5 everywhere give an Optimizing organisation under the
      default weights. */
  lemma TopAnswersAreOptimizing(f: Frame<real>)
    requires f.Valid() && !f.Empty()
    requires forall i, j :: 0 <= i < |f.cols| && 0 <= j < f.nRows ==> f.cols[i].values[j] == 5.0
    ensures CalculateMaturity(f, None).Ok? && CalculateMaturity(f, None).value.Report?
    ensures CalculateMaturity(f, None).value.overallLevel == Optimizing
  {
    var means := ColumnMeans(f.cols, f.nRows);
    forall i | 0 <= i < |means| ensures means[i] == 5.0 {
      MeanConst(f.cols[i].values, 5.0);
    }
    MeanConst(means, 5.0);
    DefaultWeightsAverage(f);
  }

  /** The overall score of a report with a non-zero weight total. */
  lemma MaturityOverall(f: Frame<real>, weights: Option<map<string, real>>)
    requires f.Valid() && !f.Empty()
    requires |WeightedColumns(f.cols, weights)| > 0
    ensures var scored := WeightedColumns(f.cols, weights);
            var ws := Weights(scored, weights);
            var r := CalculateMaturity(f, weights);
            Rectangular(scored, f.nRows) && r.Ok? && r.value.Report? &&
            (Sum(ws) != 0.0 ==>
               r.value.overall == Finite(Div(Sum(WeightedScores(ColumnMeans(scored, f.nRows), ws)), Sum(ws))))
  {
    var scored := WeightedColumns(f.cols, weights);
    assert Rectangular(scored, f.nRows) by {
      forall i | 0 <= i < |scored| ensures |scored[i].values| == f.nRows {
        var j :| 0 <= j < |f.cols| && f.cols[j] == scored[i];
      }
    }
  }

  /** Termwise rounding errors of at most 0.005 add up to at most 0.005 per
      term. */
  lemma {:induction false} RoundedSumBounds(xs: seq<real>, ys: seq<real>)
    requires |xs| == |ys|
    requires forall i :: 0 <= i < |xs| ==> xs[i] - 0.005 <= ys[i] <= xs[i] + 0.005
    ensures Sum(xs) - 0.005 * |xs| as real <= Sum(ys) <= Sum(xs) + 0.005 * |xs| as real
    decreases |xs|
  {
    if |xs| > 0 {
      assert forall i :: 0 <= i < |xs| - 1 ==> xs[1..][i] == xs[i + 1] && ys[1..][i] == ys[i + 1];
      RoundedSumBounds(xs[1..], ys[1..]);
    }
  }

  /** ... and so do the means. */
  lemma RoundedMeanBounds(xs: seq<real>, ys: seq<real>)
    requires |xs| == |ys| > 0
    requires forall i :: 0 <= i < |xs| ==> xs[i] - 0.005 <= ys[i] <= xs[i] + 0.005
    ensures Mean(xs) - 0.005 <= Mean(ys) <= Mean(xs) + 0.005
  {
    var n := |xs| as real;
    RoundedSumBounds(xs, ys);
    DivMono(Sum(xs) - 0.005 * n, Sum(ys), n);
    DivMono(Sum(ys), Sum(xs) + 0.005 * n, n);
    DivAdd(Sum(xs), -0.005 * n, n);
    DivAdd(Sum(xs), 0.005 * n, n);
    DivCancel(-0.005, n);
    DivCancel(0.005, n);
  }

  function Shift(xs: seq<real>, c: real): (r: seq<real>)
    ensures |r| == |xs|
    ensures forall i :: 0 <= i < |xs| ==> r[i] == xs[i] + c
  {
    seq(|xs|, i requires 0 <= i < |xs| => xs[i] + c)
  }

  lemma {:induction false} SumShift(xs: seq<real>, c: real)
    ensures Sum(Shift(xs, c)) == Sum(xs) + |xs| as real * c
    decreases |xs|
  {
    if |xs| > 0 {
      assert Shift(xs, c)[1..] == Shift(xs[1..], c);
      SumShift(xs[1..], c);
    }
  }

  // ---------------------------------------------------------------------------
  // Maturity distribution
  // ---------------------------------------------------------------------------

  function SumOf5(c: seq<nat>): nat
    requires |c| == 5
  {
    c[0] + c[1] + c[2] + c[3] + c[4]
  }

  /** The number of answers at each level, indexed by rank - 1. */
  function Tally(values: seq<real>): (c: seq<nat>)
    ensures |c| == 5 && SumOf5(c) == |values|
  {
    if |values| == 0 then [0, 0, 0, 0, 0]
    else
      var c := Tally(values[1..]);
      var k := Rank(MaturityLevel(values[0])) - 1;
      c[k := c[k] + 1]
  }

  /** Each bin counts exactly the answers at that level. */
  lemma {:induction false} TallyCounts(values: seq<real>, k: nat, p: real -> bool)
    requires k < 5
    requires forall x :: p(x) <==> Rank(MaturityLevel(x)) == k + 1
    ensures Tally(values)[k] == CountIf(values, p)
    decreases |values|
  {
    if |values| > 0 {
      TallyCounts(values[1..], k, p);
    }
  }

  /** `_get_maturity_distribution`: one tally per column. pandas'
      `value_counts` omits levels no answer reached; the tally lists them
      with count 0, so a missing key and a zero entry mean the same. */
  function Distribution(f: Frame<real>): (d: seq<LevelCounts>)
    requires f.Valid()
    ensures |d| == |f.cols|
    ensures forall i :: 0 <= i < |d| ==>
              d[i].dimension == f.cols[i].name && |d[i].counts| == 5 && SumOf5(d[i].counts) == f.nRows
  {
    seq(|f.cols|, i requires 0 <= i < |f.cols| => LevelCounts(f.cols[i].name, Tally(f.cols[i].values)))
  }

  // ---------------------------------------------------------------------------
  // EFQM RADAR
  // ---------------------------------------------------------------------------

  const RadarCriteria: seq<string> := ["results", "approach", "deployment", "assessment"]
  const RadarWeight: real := 0.25

  datatype RadarScore = RadarScore(criterion: string, score: real, weightedScore: real)

  datatype Radar = Radar(total: real, scores: seq<RadarScore>)

  /** The criteria that are columns of the frame, in the weight-table order. */
  function PresentCriteria(f: Frame<real>, criteria: seq<string>): (r: seq<string>)
    ensures |r| <= |criteria|
    ensures forall i :: 0 <= i < |r| ==> Has(f, r[i]) && r[i] in criteria
    ensures forall c :: c in criteria && Has(f, c) ==> c in r
  {
    if |criteria| == 0 then []
    else (if Has(f, criteria[0]) then [criteria[0]] else []) + PresentCriteria(f, criteria[1..])
  }

  /** Every weighted score is a quarter of the score, rounded to 2 decimals. */
  predicate Quartered(scores: seq<RadarScore>)
  {
    forall i :: 0 <= i < |scores| ==> scores[i].weightedScore == Round2(scores[i].score * RadarWeight)
  }

  /** Every score is the mean of its criterion's column. */
  predicate ScoresAreMeans(f: Frame<real>, scores: seq<RadarScore>)
    requires f.Valid() && f.nRows > 0
  {
    forall i :: 0 <= i < |scores| ==>
      Has(f, scores[i].criterion) && scores[i].score == Mean(Get(f, scores[i].criterion).values)
  }

  function RadarScores(f: Frame<real>, present: seq<string>): (r: seq<RadarScore>)
    requires f.Valid() && f.nRows > 0 && HasAll(f, present)
    ensures |r| == |present| && ScoresAreMeans(f, r) && Quartered(r)
    ensures forall i :: 0 <= i < |r| ==> r[i].criterion == present[i]
  {
    seq(|present|, i requires 0 <= i < |present| =>
      var m := Mean(Get(f, present[i]).values);
      RadarScore(present[i], m, Round2(m * RadarWeight)))
  }

  function WeightedOf(scores: seq<RadarScore>): (r: seq<real>)
    ensures |r| == |scores|
    ensures forall i :: 0 <= i < |r| ==> r[i] == scores[i].weightedScore
  {
    seq(|scores|, i requires 0 <= i < |scores| => scores[i].weightedScore)
  }

  function ScoresOf(scores: seq<RadarScore>): (r: seq<real>)
    ensures |r| == |scores|
    ensures forall i :: 0 <= i < |r| ==> r[i] == scores[i].score
  {
    seq(|scores|, i requires 0 <= i < |scores| => scores[i].score)
  }

  /** The sum of the rounded weighted scores of the criteria present. */
  function CalculateRadar(f: Frame<real>): (r: Radar)
    requires f.Valid()
    ensures f.Empty() ==> r == Radar(0.0, [])
    ensures !f.Empty() ==> (|r.scores| == |PresentCriteria(f, RadarCriteria)| &&
              forall i :: 0 <= i < |r.scores| ==> r.scores[i].criterion == PresentCriteria(f, RadarCriteria)[i])
    ensures !f.Empty() ==> ScoresAreMeans(f, r.scores)
    ensures Quartered(r.scores)
    ensures r.total == Sum(WeightedOf(r.scores))
  {
    if f.Empty() then Radar(0.0, [])
    else
      var present := PresentCriteria(f, RadarCriteria);
      assert HasAll(f, present);
      var scores := RadarScores(f, present);
      Radar(Sum(WeightedOf(scores)), scores)
  }

  /** The mean of each listed criterion's column. */
  function CriterionMeans(f: Frame<real>, criteria: seq<string>): (r: seq<real>)
    requires f.Valid() && f.nRows > 0 && HasAll(f, criteria)
    ensures |r| == |criteria|
    ensures forall i :: 0 <= i < |r| ==> r[i] == Mean(Get(f, criteria[i]).values)
  {
    seq(|criteria|, i requires 0 <= i < |criteria| => Mean(Get(f, criteria[i]).values))
  }

  /** The total is a quarter of the sum of the means of the criteria present,
      up to the rounding of each weighted score; an empty frame scores 0. */
  lemma RadarTotalBounds(f: Frame<real>)
    requires f.Valid()
    ensures f.Empty() ==> CalculateRadar(f).total == 0.0
    ensures !f.Empty() ==>
              var present := PresentCriteria(f, RadarCriteria);
              var ms := CriterionMeans(f, present);
              var k := |present| as real;
              var total := CalculateRadar(f).total;
              RadarWeight * Sum(ms) - 0.005 * k <= total <= RadarWeight * Sum(ms) + 0.005 * k
  {
    var r := CalculateRadar(f);
    if !f.Empty() {
      var present := PresentCriteria(f, RadarCriteria);
      var ms := CriterionMeans(f, present);
      assert |r.scores| == |present| && ScoresAreMeans(f, r.scores);
      assert ScoresOf(r.scores) == ms by {
        forall i | 0 <= i < |ms| ensures ScoresOf(r.scores)[i] == ms[i] {
          assert r.scores[i].criterion == present[i];
        }
      }
      RoundedScoresBounds(r.scores);
    }
  }

  /** Rounding each weighted score moves their sum by at most 0.005 per
      criterion. */
  lemma RoundedScoresBounds(scores: seq<RadarScore>)
    requires Quartered(scores)
    ensures var k := |scores| as real;
            RadarWeight * Sum(ScoresOf(scores)) - 0.005 * k <= Sum(WeightedOf(scores))
            <= RadarWeight * Sum(ScoresOf(scores)) + 0.005 * k
  {
    var ms := ScoresOf(scores);
    var ws := WeightedOf(scores);
    var quarter := Scale(RadarWeight, ms);
    forall i | 0 <= i < |quarter| ensures quarter[i] - 0.005 <= ws[i] <= quarter[i] + 0.005 {
      assert quarter[i] == scores[i].score * RadarWeight;
    }
    RoundedSumBounds(quarter, ws);
    SumScale(RadarWeight, ms);
  }

  /** A criterion that is not a column contributes nothing to the total. */
  lemma RadarIgnoresAbsentCriteria(f: Frame<real>, c: string)
    requires f.Valid() && !Has(f, c)
    ensures forall s :: s in CalculateRadar(f).scores ==> s.criterion != c
  {
  }

  // ---------------------------------------------------------------------------
  // Statistical validator
  // ---------------------------------------------------------------------------

  datatype ValidatorReliability = ValidatorReliability(alpha: Coefficient, reliable: bool, counts: Option<(nat, nat)>)

  /** Cronbach's alpha as the validator computes it: no clamp and no guard
      against a zero total variance (a single row gives NaN variances). */
  function ValidatorAlpha(cols: seq<Column<real>>, n: nat): (a: Coefficient)
    requires Rectangular(cols, n)
    ensures n == 0 || |cols| < 2 ==> a == Finite(0.0)
  {
    if n == 0 || |cols| < 2 then Finite(0.0)
    else if n == 1 then NotFinite
    else
      var tv := SampleVar(RowSums(cols, n));
      if tv == 0.0 then NotFinite
      else Finite(Validation.RawAlpha(|cols|, Sum(Validation.ItemVariances(cols, n)), tv))
  }

  function CalculateReliability(f: Frame<real>, alphaThreshold: real): (r: ValidatorReliability)
    requires f.Valid()
    ensures f.Empty() || |f.cols| < 2 ==> r == ValidatorReliability(Finite(0.0), false, None)
    ensures !(f.Empty() || |f.cols| < 2) ==>
              r.counts == Some((|f.cols|, f.nRows)) && r.alpha == ValidatorAlpha(f.cols, f.nRows) &&
              (r.reliable <==> AtLeast(r.alpha, alphaThreshold))
  {
    if f.Empty() || |f.cols| < 2 then ValidatorReliability(Finite(0.0), false, None)
    else
      var a := ValidatorAlpha(f.cols, f.nRows);
      ValidatorReliability(a, AtLeast(a, alphaThreshold), Some((|f.cols|, f.nRows)))
  }

  /** Where the validator's alpha is a number, the framework's alpha is that
      number clamped at 0; where it is not, the framework reports 0. */
  lemma ValidatorAgreesWithFramework(cols: seq<Column<real>>, n: nat)
    requires Rectangular(cols, n)
    ensures ValidatorAlpha(cols, n).Finite? ==>
              Validation.CronbachAlpha(cols, n) == MaxReal(0.0, ValidatorAlpha(cols, n).value)
    ensures ValidatorAlpha(cols, n).NotFinite? ==> Validation.CronbachAlpha(cols, n) == 0.0
  {
  }

  /** The validator does not clamp: two items that move against each other
      give a negative alpha. */
  lemma ValidatorAlphaCanBeNegative(x: seq<real>, y: seq<real>)
    requires x == [1.0, 2.0, 3.0] && y == [3.0, 1.0, 2.0]
    ensures ValidatorAlpha([Column("a", x), Column("b", y)], 3) == Finite(-2.0)
  {
    var cols := [Column("a", x), Column("b", y)];
    var sums := RowSums(cols, 3);
    assert Row(cols, 0) == [x[0], y[0]] && Row(cols, 1) == [x[1], y[1]] && Row(cols, 2) == [x[2], y[2]];
    Sum2(x[0], y[0]);
    Sum2(x[1], y[1]);
    Sum2(x[2], y[2]);
    assert sums == [sums[0], sums[1], sums[2]];
    VarianceOfThree(sums[0], sums[1], sums[2], 4.0);
    assert x == [x[0], x[1], x[2]] && y == [y[0], y[1], y[2]];
    VarianceOfThree(x[0], x[1], x[2], 2.0);
    VarianceOfThree(y[0], y[1], y[2], 2.0);
    var vs := Validation.ItemVariances(cols, 3);
    assert vs == [vs[0], vs[1]];
    Sum2(vs[0], vs[1]);
    var k: nat := 2;
    DivCancel(2.0, (k - 1) as real);
    DivCancel(2.0, SampleVar(sums));
    assert Validation.RawAlpha(k, Sum(vs), SampleVar(sums)) == Mul(2.0, -1.0);
  }

  /** The reliability report carries that negative alpha unchanged and
      calls the frame unreliable. */
  lemma ReliabilityReportsNegativeAlpha(f: Frame<real>, alphaThreshold: real)
    requires f == Frame(3, [Column("a", [1.0, 2.0, 3.0]), Column("b", [3.0, 1.0, 2.0])])
    requires alphaThreshold >= 0.0
    ensures CalculateReliability(f, alphaThreshold) == ValidatorReliability(Finite(-2.0), false, Some((2, 3)))
  {
    ValidatorAlphaCanBeNegative([1.0, 2.0, 3.0], [3.0, 1.0, 2.0]);
  }

  lemma Sum2(a: real, b: real)
    ensures Sum([a, b]) == a + b
  {
    assert [a, b][1..] == [b];
    assert [b][1..] == [];
    assert Sum([b]) == b + Sum([]);
  }

  lemma SqDev3(a: real, b: real, c: real, m: real)
    ensures SqDev([a, b, c], m) == Sq(a - m) + Sq(b - m) + Sq(c - m)
  {
    assert [a, b, c][1..] == [b, c];
    assert [b, c][1..] == [c];
    assert [c][1..] == [];
    assert SqDev([c], m) == Sq(c - m) + SqDev([], m);
    assert SqDev([b, c], m) == Sq(b - m) + SqDev([c], m);
  }

  /** The sample variance of three values whose squared deviations from their
      mean add up to 2 is 1. */
  lemma VarianceOfThree(a: real, b: real, c: real, m: real)
    requires a + b + c == 3.0 * m
    requires Sq(a - m) + Sq(b - m) + Sq(c - m) == 2.0
    ensures SampleVar([a, b, c]) == 1.0
  {
    var xs := [a, b, c];
    assert xs[1..] == [b, c];
    Sum2(b, c);
    assert Sum(xs) == 3.0 * m;
    DivCancel(m, 3.0);
    assert Mean(xs) == m;
    SqDev3(a, b, c, m);
    DivCancel(1.0, 2.0);
  }

  /** The sample variance of two values. */
  lemma VarianceOfTwo(a: real, b: real)
    ensures SampleVar([a, b]) == Div(Sq(a - b), 2.0)
  {
    var xs := [a, b];
    Sum2(a, b);
    var m := Mean(xs);
    assert m * 2.0 == a + b by { DivMulCancel(a + b, 2.0); }
    assert xs[1..] == [b] && [b][1..] == [];
    assert SqDev([b], m) == Sq(b - m) + SqDev([], m);
    assert a - m == (a - b) / 2.0 && b - m == (b - a) / 2.0;
    assert Sq(a - m) + Sq(b - m) == Sq(a - b) / 2.0;
    DivCancel(Sq(a - b) / 2.0, 1.0);
  }

  // Validity as the validator computes it -------------------------------------

  /** AVE as the validator computes it: the variance of the single item when
      there is one (NaN with one row), the mean squared loading otherwise. */
  function ValidatorAve(cols: seq<Column<real>>, n: nat, corr: Validation.Corr): (a: Coefficient)
    requires Rectangular(cols, n)
  {
    if n == 0 || |cols| == 0 then Finite(0.0)
    else if |cols| == 1 then (if n >= 2 then Finite(SampleVar(cols[0].values)) else NotFinite)
    else Finite(Validation.AverageVarianceExtracted(Validation.Loadings(cols, n, corr)))
  }

  /** Composite reliability without the zero guard: loadings summing to 0 give
      0/0. */
  function ValidatorComposite(cols: seq<Column<real>>, n: nat, corr: Validation.Corr): (c: Coefficient)
    requires Rectangular(cols, n)
    ensures c.Finite? ==> 0.0 <= c.value < 1.0
  {
    if n == 0 || |cols| == 0 then Finite(0.0)
    else
      var ls := Validation.Loadings(cols, n, corr);
      Validation.UnitNonNegative(ls);
      if Sum(ls) == 0.0 then NotFinite else Finite(Validation.CompositeReliability(ls))
  }

  /** Where the validator's composite reliability is a number it is the
      framework's; the framework reports 0 where the validator has NaN. */
  lemma ValidatorCompositeAgrees(cols: seq<Column<real>>, n: nat, corr: Validation.Corr)
    requires Rectangular(cols, n)
    ensures ValidatorComposite(cols, n, corr).Finite? ==>
              ValidatorComposite(cols, n, corr).value == Validation.DimensionComposite(cols, n, corr)
    ensures ValidatorComposite(cols, n, corr).NotFinite? ==> Validation.DimensionComposite(cols, n, corr) == 0.0
  {
  }

  /** Without the guard the single-item AVE is a variance and can exceed 1. */
  lemma ValidatorAveCanExceedOne(corr: Validation.Corr)
    ensures ValidatorAve([Column("a", [0.0, 2.0])], 2, corr) == Finite(2.0)
  {
    VarianceOfTwo(0.0, 2.0);
    assert Sq(0.0 - 2.0) == 4.0;
    DivCancel(2.0, 2.0);
  }

  datatype ValidityEntry = ValidityEntry(dimension: string, ave: Coefficient, composite: Coefficient, valid: bool)

  function ValidityEntries(f: Frame<real>, ds: seq<Dimension>, corr: Validation.Corr,
                           aveThreshold: real, alphaThreshold: real): (es: seq<ValidityEntry>)
    requires f.Valid() && Validation.AllPresent(f, ds)
    ensures |es| == |ds|
    ensures forall i :: 0 <= i < |ds| ==>
              es[i].dimension == ds[i].name &&
              es[i].ave == ValidatorAve(Validation.DimensionData(f, ds[i]), f.nRows, corr) &&
              es[i].composite == ValidatorComposite(Validation.DimensionData(f, ds[i]), f.nRows, corr) &&
              (es[i].valid <==> AtLeast(es[i].ave, aveThreshold) && AtLeast(es[i].composite, alphaThreshold))
  {
    seq(|ds|, i requires 0 <= i < |ds| =>
      var cols := Validation.DimensionData(f, ds[i]);
      var ave := ValidatorAve(cols, f.nRows, corr);
      var cr := ValidatorComposite(cols, f.nRows, corr);
      ValidityEntry(ds[i].name, ave, cr, AtLeast(ave, aveThreshold) && AtLeast(cr, alphaThreshold)))
  }

  /** Convergent validity of every dimension whose items are all present. */
  function CalculateValidity(f: Frame<real>, dims: seq<Dimension>, corr: Validation.Corr,
                             aveThreshold: real, alphaThreshold: real): (r: seq<ValidityEntry>)
    requires f.Valid()
    ensures |r| == |Validation.Scored(f, dims)|
    ensures forall i :: 0 <= i < |r| ==>
              var d := Validation.Scored(f, dims)[i];
              r[i].dimension == d.name &&
              r[i].ave == ValidatorAve(Validation.DimensionData(f, d), f.nRows, corr) &&
              r[i].composite == ValidatorComposite(Validation.DimensionData(f, d), f.nRows, corr) &&
              (r[i].valid <==> AtLeast(r[i].ave, aveThreshold) && AtLeast(r[i].composite, alphaThreshold))
  {
    ValidityEntries(f, Validation.Scored(f, dims), corr, aveThreshold, alphaThreshold)
  }

  // ---------------------------------------------------------------------------
  // Benchmark position
  // ---------------------------------------------------------------------------

  function IndustryAverage(metric: string): Option<real>
  {
    if metric == "npqs" then Some(25.0)
    else if metric == "maturity" then Some(3.2)
    else if metric == "leadership" then Some(3.4)
    else if metric == "engagement" then Some(3.1)
    else if metric == "process" then Some(3.3)
    else None
  }

  /** The percentile bucket: cut points for npqs and maturity, 50 otherwise. */
  function Percentile(metric: string, score: real): (p: nat)
    ensures p == 25 || p == 50 || p == 75 || p == 90
    ensures metric != "npqs" && metric != "maturity" ==> p == 50
  {
    if metric == "npqs" then
      (if score >= 55.0 then 90 else if score >= 40.0 then 75 else if score >= 25.0 then 50 else 25)
    else if metric == "maturity" then
      (if score >= 4.3 then 90 else if score >= 3.8 then 75 else if score >= 3.2 then 50 else 25)
    else 50
  }

  /** A higher score never gives a lower percentile. */
  lemma PercentileMonotone(metric: string, a: real, b: real)
    requires a <= b
    ensures Percentile(metric, a) <= Percentile(metric, b)
  {
  }

  /** Scoring at the industry average places npqs and maturity at the median. */
  lemma AverageIsMedian(metric: string)
    requires metric == "npqs" || metric == "maturity"
    ensures Percentile(metric, IndustryAverage(metric).value) == 50
  {
  }

  datatype Performance = Excellent | Good | Average | NeedsImprovement

  function PerformanceRank(l: Performance): nat
  {
    match l
    case NeedsImprovement => 0
    case Average => 1
    case Good => 2
    case Excellent => 3
  }

  function PerformanceLevel(percentile: nat): (l: Performance)
    ensures l == Excellent <==> percentile >= 90
    ensures l == Good <==> 75 <= percentile < 90
    ensures l == Average <==> 50 <= percentile < 75
    ensures l == NeedsImprovement <==> percentile < 50
  {
    if percentile >= 90 then Excellent
    else if percentile >= 75 then Good
    else if percentile >= 50 then Average
    else NeedsImprovement
  }

  /** The label follows the score monotonically. */
  lemma PerformanceMonotone(metric: string, a: real, b: real)
    requires a <= b
    ensures PerformanceRank(PerformanceLevel(Percentile(metric, a))) <= PerformanceRank(PerformanceLevel(Percentile(metric, b)))
  {
    PercentileMonotone(metric, a, b);
  }

  datatype Position = Position(metric: string, score: real, industryAverage: real, difference: real,
                               percentile: nat, performance: Performance)

  /** The derived fields of a position agree with its metric and score. */
  predicate Positioned(p: Position)
  {
    IndustryAverage(p.metric) == Some(p.industryAverage) &&
    p.score - p.industryAverage == p.difference &&
    p.percentile == Percentile(p.metric, p.score) &&
    p.performance == PerformanceLevel(p.percentile)
  }

  predicate Covers(r: seq<Position>, metric: string, score: real)
  {
    exists j :: 0 <= j < |r| && r[j].metric == metric && r[j].score == score
  }

  /** One position per scored metric that has an industry average, in the
      order of the scores. */
  function BenchmarkPosition(scores: seq<(string, real)>): (r: seq<Position>)
    ensures |r| <= |scores|
    ensures forall i :: 0 <= i < |r| ==> Positioned(r[i]) && (r[i].metric, r[i].score) in scores
    ensures forall i :: 0 <= i < |scores| && IndustryAverage(scores[i].0).Some? ==>
              Covers(r, scores[i].0, scores[i].1)
  {
    if |scores| == 0 then []
    else
      var (metric, score) := scores[0];
      var rest := BenchmarkPosition(scores[1..]);
      assert forall i :: 1 <= i < |scores| ==> scores[i] == scores[1..][i - 1];
      match IndustryAverage(metric)
      case None => rest
      case Some(avg) =>
        var p := Percentile(metric, score);
        var head := Position(metric, score, avg, score - avg, p, PerformanceLevel(p));
        var r := [head] + rest;
        assert r[0] == head;
        assert forall j :: 0 <= j < |rest| ==> r[j + 1] == rest[j];
        assert forall m, x :: Covers(rest, m, x) ==> Covers(r, m, x) by {
          forall m, x | Covers(rest, m, x) ensures Covers(r, m, x) {
            var j :| 0 <= j < |rest| && rest[j].metric == m && rest[j].score == x;
            assert r[j + 1] == rest[j];
          }
        }
        r
  }

  /** Positions follow the order of the scores: benchmarking two lists one
      after the other is benchmarking their concatenation. */
  lemma {:induction false} BenchmarkConcat(a: seq<(string, real)>, b: seq<(string, real)>)
    ensures BenchmarkPosition(a + b) == BenchmarkPosition(a) + BenchmarkPosition(b)
    decreases |a|
  {
    if |a| == 0 {
      assert a + b == b;
    } else {
      var head := PositionsOf(a[0]);
      assert (a + b)[0] == a[0];
      assert (a + b)[1..] == a[1..] + b;
      calc {
        BenchmarkPosition(a + b);
        { BenchmarkStep(a + b); }
        head + BenchmarkPosition(a[1..] + b);
        { BenchmarkConcat(a[1..], b); }
        head + (BenchmarkPosition(a[1..]) + BenchmarkPosition(b));
        (head + BenchmarkPosition(a[1..])) + BenchmarkPosition(b);
        { BenchmarkStep(a); }
        BenchmarkPosition(a) + BenchmarkPosition(b);
      }
    }
  }

  /** The positions contributed by one score: none without an industry
      average. */
  function PositionsOf(score: (string, real)): seq<Position>
  {
    match IndustryAverage(score.0)
    case None => []
    case Some(avg) =>
      var p := Percentile(score.0, score.1);
      [Position(score.0, score.1, avg, score.1 - avg, p, PerformanceLevel(p))]
  }

  lemma BenchmarkStep(scores: seq<(string, real)>)
    requires |scores| > 0
    ensures BenchmarkPosition(scores) == PositionsOf(scores[0]) + BenchmarkPosition(scores[1..])
  {
  }

  /** Between two positions of the same metric, the higher score never has
      the lower performance label. */
  lemma BenchmarkLabelsFollowScores(scores: seq<(string, real)>, i: nat, j: nat)
    requires i < |BenchmarkPosition(scores)| && j < |BenchmarkPosition(scores)|
    requires BenchmarkPosition(scores)[i].metric == BenchmarkPosition(scores)[j].metric
    requires BenchmarkPosition(scores)[i].score <= BenchmarkPosition(scores)[j].score
    ensures PerformanceRank(BenchmarkPosition(scores)[i].performance)
              <= PerformanceRank(BenchmarkPosition(scores)[j].performance)
  {
    var r := BenchmarkPosition(scores);
    assert Positioned(r[i]) && Positioned(r[j]);
    PerformanceMonotone(r[i].metric, r[i].score, r[j].score);
  }

}

=== FILE: sectors.dfy ===
/** Sector assessments: the pharmaceutical domain scores, the ceiling-based
    five-level maturity, critical areas, the five threshold recommendations
    and the compliance report, together with the healthcare and education
    variants that only replace the domain table. */
module Sectors {
  import opened Numeric
  import opened Frames
  import Scoring
  import Pipeline
  import Validation

  // ---------------------------------------------------------------------------
  // Domain tables
  // ---------------------------------------------------------------------------

  datatype Sector = Pharmaceutical | Healthcare | Education

  function Domains(s: Sector): seq<Dimension>
  {
    match s
    case Pharmaceutical => [
      Dimension("Leadership", ["Executive commitment to quality", "Quality vision communication",
                               "Resource allocation for quality", "Quality in strategic planning"]),
      Dimension("Communication", ["Open communication channels", "Quality message clarity",
                                  "Cross-functional collaboration", "Escalation processes"]),
      Dimension("Ownership", ["Individual accountability", "Team responsibility",
                              "Quality ownership culture", "Proactive behavior"]),
      Dimension("Continuous Improvement", ["Learning from mistakes", "Process improvement initiatives",
                                           "Innovation encouragement", "Best practice sharing"]),
      Dimension("Technical Excellence", ["Scientific rigor", "Technical competency",
                                         "Quality systems knowledge", "Risk-based thinking"])]
    case Healthcare => [
      Dimension("Leadership Commitment", ["Executive leadership involvement", "Quality as strategic priority",
                                          "Resource allocation"]),
      Dimension("Customer Focus", ["Patient-centered care", "Community engagement", "Service quality"]),
      Dimension("Process Management", ["Standardized processes", "Performance monitoring",
                                       "Continuous improvement"]),
      Dimension("Workforce Development", ["Staff competency", "Training programs", "Performance management"])]
    case Education => [
      Dimension("Leadership & Governance", ["Institutional commitment", "Policy development",
                                            "Resource allocation"]),
      Dimension("Teaching & Learning", ["Curriculum quality", "Assessment practices", "Student engagement"]),
      Dimension("Continuous Improvement", ["Feedback mechanisms", "Quality enhancement", "Innovation culture"]),
      Dimension("Stakeholder Engagement", ["Student involvement", "Industry partnerships",
                                           "Community engagement"])]
  }

  /** Every domain of every sector lists at least one item. */
  lemma DomainsNonEmpty(s: Sector)
    ensures forall d :: d in Domains(s) ==> |d.items| > 0
  {
  }

  // ---------------------------------------------------------------------------
  // Domain scores
  // ---------------------------------------------------------------------------

  /** The mean of the item means as a percentage of the top answer 5; NaN
      for a table without rows. */
  function DomainScore(f: Frame<real>, d: Dimension): (c: Coefficient)
    requires f.Valid() && HasAll(f, d.items) && |d.items| > 0
    ensures c.Finite? <==> f.nRows > 0
  {
    if f.nRows == 0 then NotFinite
    else Finite(Div(Mean(Scoring.ColumnMeans(Validation.DimensionData(f, d), f.nRows)), 5.0) * 100.0)
  }

  /** Answers on the 0..5 scale give a score between 0 and 100. */
  lemma DomainScoreRange(f: Frame<real>, d: Dimension)
    requires f.Valid() && HasAll(f, d.items) && |d.items| > 0 && f.nRows > 0
    requires forall j :: 0 <= j < |f.cols| ==> AllIn(f.cols[j].values, 0.0, 5.0)
    ensures 0.0 <= DomainScore(f, d).value <= 100.0
  {
    var cols := Validation.DimensionData(f, d);
    var ms := Scoring.ColumnMeans(cols, f.nRows);
    forall j | 0 <= j < |ms| ensures 0.0 <= ms[j] <= 5.0 {
      assert cols[j] in f.cols;
      MeanBounds(cols[j].values, 0.0, 5.0);
    }
    MeanBounds(ms, 0.0, 5.0);
  }

  /** The domain score is the analytics pipeline's mean dimension score:
      the mean of the item means over five, times 100, equals twenty times
      the mean of the respondents' row means. */
  lemma DomainScoreAgreesWithPipeline(f: Frame<real>, d: Dimension)
    requires f.Valid() && HasAll(f, d.items) && |d.items| > 0 && f.nRows > 0
    ensures DomainScore(f, d) == Pipeline.ScoreOf(f, d).mean
  {
    var cols := Validation.DimensionData(f, d);
    var n, k := f.nRows as real, |cols| as real;
    var cm := Scoring.ColumnMeans(cols, f.nRows);
    var rm := RowMeans(cols, f.nRows);
    assert cm == DivAll(ColumnSums(cols), n);
    assert rm == DivAll(RowSums(cols, f.nRows), k);
    SumDivAll(ColumnSums(cols), n);
    SumDivAll(RowSums(cols, f.nRows), k);
    SumExchange(cols, f.nRows);
    var total := Sum(ColumnSums(cols));
    assert Mean(cm) == Div(Div(total, n), k);
    assert Mean(rm) == Div(Div(total, k), n);
    DivSwap(total, n, k);
    MeanScale(Pipeline.ScoreScale, rm);
  }

  /** `calculate_maturity_score`: one entry per domain whose items are all
      present, in table order. */
  function MaturityScores(f: Frame<real>, s: Sector): (r: seq<(string, Coefficient)>)
    requires f.Valid()
    ensures |r| == |Validation.Scored(f, Domains(s))|
    ensures forall i :: 0 <= i < |r| ==>
              var d := Validation.Scored(f, Domains(s))[i];
              |d.items| > 0 && r[i] == (d.name, DomainScore(f, d))
  {
    var ds := Validation.Scored(f, Domains(s));
    DomainsNonEmpty(s);
    seq(|ds|, i requires 0 <= i < |ds| => (ds[i].name, DomainScore(f, ds[i])))
  }

  // ---------------------------------------------------------------------------
  // Ceiling-based maturity
  // ---------------------------------------------------------------------------

  /** `ceil(x)`. */
  function Ceil(x: real): (k: int)
    ensures x <= k as real < x + 1.0
  {
    -((-x).Floor)
  }

  /** `max(1, min(5, ceil(score / 20)))`: each level covers a band of 20
      points that is open below and closed above. */
  function PharmaLevel(score: real): (k: nat)
    ensures 1 <= k <= 5
    ensures k == 1 <==> score <= 20.0
    ensures k == 5 <==> score > 80.0
    ensures 1 < k < 5 ==> 20.0 * (k - 1) as real < score <= 20.0 * k as real
  {
    var c := Ceil(score / 20.0);
    if c < 1 then 1 else if c > 5 then 5 else c
  }

  function PharmaLevelName(k: nat): string
  {
    match k
    case 1 => "Initial/Ad-hoc"
    case 2 => "Developing"
    case 3 => "Defined"
    case 4 => "Managed"
    case _ => "Optimizing"
  }

  /** A score exactly on a multiple of 20 takes the lower level: 40 is
      level 2, Developing. */
  lemma MultiplesFallToLowerLevel(k: int)
    requires 1 <= k <= 5
    ensures PharmaLevel(20.0 * k as real) == k
  {
  }

  lemma PharmaLevelMonotone(a: real, b: real)
    requires a <= b
    ensures PharmaLevel(a) <= PharmaLevel(b)
  {
  }

  // ---------------------------------------------------------------------------
  // Critical areas and recommendations
  // ---------------------------------------------------------------------------

  /** `score < t` on a float: false for NaN. */
  predicate Below(c: Coefficient, t: real)
  {
    c.Finite? && c.value < t
  }

  predicate UniqueKeys(scores: seq<(string, Coefficient)>)
  {
    forall i, j :: 0 <= i < j < |scores| ==> scores[i].0 != scores[j].0
  }

  /** `_identify_critical_areas`: the domains scoring below 60, in order. */
  function CriticalAreas(scores: seq<(string, Coefficient)>): (r: seq<string>)
    ensures |r| <= |scores|
    ensures forall k :: k in r <==> exists i :: 0 <= i < |scores| && scores[i] == (k, scores[i].1) && Below(scores[i].1, 60.0)
  {
    if |scores| == 0 then []
    else
      var rest := CriticalAreas(scores[1..]);
      assert forall i :: 1 <= i < |scores| ==> scores[i] == scores[1..][i - 1];
      (if Below(scores[0].1, 60.0) then [scores[0].0] else []) + rest
  }

  /** Critical areas keep the order of the scores: the areas of a
      concatenation are the concatenated areas. */
  lemma {:induction false} CriticalAreasConcat(a: seq<(string, Coefficient)>, b: seq<(string, Coefficient)>)
    ensures CriticalAreas(a + b) == CriticalAreas(a) + CriticalAreas(b)
    decreases |a|
  {
    if |a| == 0 {
      assert a + b == b;
    } else {
      var head := if Below(a[0].1, 60.0) then [a[0].0] else [];
      assert (a + b)[0] == a[0];
      assert (a + b)[1..] == a[1..] + b;
      calc {
        CriticalAreas(a + b);
        head + CriticalAreas(a[1..] + b);
        { CriticalAreasConcat(a[1..], b); }
        head + (CriticalAreas(a[1..]) + CriticalAreas(b));
        (head + CriticalAreas(a[1..])) + CriticalAreas(b);
        CriticalAreas(a) + CriticalAreas(b);
      }
    }
  }

  /** A single score is critical exactly when it is below 60; a NaN score
      never is. Together with the concatenation law this fixes the order
      and the multiplicity of every listed area. */
  lemma CriticalAreasOne(x: (string, Coefficient))
    ensures CriticalAreas([x]) == if Below(x.1, 60.0) then [x.0] else []
  {
    assert [x][1..] == [];
  }

  /** `scores.get(key, 0)`. */
  function Lookup(scores: seq<(string, Coefficient)>, key: string): (c: Coefficient)
    ensures (forall i :: 0 <= i < |scores| ==> scores[i].0 != key) ==> c == Finite(0.0)
    ensures (exists i :: 0 <= i < |scores| && scores[i].0 == key) ==>
              exists i :: 0 <= i < |scores| && scores[i].0 == key && c == scores[i].1
    ensures forall i :: 0 <= i < |scores| && scores[i].0 == key && (forall j :: 0 <= j < i ==> scores[j].0 != key) ==> c == scores[i].1
  {
    if |scores| == 0 then Finite(0.0)
    else if scores[0].0 == key then scores[0].1
    else
      assert forall i :: 1 <= i < |scores| ==> scores[i] == scores[1..][i - 1];
      Lookup(scores[1..], key)
  }

  datatype SectorRecommendation =
    | EnhanceCommitment
    | StructuredCommunication
    | AccountabilityPrograms
    | ImprovementProcesses
    | TechnicalTraining

  /** The domain each recommendation watches. */
  function Watched(r: SectorRecommendation): string
  {
    match r
    case EnhanceCommitment => "Leadership"
    case StructuredCommunication => "Communication"
    case AccountabilityPrograms => "Ownership"
    case ImprovementProcesses => "Continuous Improvement"
    case TechnicalTraining => "Technical Excellence"
  }

  function RecommendationText(r: SectorRecommendation): string
  {
    match r
    case EnhanceCommitment => "Enhance executive quality commitment through regular communication"
    case StructuredCommunication => "Implement structured quality communication channels"
    case AccountabilityPrograms => "Develop quality accountability programs"
    case ImprovementProcesses => "Establish systematic improvement processes"
    case TechnicalTraining => "Invest in technical training and competency development"
  }

  /** A recommendation fires when its domain scores below 70; a missing
      domain counts as 0 and a NaN score never fires. */
  predicate Fires(scores: seq<(string, Coefficient)>, r: SectorRecommendation)
  {
    Below(Lookup(scores, Watched(r)), 70.0)
  }

  /** The checks in the order the program performs them. */
  const AllChecks: seq<SectorRecommendation> :=
    [EnhanceCommitment, StructuredCommunication, AccountabilityPrograms, ImprovementProcesses, TechnicalTraining]

  /** The position of a check in that order. */
  function Order(r: SectorRecommendation): nat
  {
    match r
    case EnhanceCommitment => 0
    case StructuredCommunication => 1
    case AccountabilityPrograms => 2
    case ImprovementProcesses => 3
    case TechnicalTraining => 4
  }

  lemma AllChecksOrdered()
    ensures forall x :: x in AllChecks
    ensures forall i, j :: 0 <= i < j < |AllChecks| ==> Order(AllChecks[i]) < Order(AllChecks[j])
  {
    forall x ensures x in AllChecks {
      assert AllChecks[Order(x)] == x;
    }
  }

  /** The checks of `xs` that satisfy `fires`, in the order of `xs`. */
  function Fired(fires: SectorRecommendation -> bool, xs: seq<SectorRecommendation>): (r: seq<SectorRecommendation>)
    requires forall i, j :: 0 <= i < j < |xs| ==> Order(xs[i]) < Order(xs[j])
    ensures |r| <= |xs|
    ensures forall x :: x in r <==> x in xs && fires(x)
    ensures forall i, j :: 0 <= i < j < |r| ==> Order(r[i]) < Order(r[j])
  {
    if |xs| == 0 then []
    else
      var rest := Fired(fires, xs[1..]);
      assert forall x :: x in rest ==> Order(xs[0]) < Order(x) by {
        forall x | x in rest ensures Order(xs[0]) < Order(x) {
          var k :| 0 <= k < |xs[1..]| && xs[1..][k] == x;
          assert xs[k + 1] == x;
        }
      }
      (if fires(xs[0]) then [xs[0]] else []) + rest
  }

  /** `_generate_recommendations`: the five checks in their fixed order. */
  function SectorRecommendations(scores: seq<(string, Coefficient)>): (r: seq<SectorRecommendation>)
    ensures forall x :: x in r <==> Fires(scores, x)
    ensures |r| <= 5
    ensures forall i, j :: 0 <= i < j < |r| ==> Order(r[i]) < Order(r[j])
  {
    AllChecksOrdered();
    var fires := (x: SectorRecommendation) => Fires(scores, x);
    var r := Fired(fires, AllChecks);
    assert forall x :: x in r <==> fires(x);
    r
  }

  /** With distinct keys, a critical pharmaceutical domain always has its
      recommendation: below 60 is below 70. */
  lemma CriticalIsRecommended(scores: seq<(string, Coefficient)>, x: SectorRecommendation)
    requires UniqueKeys(scores)
    requires Watched(x) in CriticalAreas(scores)
    ensures x in SectorRecommendations(scores)
  {
    var i :| 0 <= i < |scores| && scores[i] == (Watched(x), scores[i].1) && Below(scores[i].1, 60.0);
    assert forall j :: 0 <= j < i ==> scores[j].0 != Watched(x);
    assert Lookup(scores, Watched(x)) == scores[i].1;
    assert Fires(scores, x);
  }

  /** The healthcare domains share no name with the watched domains, so every
      healthcare assessment gets all five recommendations. */
  lemma HealthcareGetsEveryRecommendation(f: Frame<real>, x: SectorRecommendation)
    requires f.Valid()
    ensures x in SectorRecommendations(MaturityScores(f, Healthcare))
  {
    var scores := MaturityScores(f, Healthcare);
    var ds := Validation.Scored(f, Domains(Healthcare));
    forall i | 0 <= i < |scores| ensures scores[i].0 != Watched(x) {
      assert ds[i] in Domains(Healthcare);
    }
  }

  /** Education shares only "Continuous Improvement" with the watched
      domains, so the four other recommendations always fire. */
  lemma EducationRecommendations(f: Frame<real>, x: SectorRecommendation)
    requires f.Valid() && x != ImprovementProcesses
    ensures x in SectorRecommendations(MaturityScores(f, Education))
  {
    var scores := MaturityScores(f, Education);
    var ds := Validation.Scored(f, Domains(Education));
    forall i | 0 <= i < |scores| ensures scores[i].0 != Watched(x) {
      EducationNameUnwatched(ds[i], x);
    }
    assert Lookup(scores, Watched(x)) == Finite(0.0);
  }

  lemma EducationNameUnwatched(d: Dimension, x: SectorRecommendation)
    requires d in Domains(Education) && x != ImprovementProcesses
    ensures d.name != Watched(x)
  {
    var k :| 0 <= k < |Domains(Education)| && Domains(Education)[k] == d;
  }

  /** Only one education domain carries the watched improvement name. */
  lemma EducationImprovementDomain(d: Dimension)
    requires d in Domains(Education) && d.name == Watched(ImprovementProcesses)
    ensures d == Domains(Education)[2]
  {
  }

  /** Looking up a domain whose name no other domain of the table carries
      gives its score, or 0 when its items are missing. */
  lemma ScoreLookup(f: Frame<real>, s: Sector, d: Dimension)
    requires f.Valid() && d in Domains(s)
    requires forall e :: e in Domains(s) && e.name == d.name ==> e == d
    ensures |d.items| > 0
    ensures Lookup(MaturityScores(f, s), d.name) == if HasAll(f, d.items) then DomainScore(f, d) else Finite(0.0)
  {
    DomainsNonEmpty(s);
    if HasAll(f, d.items) {
      ScoreLookupPresent(f, s, d);
    } else {
      ScoreLookupMissing(f, s, d);
    }
  }

  /** Every score listed under the name of `d` is the score of `d`. */
  lemma ScoresUnderName(f: Frame<real>, s: Sector, d: Dimension)
    requires f.Valid() && d in Domains(s)
    requires forall e :: e in Domains(s) && e.name == d.name ==> e == d
    ensures forall i :: 0 <= i < |MaturityScores(f, s)| && MaturityScores(f, s)[i].0 == d.name ==>
              HasAll(f, d.items) && MaturityScores(f, s)[i].1 == DomainScore(f, d)
  {
    var scores := MaturityScores(f, s);
    var ds := Validation.Scored(f, Domains(s));
    forall i | 0 <= i < |scores| && scores[i].0 == d.name
      ensures HasAll(f, d.items) && scores[i].1 == DomainScore(f, d)
    {
      assert ds[i] in Domains(s);
    }
  }

  lemma ScoreLookupPresent(f: Frame<real>, s: Sector, d: Dimension)
    requires f.Valid() && d in Domains(s) && HasAll(f, d.items)
    requires forall e :: e in Domains(s) && e.name == d.name ==> e == d
    ensures Lookup(MaturityScores(f, s), d.name) == DomainScore(f, d)
  {
    var scores := MaturityScores(f, s);
    var ds := Validation.Scored(f, Domains(s));
    ScoresUnderName(f, s, d);
    var i :| 0 <= i < |ds| && ds[i] == d;
    assert scores[i].0 == d.name;
    LookupOfAgreedKey(scores, d.name, DomainScore(f, d), i);
  }

  /** A key that occurs, with the same value at every occurrence, is looked
      up as that value. */
  lemma {:induction false} LookupOfAgreedKey(scores: seq<(string, Coefficient)>, key: string, v: Coefficient, i: nat)
    requires i < |scores| && scores[i].0 == key
    requires forall j :: 0 <= j < |scores| && scores[j].0 == key ==> scores[j].1 == v
    ensures Lookup(scores, key) == v
    decreases i
  {
    if scores[0].0 != key {
      assert forall j :: 0 <= j < |scores| - 1 ==> scores[1..][j] == scores[j + 1];
      LookupOfAgreedKey(scores[1..], key, v, i - 1);
    }
  }

  lemma ScoreLookupMissing(f: Frame<real>, s: Sector, d: Dimension)
    requires f.Valid() && d in Domains(s) && !HasAll(f, d.items)
    requires forall e :: e in Domains(s) && e.name == d.name ==> e == d
    ensures Lookup(MaturityScores(f, s), d.name) == Finite(0.0)
  {
    ScoresUnderName(f, s, d);
  }

  /** The education improvement recommendation fires exactly when that
      domain's items are missing or its score is below 70. */
  lemma EducationImprovementFollowsScore(f: Frame<real>)
    requires f.Valid()
    ensures var d := Domains(Education)[2];
            ImprovementProcesses in SectorRecommendations(MaturityScores(f, Education))
            <==> !HasAll(f, d.items) || Below(DomainScore(f, d), 70.0)
  {
    var d := Domains(Education)[2];
    forall e | e in Domains(Education) && e.name == d.name ensures e == d {
      EducationImprovementDomain(e);
    }
    ScoreLookup(f, Education, d);
  }

  // ---------------------------------------------------------------------------
  // Compliance report
  // ---------------------------------------------------------------------------

  const NextSteps: seq<string> := [
    "Conduct gap analysis for critical areas",
    "Develop targeted improvement plans",
    "Schedule follow-up assessment in 6 months",
    "Train quality culture ambassadors",
    "Integrate findings into QMM roadmap"]

  datatype ComplianceReport = ComplianceReport(overallLevel: nat, overallName: string,
                                               critical: seq<string>,
                                               recommendations: seq<SectorRecommendation>,
                                               nextSteps: seq<string>)

  predicate AllFinite(scores: seq<(string, Coefficient)>)
  {
    forall i :: 0 <= i < |scores| ==> scores[i].1.Finite?
  }

  function ScoreValues(scores: seq<(string, Coefficient)>): (vs: seq<real>)
    requires AllFinite(scores)
    ensures |vs| == |scores| && forall i :: 0 <= i < |scores| ==> vs[i] == scores[i].1.value
  {
    seq(|scores|, i requires 0 <= i < |scores| => scores[i].1.value)
  }

  /** `generate_compliance_report`. The overall level is taken of the mean
      score, and a NaN mean (no scores, or a NaN score) cannot be converted
      to a level: that is the error case. */
  function GenerateComplianceReport(scores: seq<(string, Coefficient)>): (r: Result<ComplianceReport>)
    ensures r.Err? <==> |scores| == 0 || !AllFinite(scores)
    ensures r.Ok? ==> r.value.overallLevel == PharmaLevel(Mean(ScoreValues(scores)))
    ensures r.Ok? ==> r.value.overallName == PharmaLevelName(r.value.overallLevel)
    ensures r.Ok? ==> r.value.critical == CriticalAreas(scores) && r.value.recommendations == SectorRecommendations(scores)
    ensures r.Ok? ==> r.value.nextSteps == NextSteps
  {
    if |scores| == 0 || !AllFinite(scores) then Err("cannot convert float NaN to integer")
    else
      var level := PharmaLevel(Mean(ScoreValues(scores)));
      Ok(ComplianceReport(level, PharmaLevelName(level), CriticalAreas(scores),
                          SectorRecommendations(scores), NextSteps))
  }

  /** With every domain between 0 and 100 the overall level lies between the
      levels of the lowest and the highest domain. */
  lemma OverallLevelBetween(scores: seq<(string, Coefficient)>, lo: real, hi: real)
    requires |scores| > 0 && AllFinite(scores)
    requires AllIn(ScoreValues(scores), lo, hi)
    ensures PharmaLevel(lo) <= GenerateComplianceReport(scores).value.overallLevel <= PharmaLevel(hi)
  {
    MeanBounds(ScoreValues(scores), lo, hi);
    PharmaLevelMonotone(lo, Mean(ScoreValues(scores)));
    PharmaLevelMonotone(Mean(ScoreValues(scores)), hi);
  }
}

=== FILE: text.dfy ===
/** String helpers with the semantics of the Python string methods the
    program calls: `in` (substring test), `lower()` (restricted to
    ASCII letters) and `replace(pattern, "")`. */
module Text {

  predicate IsPrefix(p: string, s: string)
  {
    |p| <= |s| && s[..|p|] == p
  }

  /** Python's `sub in s`. */
  predicate Contains(s: string, sub: string)
    decreases |s|
  {
    IsPrefix(sub, s) || (|s| > 0 && Contains(s[1..], sub))
  }

  function LowerChar(c: char): char
  {
    if 'A' <= c <= 'Z' then (c as int + 32) as char else c
  }

  /** Python's `s.lower()` on ASCII letters. */
  function Lower(s: string): (r: string)
    ensures |r| == |s|
    ensures forall i :: 0 <= i < |s| ==> r[i] == LowerChar(s[i])
  {
    seq(|s|, i requires 0 <= i < |s| => LowerChar(s[i]))
  }

  /** Lower-casing twice is lower-casing once. */
  lemma LowerIdempotent(s: string)
    ensures Lower(Lower(s)) == Lower(s)
  {
  }

  /** An occurrence at any position makes `sub in s` true. */
  lemma {:induction false} ContainsAt(s: string, sub: string, i: nat)
    requires i + |sub| <= |s| && s[i..i + |sub|] == sub
    ensures Contains(s, sub)
    decreases i
  {
    if i > 0 {
      assert s[1..][i - 1..i - 1 + |sub|] == s[i..i + |sub|];
      ContainsAt(s[1..], sub, i - 1);
    }
  }

  /** Python's `c.isspace()` on ASCII: the space, tab, line feed, vertical
      tab, form feed, carriage return and the four separators 0x1C-0x1F. */
  predicate IsSpace(c: char)
  {
    c == ' ' || 9 <= c as int <= 13 || 28 <= c as int <= 31
  }

  /** `len(s.split()) >= 2`: two non-space characters with a space between. */
  predicate HasSecondWord(s: string)
  {
    exists i, k, j :: 0 <= i < k < j < |s| && !IsSpace(s[i]) && IsSpace(s[k]) && !IsSpace(s[j])
  }

  /** A one-word prefix followed by a space has a second word exactly when
      the rest of the string holds a non-space character. */
  lemma SecondWordAfterPrefix(word: string, rest: string)
    requires |word| > 0 && forall i :: 0 <= i < |word| ==> !IsSpace(word[i])
    ensures HasSecondWord(word + " " + rest) <==> exists j :: 0 <= j < |rest| && !IsSpace(rest[j])
  {
    var s := word + " " + rest;
    assert forall i :: 0 <= i < |word| ==> s[i] == word[i];
    assert s[|word|] == ' ';
    assert forall j :: 0 <= j < |rest| ==> s[|word| + 1 + j] == rest[j];
    if j :| 0 <= j < |rest| && !IsSpace(rest[j]) {
      assert !IsSpace(s[0]) && IsSpace(s[|word|]) && !IsSpace(s[|word| + 1 + j]);
    }
    if HasSecondWord(s) {
      var i, k, j :| 0 <= i < k < j < |s| && !IsSpace(s[i]) && IsSpace(s[k]) && !IsSpace(s[j]);
      assert k >= |word|;
      var m := j - |word| - 1;
      assert 0 <= m < |rest| && s[|word| + 1 + m] == rest[m];
      assert !IsSpace(rest[m]);
    }
  }

  /** Python's `s.replace(pat, "")`: occurrences are found left to right
      and never overlap. */
  function RemoveAll(s: string, pat: string): string
    requires |pat| > 0
    decreases |s|
  {
    if |s| < |pat| then s
    else if s[..|pat|] == pat then RemoveAll(s[|pat|..], pat)
    else [s[0]] + RemoveAll(s[1..], pat)
  }

  /** Removing a pattern from a string that does not contain it changes nothing. */
  lemma {:induction false} RemoveAllAbsent(s: string, pat: string)
    requires |pat| > 0 && !Contains(s, pat)
    ensures RemoveAll(s, pat) == s
    decreases |s|
  {
    if |s| >= |pat| {
      assert !IsPrefix(pat, s);
      RemoveAllAbsent(s[1..], pat);
      assert [s[0]] + s[1..] == s;
    }
  }

  /** A leading pattern is consumed before the rest is scanned. */
  lemma RemoveAllPrefix(pat: string, s: string)
    requires |pat| > 0
    ensures RemoveAll(pat + s, pat) == RemoveAll(s, pat)
  {
    assert (pat + s)[..|pat|] == pat;
    assert (pat + s)[|pat|..] == s;
  }

  /** The report key of an ordered pair of names: `f"{a}_{b}"`. */
  function PairKey(a: string, b: string): string
  {
    a + "_" + b
  }

  predicate NoUnderscore(s: string)
  {
    forall i :: 0 <= i < |s| ==> s[i] != '_'
  }

  lemma SeparatorAt(a: string, b: string)
    ensures |a| < |PairKey(a, b)| && PairKey(a, b)[|a|] == '_'
    ensures PairKey(a, b)[..|a|] == a && PairKey(a, b)[|a| + 1..] == b
  {
  }

  /** Keys of names without underscores identify the pair. */
  lemma PairKeyInjective(a: string, b: string, a': string, b': string)
    requires NoUnderscore(a) && NoUnderscore(a')
    requires PairKey(a, b) == PairKey(a', b')
    ensures a == a' && b == b'
  {
    var k := PairKey(a, b);
    SeparatorAt(a, b);
    SeparatorAt(a', b');
    if |a| != |a'| {
      assert false;
    }
    assert a == k[..|a|] == a';
    assert b == k[|a| + 1..] == b';
  }

  /** A key built from two names without underscores can only be split at
      its one underscore. */
  lemma PairKeySplit(x: string, y: string, a: string, b: string)
    requires NoUnderscore(a) && NoUnderscore(b)
    requires PairKey(x, y) == PairKey(a, b)
    ensures x == a && y == b
  {
    var k := PairKey(a, b);
    SeparatorAt(x, y);
    SeparatorAt(a, b);
    if |x| != |a| {
      assert false;
    }
    assert x == k[..|a|] == a;
    assert y == k[|a| + 1..] == b;
  }
}

=== FILE: validation.dfy ===
/** The psychometric validation framework: Cronbach's alpha, composite
    reliability and average variance extracted per dimension, the sample,
    content, discriminant and dimensionality verdicts, the item analysis and
    the recommendation list built from all of them. */
module Validation {
  import opened Numeric
  import opened Text
  import opened Frames

  /** Pearson correlation of two equally long series, taken as an input. */
  type Corr = (seq<real>, seq<real>) -> Correlation

  /** Sample skewness of a series, taken as an input. */
  type Skew = seq<real> -> real

  const DefaultAlphaThreshold: real := 0.7
  const DefaultAveThreshold: real := 0.5

  // ---------------------------------------------------------------------------
  // Cronbach's alpha
  // ---------------------------------------------------------------------------

  /** `data.var()`: the sample variance of every column. */
  function ItemVariances(cols: seq<Column<real>>, n: nat): (vs: seq<real>)
    requires n >= 2 && Rectangular(cols, n)
    ensures |vs| == |cols|
    ensures forall j :: 0 <= j < |cols| ==> vs[j] == SampleVar(cols[j].values)
  {
    seq(|cols|, j requires 0 <= j < |cols| => SampleVar(cols[j].values))
  }

  /** k/(k-1) * (1 - sum of item variances / total variance), unclamped. */
  function RawAlpha(k: nat, itemVariance: real, totalVariance: real): real
    requires k >= 2 && totalVariance != 0.0
  {
    Mul(Div(k as real, (k - 1) as real), 1.0 - Div(itemVariance, totalVariance))
  }

  /** Cronbach's alpha of the columns of one dimension. With a single row
      both variances are NaN in the program and `max(0, nan)` yields 0. */
  function CronbachAlpha(cols: seq<Column<real>>, n: nat): (a: real)
    requires Rectangular(cols, n)
    ensures a >= 0.0
    ensures n == 0 || |cols| < 2 ==> a == 0.0
    ensures n == 1 ==> a == 0.0
    ensures n >= 2 && |cols| >= 2 && SampleVar(RowSums(cols, n)) == 0.0 ==> a == 0.0
    ensures n >= 2 && |cols| >= 2 && SampleVar(RowSums(cols, n)) != 0.0 ==>
              a == MaxReal(0.0, RawAlpha(|cols|, Sum(ItemVariances(cols, n)), SampleVar(RowSums(cols, n))))
  {
    if n == 0 || |cols| < 2 then 0.0
    else if n == 1 then 0.0
    else
      var tv := SampleVar(RowSums(cols, n));
      if tv == 0.0 then 0.0
      else MaxReal(0.0, RawAlpha(|cols|, Sum(ItemVariances(cols, n)), tv))
  }

  /** `k` copies of one series. */
  function Copies(x: seq<real>, k: nat): (cols: seq<Column<real>>)
    ensures |cols| == k && Rectangular(cols, |x|)
    ensures forall j :: 0 <= j < k ==> cols[j].values == x
  {
    seq(k, j requires 0 <= j < k => Column("item", x))
  }

  lemma CopiesArithmetic(k: real, v: real)
    requires k >= 2.0 && v > 0.0
    ensures Sq(k) * v != 0.0
    ensures Mul(Div(k, k - 1.0), 1.0 - Div(k * v, Sq(k) * v)) == 1.0
  {
    var kv := k * v;
    assert kv > 0.0;
    assert Sq(k) * v == k * kv;
    var q := Div(kv, k * kv);
    DivMulCancel(kv, k * kv);
    assert q * k == 1.0;
    var p := Div(k, k - 1.0);
    DivMulCancel(k, k - 1.0);
    assert 1.0 - q == (k - 1.0) * q;
    assert Mul(p, 1.0 - q) == p * (k - 1.0) * q;
  }

  /** Each row of k copies sums to k times that row's value. */
  lemma CopiesRowSums(x: seq<real>, k: nat)
    ensures RowSums(Copies(x, k), |x|) == Scale(k as real, x)
  {
    var cols := Copies(x, k);
    var sums := RowSums(cols, |x|);
    forall r | 0 <= r < |x| ensures sums[r] == Scale(k as real, x)[r] {
      var row := Row(cols, r);
      assert forall j :: 0 <= j < k ==> row[j] == x[r];
      SumConst(row, x[r]);
    }
  }

  /** A dimension made of k identical copies of one non-constant item is
      perfectly reliable. */
  lemma AlphaOfCopies(x: seq<real>, k: nat)
    requires k >= 2 && |x| >= 2 && !Constant(x)
    ensures CronbachAlpha(Copies(x, k), |x|) == 1.0
  {
    var cols := Copies(x, k);
    var n := |x|;
    var kr := k as real;
    var sums := RowSums(cols, n);
    CopiesRowSums(x, k);
    var v := SampleVar(x);
    SampleVarPositive(x);
    SampleVarScale(kr, x);
    var tv := SampleVar(sums);
    assert tv == Sq(kr) * v;
    var vs := ItemVariances(cols, n);
    SumConst(vs, v);
    CopiesArithmetic(kr, v);
    assert (k - 1) as real == kr - 1.0;
    assert RawAlpha(k, Sum(vs), tv) == 1.0;
  }

  /** Items that never vary give a reliability of 0, not NaN. */
  lemma AlphaOfConstantItems(cols: seq<Column<real>>, n: nat)
    requires Rectangular(cols, n)
    requires forall j :: 0 <= j < |cols| ==> Constant(cols[j].values)
    ensures CronbachAlpha(cols, n) == 0.0
  {
    if n >= 2 && |cols| >= 2 {
      var sums := RowSums(cols, n);
      forall r | 0 <= r < n ensures sums[r] == sums[0] {
        assert Row(cols, r) == Row(cols, 0);
      }
      SampleVarConst(sums);
    }
  }

  /** Items whose row totals never vary give 0, constant or not. */
  lemma AlphaOfConstantTotals(cols: seq<Column<real>>, n: nat)
    requires Rectangular(cols, n) && Constant(RowSums(cols, n))
    ensures CronbachAlpha(cols, n) == 0.0
  {
    if n >= 2 && |cols| >= 2 {
      SampleVarConst(RowSums(cols, n));
    }
  }

  /** Two items that mirror each other, such as [1, 2] and [2, 1], always
      total 3 and get alpha 0 although neither is constant. */
  lemma AlphaOfMirroredItems(cols: seq<Column<real>>)
    requires cols == [Column("a", [1.0, 2.0]), Column("b", [2.0, 1.0])]
    ensures !Constant(cols[0].values) && !Constant(cols[1].values)
    ensures CronbachAlpha(cols, 2) == 0.0
  {
    assert cols[0].values[0] != cols[0].values[1];
    assert cols[1].values[0] != cols[1].values[1];
    var sums := RowSums(cols, 2);
    assert Row(cols, 0) == [1.0, 2.0] && Row(cols, 1) == [2.0, 1.0];
    assert [1.0, 2.0][1..] == [2.0] && [2.0, 1.0][1..] == [1.0];
    assert sums[0] == 3.0 && sums[1] == 3.0;
    AlphaOfConstantTotals(cols, 2);
  }

  // ---------------------------------------------------------------------------
  // Composite reliability and average variance extracted, from loadings
  // ---------------------------------------------------------------------------

  /** (sum l)^2 / ((sum l)^2 + sum l^2), and 0 when the loadings sum to 0. */
  function CompositeReliability(ls: seq<real>): (cr: real)
    ensures NonNegative(ls) ==> 0.0 <= cr < 1.0
    ensures NonNegative(ls) ==> (cr == 0.0 <==> Sum(ls) == 0.0)
  {
    var s := Sum(ls);
    if s == 0.0 then 0.0
    else
      SquarePos(s);
      SumSquaresNonNeg(ls);
      CompositeRatioBounds(Sq(s), Sum(Squares(ls)), ls);
      Div(Sq(s), Sq(s) + Sum(Squares(ls)))
  }

  lemma CompositeRatioBounds(a: real, b: real, ls: seq<real>)
    requires a > 0.0 && b >= 0.0 && b == Sum(Squares(ls))
    ensures a + b != 0.0 && Div(a, a + b) > 0.0
    ensures NonNegative(ls) && Sum(ls) != 0.0 ==> Div(a, a + b) < 1.0
  {
    DivPos(a, a + b);
    if NonNegative(ls) && Sum(ls) != 0.0 {
      var i := PositiveTerm(ls);
      SumSquaresAtLeastTerm(ls, i);
      SquarePos(ls[i]);
      DivLess(a, a + b);
    }
  }

  /** A sum of non-negative terms that is not 0 has a positive term. */
  lemma {:induction false} PositiveTerm(ls: seq<real>) returns (i: nat)
    requires NonNegative(ls) && Sum(ls) != 0.0
    ensures i < |ls| && ls[i] > 0.0
    decreases |ls|
  {
    if ls[0] > 0.0 {
      i := 0;
    } else {
      assert NonNegative(ls[1..]) by {
        forall j | 0 <= j < |ls| - 1 ensures ls[1..][j] >= 0.0 { assert ls[1..][j] == ls[j + 1]; }
      }
      var i' := PositiveTerm(ls[1..]);
      i := i' + 1;
    }
  }

  lemma SumSquaresAtLeastTerm(ls: seq<real>, i: nat)
    requires i < |ls|
    ensures Sum(Squares(ls)) >= Sq(ls[i])
  {
    SqDevAtLeastTerm(ls, 0.0, i);
    SquaresAsDeviations(ls);
  }

  lemma {:induction false} SquaresAsDeviations(ls: seq<real>)
    ensures Sum(Squares(ls)) == SqDev(ls, 0.0)
    decreases |ls|
  {
    if |ls| > 0 {
      assert Squares(ls)[1..] == Squares(ls[1..]);
      assert ls[0] - 0.0 == ls[0];
      SquaresAsDeviations(ls[1..]);
    }
  }

  /** With non-negative loadings that do not all vanish, composite
      reliability is at least one half. */
  lemma CompositeReliabilityAtLeastHalf(ls: seq<real>)
    requires NonNegative(ls) && Sum(ls) != 0.0
    ensures CompositeReliability(ls) >= 0.5
  {
    var s := Sum(ls);
    var b := Sum(Squares(ls));
    SumSquaresAtMostSquareSum(ls);
    SquarePos(s);
    SumSquaresNonNeg(ls);
    var c := Sq(s) + b;
    DivMono(c * 0.5, Sq(s), c);
    DivCancel(0.5, c);
  }

  /** AVE: the mean of the squared loadings, 0 for an empty dimension. */
  function AverageVarianceExtracted(ls: seq<real>): (ave: real)
    ensures AllIn(ls, 0.0, 1.0) ==> 0.0 <= ave <= 1.0
  {
    if |ls| == 0 then 0.0
    else
      SquaresUnitMean(ls);
      Mean(Squares(ls))
  }

  lemma SquaresUnitMean(ls: seq<real>)
    requires |ls| > 0
    ensures AllIn(ls, 0.0, 1.0) ==> 0.0 <= Mean(Squares(ls)) <= 1.0
  {
    if AllIn(ls, 0.0, 1.0) {
      SquaresUnit(ls);
      MeanBounds(Squares(ls), 0.0, 1.0);
    }
  }

  /** AVE vanishes exactly when every loading does, and exactly when composite
      reliability does. */
  lemma AveZeroIff(ls: seq<real>)
    requires NonNegative(ls)
    ensures AverageVarianceExtracted(ls) == 0.0 <==> forall i :: 0 <= i < |ls| ==> ls[i] == 0.0
    ensures AverageVarianceExtracted(ls) == 0.0 <==> CompositeReliability(ls) == 0.0
  {
    SumZeroIff(ls);
    if |ls| > 0 {
      var sq := Squares(ls);
      forall i | 0 <= i < |ls| ensures sq[i] >= 0.0 && (sq[i] == 0.0 <==> ls[i] == 0.0) {
        SquareNonNeg(ls[i]);
        if ls[i] != 0.0 { SquarePos(ls[i]); }
      }
      SumZeroIff(sq);
      var n := |ls| as real;
      assert Mean(sq) * n == Sum(sq);
    }
  }

  /** Larger loadings never lower AVE. */
  lemma AveMonotone(ls: seq<real>, ms: seq<real>)
    requires |ls| == |ms| && NonNegative(ls)
    requires forall i :: 0 <= i < |ls| ==> ls[i] <= ms[i]
    ensures AverageVarianceExtracted(ls) <= AverageVarianceExtracted(ms)
  {
    if |ls| > 0 {
      forall i | 0 <= i < |ls| ensures Squares(ls)[i] <= Squares(ms)[i] {
        SqMono(ls[i], ms[i]);
      }
      SumMono(Squares(ls), Squares(ms));
      DivMono(Sum(Squares(ls)), Sum(Squares(ms)), |ls| as real);
    }
  }

  lemma SqMono(a: real, b: real)
    requires 0.0 <= a <= b
    ensures Sq(a) <= Sq(b)
  {
    MulNonNeg(b - a, b + a);
    assert Mul(b - a, b + a) == Sq(b) - Sq(a);
  }

  /** k equal positive loadings give a composite reliability of k/(k+1),
      whatever the loading. */
  lemma CompositeReliabilityOfEqualLoadings(ls: seq<real>, l: real)
    requires |ls| > 0 && l > 0.0
    requires forall i :: 0 <= i < |ls| ==> ls[i] == l
    ensures CompositeReliability(ls) == |ls| as real / (|ls| as real + 1.0)
  {
    var k := |ls| as real;
    SumConst(ls, l);
    SumConst(Squares(ls), Sq(l));
    var s := k * l;
    assert Sum(ls) == s;
    SquareOfProduct(k, l);
    assert Sq(s) == Sq(k) * Sq(l);
    SquarePos(l);
    var a := Sq(k) * Sq(l);
    var b := k * Sq(l);
    assert Sq(k) == k * k;
    assert a + b == k * (k + 1.0) * Sq(l);
    var cr := Div(a, a + b);
    assert cr * (a + b) == a;
    assert cr * (k + 1.0) * (k * Sq(l)) == k * (k * Sq(l));
    assert cr * (k + 1.0) == k;
  }

  // ---------------------------------------------------------------------------
  // Loadings of the items of one dimension
  // ---------------------------------------------------------------------------

  lemma UnitNonNegative(xs: seq<real>)
    requires AllIn(xs, 0.0, 1.0)
    ensures NonNegative(xs)
  {
  }

  /** |corr(item, row mean of the dimension)| for every item. */
  function Loadings(cols: seq<Column<real>>, n: nat, corr: Corr): (ls: seq<real>)
    requires |cols| > 0 && Rectangular(cols, n)
    ensures |ls| == |cols| && AllIn(ls, 0.0, 1.0)
  {
    var total := RowMeans(cols, n);
    var ls := seq(|cols|, j requires 0 <= j < |cols| => LoadingOf(corr(cols[j].values, total)));
    assert forall j :: 0 <= j < |ls| ==> ls[j] == LoadingOf(corr(cols[j].values, total));
    ls
  }

  /** Composite reliability of a dimension's data; 0 for empty data. */
  function DimensionComposite(cols: seq<Column<real>>, n: nat, corr: Corr): (cr: real)
    requires Rectangular(cols, n)
    ensures 0.0 <= cr < 1.0
  {
    if n == 0 || |cols| == 0 then 0.0
    else
      UnitNonNegative(Loadings(cols, n, corr));
      CompositeReliability(Loadings(cols, n, corr))
  }

  /** AVE of a dimension's data; 0 for empty data. */
  function DimensionAve(cols: seq<Column<real>>, n: nat, corr: Corr): (ave: real)
    requires Rectangular(cols, n)
    ensures 0.0 <= ave <= 1.0
  {
    if n == 0 || |cols| == 0 then 0.0
    else AverageVarianceExtracted(Loadings(cols, n, corr))
  }

  // ---------------------------------------------------------------------------
  // Dimensions whose items are all present
  // ---------------------------------------------------------------------------

  /** The dimensions, in order, whose items are all columns of the frame. */
  function Scored(f: Frame<real>, dims: seq<Dimension>): (r: seq<Dimension>)
    ensures |r| <= |dims|
    ensures forall i :: 0 <= i < |r| ==> r[i] in dims && HasAll(f, r[i].items)
    ensures forall d :: d in dims && HasAll(f, d.items) ==> d in r
  {
    if |dims| == 0 then []
    else (if HasAll(f, dims[0].items) then [dims[0]] else []) + Scored(f, dims[1..])
  }

  lemma ScoredConcat(f: Frame<real>, a: seq<Dimension>, b: seq<Dimension>)
    ensures Scored(f, a + b) == Scored(f, a) + Scored(f, b)
  {
    if |a| > 0 {
      assert (a + b)[1..] == a[1..] + b;
      ScoredConcat(f, a[1..], b);
    } else {
      assert a + b == b;
    }
  }

  /** `data[items]` for a dimension whose items are present. */
  function DimensionData(f: Frame<real>, d: Dimension): (cols: seq<Column<real>>)
    requires f.Valid() && HasAll(f, d.items)
    ensures |cols| == |d.items| && Rectangular(cols, f.nRows)
  {
    SelectRectangular(f, d.items);
    Select(f, d.items)
  }

  // ---------------------------------------------------------------------------
  // Reliability assessment
  // ---------------------------------------------------------------------------

  datatype AlphaEntry = AlphaEntry(dimension: string, value: real, acceptable: bool, nItems: nat)

  datatype CompositeEntry = CompositeEntry(dimension: string, value: real, acceptable: bool)

  datatype Reliability = Reliability(alphas: seq<AlphaEntry>, composites: seq<CompositeEntry>, overall: bool)

  function DimensionAlpha(f: Frame<real>, d: Dimension): real
    requires f.Valid() && HasAll(f, d.items)
  {
    CronbachAlpha(DimensionData(f, d), f.nRows)
  }

  /** Composite reliability of the data of a dimension whose items are present. */
  function DimensionCr(f: Frame<real>, d: Dimension, corr: Corr): real
    requires f.Valid() && HasAll(f, d.items)
  {
    DimensionComposite(DimensionData(f, d), f.nRows, corr)
  }

  /** The overall verdict reads the alphas after rounding to three decimals. */
  predicate RoundedAllAtLeast(alphas: seq<real>, t: real)
  {
    forall i :: 0 <= i < |alphas| ==> Round3(alphas[i]) >= t
  }

  /** Every dimension listed has all its items in the frame. */
  predicate AllPresent(f: Frame<real>, ds: seq<Dimension>)
  {
    forall i :: 0 <= i < |ds| ==> HasAll(f, ds[i].items)
  }

  function AlphaValues(f: Frame<real>, ds: seq<Dimension>): (r: seq<real>)
    requires f.Valid() && AllPresent(f, ds)
    ensures |r| == |ds|
    ensures forall i :: 0 <= i < |ds| ==> r[i] == DimensionAlpha(f, ds[i]) && r[i] >= 0.0
  {
    seq(|ds|, i requires 0 <= i < |ds| => DimensionAlpha(f, ds[i]))
  }

  function AlphaEntries(ds: seq<Dimension>, alphas: seq<real>, t: real): (es: seq<AlphaEntry>)
    requires |alphas| == |ds|
    requires forall i :: 0 <= i < |alphas| ==> alphas[i] >= 0.0
    ensures |es| == |ds|
    ensures forall i :: 0 <= i < |ds| ==>
              es[i].dimension == ds[i].name && es[i].nItems == |ds[i].items| &&
              es[i].value == Round3(alphas[i]) && es[i].value >= 0.0 &&
              (es[i].acceptable <==> alphas[i] >= t)
  {
    Round3AlphaNonNeg(alphas);
    seq(|ds|, i requires 0 <= i < |ds| => AlphaEntry(ds[i].name, Round3(alphas[i]), alphas[i] >= t, |ds[i].items|))
  }

  function CompositeEntries(f: Frame<real>, ds: seq<Dimension>, corr: Corr, t: real): (es: seq<CompositeEntry>)
    requires f.Valid() && AllPresent(f, ds)
    ensures |es| == |ds|
    ensures forall i :: 0 <= i < |ds| ==>
              es[i].dimension == ds[i].name && 0.0 <= es[i].value <= 1.0 &&
              es[i].value == Round3(DimensionCr(f, ds[i], corr)) &&
              (es[i].acceptable <==> DimensionCr(f, ds[i], corr) >= t)
  {
    seq(|ds|, i requires 0 <= i < |ds| =>
      var cr := DimensionCr(f, ds[i], corr);
      Round3Unit(cr);
      CompositeEntry(ds[i].name, Round3(cr), cr >= t))
  }

  /** An alpha entry reports a dimension's alpha rounded to 3 decimals and
      judges the exact alpha against the threshold. */
  predicate AlphaEntryOf(f: Frame<real>, d: Dimension, t: real, e: AlphaEntry)
    requires f.Valid() && HasAll(f, d.items)
  {
    e.dimension == d.name && e.nItems == |d.items| &&
    e.value == Round3(DimensionAlpha(f, d)) && (e.acceptable <==> DimensionAlpha(f, d) >= t)
  }

  /** A composite entry reports a dimension's composite reliability rounded
      to 3 decimals and judges the exact value against the threshold. */
  predicate CompositeEntryOf(f: Frame<real>, d: Dimension, corr: Corr, t: real, e: CompositeEntry)
    requires f.Valid() && HasAll(f, d.items)
  {
    e.dimension == d.name &&
    e.value == Round3(DimensionCr(f, d, corr)) && (e.acceptable <==> DimensionCr(f, d, corr) >= t)
  }

  /** Cronbach's alpha and composite reliability for every dimension whose
      items are present, and the overall verdict over the rounded alphas. */
  function AssessReliability(f: Frame<real>, dims: seq<Dimension>, corr: Corr, t: real): (r: Reliability)
    requires f.Valid()
    ensures |r.alphas| == |r.composites| == |Scored(f, dims)|
    ensures forall i :: 0 <= i < |r.alphas| ==>
              AlphaEntryOf(f, Scored(f, dims)[i], t, r.alphas[i]) &&
              CompositeEntryOf(f, Scored(f, dims)[i], corr, t, r.composites[i])
    ensures forall i :: 0 <= i < |r.alphas| ==> r.alphas[i].value >= 0.0 && 0.0 <= r.composites[i].value <= 1.0
    ensures r.overall <==> RoundedAllAtLeast(AlphaValues(f, Scored(f, dims)), t)
  {
    var ds := Scored(f, dims);
    var alphas := AlphaValues(f, ds);
    Reliability(AlphaEntries(ds, alphas, t), CompositeEntries(f, ds, corr, t), RoundedAllAtLeast(alphas, t))
  }

  /** With a threshold of at most one half, the composite verdict holds for
      every scored dimension whose items are not all uncorrelated with
      the dimension score; with a threshold of 1 or more it never holds. */
  lemma CompositeVerdictBounds(f: Frame<real>, dims: seq<Dimension>, corr: Corr, t: real, i: nat)
    requires f.Valid() && i < |Scored(f, dims)|
    ensures var d := Scored(f, dims)[i];
            var c := AssessReliability(f, dims, corr, t).composites[i];
            ((t <= 0.5 && f.nRows > 0 && |d.items| > 0 &&
              Sum(Loadings(DimensionData(f, d), f.nRows, corr)) != 0.0) ==> c.acceptable) &&
            (t >= 1.0 ==> !c.acceptable)
  {
    var d := Scored(f, dims)[i];
    var cr := DimensionCr(f, d, corr);
    if f.nRows > 0 && |d.items| > 0 {
      var ls := Loadings(DimensionData(f, d), f.nRows, corr);
      UnitNonNegative(ls);
      if Sum(ls) != 0.0 {
        CompositeReliabilityAtLeastHalf(ls);
      }
    }
  }

  lemma Round3AlphaNonNeg(alphas: seq<real>)
    requires forall i :: 0 <= i < |alphas| ==> alphas[i] >= 0.0
    ensures forall i :: 0 <= i < |alphas| ==> Round3(alphas[i]) >= 0.0
  {
    forall i | 0 <= i < |alphas| ensures Round3(alphas[i]) >= 0.0 {
      Round3Mono(0.0, alphas[i]);
      Round3Fixed(0);
    }
  }

  lemma Round3Unit(x: real)
    requires 0.0 <= x <= 1.0
    ensures 0.0 <= Round3(x) <= 1.0
  {
    Round3Mono(0.0, x);
    Round3Mono(x, 1.0);
    Round3Fixed(0);
    Round3Fixed(1000);
  }

  /** With no dimension scored the overall verdict holds vacuously. */
  lemma OverallWhenNothingScored(f: Frame<real>, dims: seq<Dimension>, corr: Corr, t: real)
    requires f.Valid() && |Scored(f, dims)| == 0
    ensures AssessReliability(f, dims, corr, t).overall
  {
  }

  /** When the threshold has three decimals, every dimension being acceptable
      makes the overall verdict hold. */
  lemma AcceptableImpliesOverall(f: Frame<real>, dims: seq<Dimension>, corr: Corr, k: int)
    requires f.Valid()
    requires forall e :: e in AssessReliability(f, dims, corr, k as real / 1000.0).alphas ==> e.acceptable
    ensures AssessReliability(f, dims, corr, k as real / 1000.0).overall
  {
    var t := k as real / 1000.0;
    var r := AssessReliability(f, dims, corr, t);
    var alphas := AlphaValues(f, Scored(f, dims));
    forall i | 0 <= i < |alphas| ensures alphas[i] >= t {
      assert r.alphas[i] in r.alphas;
    }
    RoundedAtLeastFromExact(alphas, k);
  }

  lemma RoundedAtLeastFromExact(alphas: seq<real>, k: int)
    requires forall i :: 0 <= i < |alphas| ==> alphas[i] >= k as real / 1000.0
    ensures RoundedAllAtLeast(alphas, k as real / 1000.0)
  {
    forall i | 0 <= i < |alphas| ensures Round3(alphas[i]) >= k as real / 1000.0 {
      Round3Mono(k as real / 1000.0, alphas[i]);
      Round3Fixed(k);
    }
  }

  /** The converse fails: an alpha of 0.6996 is not acceptable at 0.7, yet it
      rounds to 0.7 and passes the overall verdict. */
  lemma OverallCanDisagree()
    ensures RoundedAllAtLeast([0.6996], DefaultAlphaThreshold) && !(0.6996 >= DefaultAlphaThreshold)
  {
    assert RoundHalfEven(0.6996 * 1000.0) == 700;
  }

  // ---------------------------------------------------------------------------
  // Sample adequacy
  // ---------------------------------------------------------------------------

  datatype Adequacy = Adequacy(nResponses: nat, nItems: nat, ratio: real,
                               fiveToOne: bool, tenToOne: bool, kline: bool,
                               recommendedMinimum: nat)

  /** Rules of thumb on responses per item; no items divides by zero. */
  function AssessSampleAdequacy(f: Frame<real>): (r: Result<Adequacy>)
    ensures r.Err? <==> |f.cols| == 0
    ensures r.Ok? ==> r.value.nResponses == f.nRows && r.value.nItems == |f.cols|
    ensures r.Ok? ==> r.value.ratio * |f.cols| as real == f.nRows as real
    ensures r.Ok? ==>
              (r.value.fiveToOne <==> f.nRows >= 5 * |f.cols|) &&
              (r.value.tenToOne <==> f.nRows >= 10 * |f.cols|) &&
              (r.value.kline <==> f.nRows >= 20 * |f.cols|)
    ensures r.Ok? ==> (r.value.tenToOne <==> r.value.ratio >= 10.0)
    ensures r.Ok? ==> (r.value.kline ==> r.value.tenToOne) && (r.value.tenToOne ==> r.value.fiveToOne)
    ensures r.Ok? ==>
              r.value.recommendedMinimum >= 200 && r.value.recommendedMinimum >= 10 * |f.cols| &&
              (r.value.recommendedMinimum == 200 || r.value.recommendedMinimum == 10 * |f.cols|)
  {
    var n := f.nRows;
    var p := |f.cols|;
    if p == 0 then Err("division by zero")
    else
      var ratio := Div(n as real, p as real);
      DivMulCancel(n as real, p as real);
      RatioRule(n, p, 10, ratio);
      Ok(Adequacy(n, p, ratio, n >= 5 * p, n >= 10 * p, n >= 20 * p, MaxInt(200, 10 * p)))
  }

  lemma RatioRule(n: nat, p: nat, c: nat, ratio: real)
    requires p > 0 && ratio * p as real == n as real
    ensures n >= c * p <==> ratio >= c as real
  {
    if ratio >= c as real {
      assert ratio * p as real >= c as real * p as real;
    }
  }

  /** Collecting the recommended minimum always satisfies the 10:1 rule. */
  lemma RecommendedMinimumSuffices(f: Frame<real>)
    requires AssessSampleAdequacy(f).Ok?
    requires f.nRows >= AssessSampleAdequacy(f).value.recommendedMinimum
    ensures AssessSampleAdequacy(f).value.tenToOne
  {
  }

  // ---------------------------------------------------------------------------
  // Content validity
  // ---------------------------------------------------------------------------

  datatype ContentValidity = ContentValidity(nDimensions: nat, nItems: nat,
                                             itemsPerDimension: seq<(string, nat)>,
                                             adequateCoverage: bool)

  function TotalItems(dims: seq<Dimension>): nat
  {
    if |dims| == 0 then 0 else |dims[0].items| + TotalItems(dims[1..])
  }

  /** Every dimension has at least three items. */
  predicate Covered(dims: seq<Dimension>)
  {
    forall i :: 0 <= i < |dims| ==> |dims[i].items| >= 3
  }

  function AssessContentValidity(dims: seq<Dimension>): (r: ContentValidity)
    ensures r.nDimensions == |dims| == |r.itemsPerDimension|
    ensures r.nItems == TotalItems(dims)
    ensures forall i :: 0 <= i < |dims| ==> r.itemsPerDimension[i] == (dims[i].name, |dims[i].items|)
    ensures r.adequateCoverage <==> Covered(dims)
  {
    ContentValidity(|dims|, TotalItems(dims),
                    seq(|dims|, i requires 0 <= i < |dims| => (dims[i].name, |dims[i].items|)),
                    Covered(dims))
  }

  /** Adequate coverage means at least three items per dimension in total. */
  lemma {:induction false} CoveredItemCount(dims: seq<Dimension>)
    requires Covered(dims)
    ensures TotalItems(dims) >= 3 * |dims|
    decreases |dims|
  {
    if |dims| > 0 {
      assert Covered(dims[1..]) by {
        forall i | 0 <= i < |dims| - 1 ensures |dims[1..][i].items| >= 3 { assert dims[1..][i] == dims[i + 1]; }
      }
      CoveredItemCount(dims[1..]);
    }
  }

  /** The flattened list of every dimension's items. */
  function AllItems(dims: seq<Dimension>): (r: seq<string>)
    ensures |r| == TotalItems(dims)
  {
    if |dims| == 0 then [] else dims[0].items + AllItems(dims[1..])
  }

  // ---------------------------------------------------------------------------
  // Discriminant validity
  // ---------------------------------------------------------------------------

  lemma HasAllConcat<T>(f: Frame<T>, a: seq<string>, b: seq<string>)
    ensures HasAll(f, a + b) <==> HasAll(f, a) && HasAll(f, b)
  {
    if HasAll(f, a) && HasAll(f, b) {
      forall i | 0 <= i < |a + b| ensures Has(f, (a + b)[i]) {
        if i >= |a| { assert (a + b)[i] == b[i - |a|]; }
      }
    }
    if HasAll(f, a + b) {
      forall i | 0 <= i < |b| ensures Has(f, b[i]) { assert (a + b)[|a| + i] == b[i]; }
      forall i | 0 <= i < |a| ensures Has(f, a[i]) { assert (a + b)[i] == a[i]; }
    }
  }

  /** Two distinct dimensions whose items are all present. */
  predicate Eligible(f: Frame<real>, a: Dimension, b: Dimension)
  {
    a.name != b.name && HasAll(f, a.items) && HasAll(f, b.items)
  }

  /** Per-respondent dimension score (row mean); an empty item list gives a
      series of NaN. */
  function ScoreSeries(f: Frame<real>, d: Dimension): Option<seq<real>>
    requires f.Valid() && HasAll(f, d.items)
  {
    if |d.items| == 0 then None else Some(RowMeans(DimensionData(f, d), f.nRows))
  }

  /** round(corr(score a, score b), 3), NaN when a score is undefined. */
  function PairCorrelation(f: Frame<real>, a: Dimension, b: Dimension, corr: Corr): (c: Coefficient)
    requires f.Valid() && HasAll(f, a.items) && HasAll(f, b.items)
  {
    match (ScoreSeries(f, a), ScoreSeries(f, b))
    case (Some(x), Some(y)) => Finite(Round3(corr(x, y)))
    case _ => NotFinite
  }

  type Entry = (string, Coefficient)

  /** The entry an eligible ordered pair of dimensions contributes. */
  predicate IsPairEntry(f: Frame<real>, dims: seq<Dimension>, corr: Corr, e: Entry)
    requires f.Valid()
  {
    exists a, b :: a in dims && b in dims && Eligible(f, a, b) &&
                   e == (PairKey(a.name, b.name), PairCorrelation(f, a, b, corr))
  }

  /** The key of some eligible ordered pair of dimensions. */
  predicate IsPairKey(f: Frame<real>, dims: seq<Dimension>, k: string)
  {
    exists a, b :: a in dims && b in dims && Eligible(f, a, b) && k == PairKey(a.name, b.name)
  }

  /** The entries produced for the outer dimension `a`, one per inner
      dimension in order. */
  function EntriesFor(f: Frame<real>, a: Dimension, ds: seq<Dimension>, dims: seq<Dimension>, corr: Corr): (es: seq<Entry>)
    requires f.Valid() && a in dims && forall i :: 0 <= i < |ds| ==> ds[i] in dims
    ensures forall j :: 0 <= j < |es| ==> IsPairEntry(f, dims, corr, es[j])
    ensures forall b :: b in ds && Eligible(f, a, b) ==> PairKey(a.name, b.name) in KeysOf(es)
  {
    if |ds| == 0 then []
    else
      var b := ds[0];
      var rest := EntriesFor(f, a, ds[1..], dims, corr);
      var head := if Eligible(f, a, b) then [(PairKey(a.name, b.name), PairCorrelation(f, a, b, corr))] else [];
      KeysOfConcat(head, rest);
      assert forall b' :: b' in ds ==> b' == b || b' in ds[1..];
      assert b in dims;
      assert Eligible(f, a, b) ==> head[0].0 == PairKey(a.name, b.name) && PairKey(a.name, b.name) in KeysOf(head);
      assert forall j :: 0 <= j < |head| ==> IsPairEntry(f, dims, corr, head[j]);
      assert forall j :: 0 <= j < |head + rest| ==> (head + rest)[j] == if j < |head| then head[j] else rest[j - |head|];
      head + rest
  }

  /** The entries of the nested loop over ordered pairs. */
  function PairEntries(f: Frame<real>, outer: seq<Dimension>, dims: seq<Dimension>, corr: Corr): (es: seq<Entry>)
    requires f.Valid() && forall i :: 0 <= i < |outer| ==> outer[i] in dims
    ensures forall j :: 0 <= j < |es| ==> IsPairEntry(f, dims, corr, es[j])
    ensures forall a, b :: a in outer && b in dims && Eligible(f, a, b) ==> PairKey(a.name, b.name) in KeysOf(es)
  {
    if |outer| == 0 then []
    else
      var head := EntriesFor(f, outer[0], dims, dims, corr);
      var rest := PairEntries(f, outer[1..], dims, corr);
      KeysOfConcat(head, rest);
      assert forall a :: a in outer ==> a == outer[0] || a in outer[1..];
      head + rest
  }

  function KeysOf(es: seq<Entry>): set<string>
  {
    set j | 0 <= j < |es| :: es[j].0
  }

  lemma KeysOfConcat(a: seq<Entry>, b: seq<Entry>)
    ensures KeysOf(a + b) == KeysOf(a) + KeysOf(b)
  {
    forall k | k in KeysOf(a) + KeysOf(b) ensures k in KeysOf(a + b) {
      if k in KeysOf(a) {
        var j :| 0 <= j < |a| && a[j].0 == k;
        assert (a + b)[j] == a[j];
      } else {
        var j :| 0 <= j < |b| && b[j].0 == k;
        assert (a + b)[|a| + j] == b[j];
      }
    }
  }

  /** Assigning the entries in order into a dictionary: a later entry with the
      same key overwrites an earlier one. */
  function ToMap(es: seq<Entry>): (m: map<string, Coefficient>)
    ensures m.Keys == KeysOf(es)
  {
    if |es| == 0 then map[]
    else
      var init := es[..|es| - 1];
      assert es == init + [es[|es| - 1]];
      KeysOfConcat(init, [es[|es| - 1]]);
      ToMap(init)[es[|es| - 1].0 := es[|es| - 1].1]
  }

  /** If every entry with key k carries value v, the dictionary maps k to v. */
  lemma {:induction false} ToMapValue(es: seq<Entry>, k: string, v: Coefficient)
    requires k in KeysOf(es)
    requires forall j :: 0 <= j < |es| && es[j].0 == k ==> es[j].1 == v
    ensures ToMap(es)[k] == v
    decreases |es|
  {
    var init := es[..|es| - 1];
    if es[|es| - 1].0 != k {
      var j :| 0 <= j < |es| && es[j].0 == k;
      assert j < |es| - 1 && init[j] == es[j];
      ToMapValue(init, k, v);
    }
  }

  datatype Discriminant = Discriminant(correlations: map<string, Coefficient>, valid: bool)

  /** Every inter-dimension correlation is a number below 0.85 in magnitude. */
  predicate AllBelow(m: map<string, Coefficient>)
  {
    forall k :: k in m ==> m[k].Finite? && Abs(m[k].value) < 0.85
  }

  function AssessDiscriminantValidity(f: Frame<real>, dims: seq<Dimension>, corr: Corr): (r: Discriminant)
    requires f.Valid()
    ensures forall a, b :: a in dims && b in dims && Eligible(f, a, b) ==> PairKey(a.name, b.name) in r.correlations
    ensures forall k :: k in r.correlations ==> IsPairKey(f, dims, k)
    ensures r.valid <==> AllBelow(r.correlations)
  {
    var es := PairEntries(f, dims, dims, corr);
    var m := ToMap(es);
    forall k | k in m ensures IsPairKey(f, dims, k) {
      var j :| 0 <= j < |es| && es[j].0 == k;
      assert IsPairEntry(f, dims, corr, es[j]);
    }
    Discriminant(m, AllBelow(m))
  }

  predicate UniqueNames(dims: seq<Dimension>)
  {
    forall i, j :: 0 <= i < j < |dims| ==> dims[i].name != dims[j].name
  }

  predicate PlainNames(dims: seq<Dimension>)
  {
    forall i :: 0 <= i < |dims| ==> NoUnderscore(dims[i].name)
  }

  lemma PlainMember(dims: seq<Dimension>, d: Dimension)
    requires PlainNames(dims) && d in dims
    ensures NoUnderscore(d.name)
  {
    var i :| 0 <= i < |dims| && dims[i] == d;
  }

  /** With dictionary keys free of underscores, each ordered pair has its own
      entry holding that pair's rounded correlation. */
  lemma DiscriminantEntry(f: Frame<real>, dims: seq<Dimension>, corr: Corr, a: Dimension, b: Dimension)
    requires f.Valid() && UniqueNames(dims) && PlainNames(dims)
    requires a in dims && b in dims && Eligible(f, a, b)
    ensures AssessDiscriminantValidity(f, dims, corr).correlations[PairKey(a.name, b.name)] == PairCorrelation(f, a, b, corr)
  {
    var es := PairEntries(f, dims, dims, corr);
    var k := PairKey(a.name, b.name);
    forall j | 0 <= j < |es| && es[j].0 == k ensures es[j].1 == PairCorrelation(f, a, b, corr) {
      assert IsPairEntry(f, dims, corr, es[j]);
      var a', b' :| a' in dims && b' in dims && Eligible(f, a', b') &&
                    es[j] == (PairKey(a'.name, b'.name), PairCorrelation(f, a', b', corr));
      SameName(dims, a, a');
      PairKeyInjective(a.name, b.name, a'.name, b'.name);
      SameName(dims, b, b');
    }
    ToMapValue(es, k, PairCorrelation(f, a, b, corr));
  }

  lemma SameName(dims: seq<Dimension>, a: Dimension, a': Dimension)
    requires UniqueNames(dims) && PlainNames(dims) && a in dims && a' in dims
    ensures NoUnderscore(a.name)
    ensures a.name == a'.name ==> a == a'
  {
  }

  /** Both orders of a pair are reported, or neither. */
  lemma DiscriminantSymmetric(f: Frame<real>, dims: seq<Dimension>, corr: Corr, x: string, y: string)
    requires f.Valid() && PlainNames(dims)
    requires PairKey(x, y) in AssessDiscriminantValidity(f, dims, corr).correlations
    ensures PairKey(y, x) in AssessDiscriminantValidity(f, dims, corr).correlations
  {
    assert IsPairKey(f, dims, PairKey(x, y));
    var a, b :| a in dims && b in dims && Eligible(f, a, b) && PairKey(x, y) == PairKey(a.name, b.name);
    PlainMember(dims, a);
    PlainMember(dims, b);
    PairKeySplit(x, y, a.name, b.name);
    assert Eligible(f, b, a);
  }

  /** With fewer than two dimensions nothing is compared and the verdict holds. */
  lemma DiscriminantVacuous(f: Frame<real>, dims: seq<Dimension>, corr: Corr)
    requires f.Valid() && |dims| <= 1
    ensures AssessDiscriminantValidity(f, dims, corr).valid
  {
  }

  // ---------------------------------------------------------------------------
  // Convergent validity and the validity report
  // ---------------------------------------------------------------------------

  datatype ConvergentEntry = ConvergentEntry(dimension: string, ave: real, acceptable: bool)

  datatype Validity = Validity(content: ContentValidity, convergent: seq<ConvergentEntry>, discriminant: Discriminant)

  function DimensionAveOf(f: Frame<real>, d: Dimension, corr: Corr): real
    requires f.Valid() && HasAll(f, d.items)
  {
    DimensionAve(DimensionData(f, d), f.nRows, corr)
  }

  function ConvergentEntries(f: Frame<real>, ds: seq<Dimension>, corr: Corr, aveThreshold: real): (es: seq<ConvergentEntry>)
    requires f.Valid() && AllPresent(f, ds)
    ensures |es| == |ds|
    ensures forall i :: 0 <= i < |ds| ==>
              es[i].dimension == ds[i].name && 0.0 <= es[i].ave <= 1.0 &&
              es[i].ave == Round3(DimensionAveOf(f, ds[i], corr)) &&
              (es[i].acceptable <==> DimensionAveOf(f, ds[i], corr) >= aveThreshold)
  {
    seq(|ds|, i requires 0 <= i < |ds| =>
      var ave := DimensionAveOf(f, ds[i], corr);
      Round3Unit(ave);
      ConvergentEntry(ds[i].name, Round3(ave), ave >= aveThreshold))
  }

  /** Convergent validity: one AVE entry per dimension whose items are all
      present, in dimension order. */
  function ConvergentValidity(f: Frame<real>, dims: seq<Dimension>, corr: Corr, aveThreshold: real): (es: seq<ConvergentEntry>)
    requires f.Valid()
    ensures |es| == |Scored(f, dims)|
    ensures forall i :: 0 <= i < |es| ==>
              es[i].dimension == Scored(f, dims)[i].name &&
              0.0 <= es[i].ave <= 1.0 &&
              es[i].ave == Round3(DimensionAveOf(f, Scored(f, dims)[i], corr)) &&
              (es[i].acceptable <==> DimensionAveOf(f, Scored(f, dims)[i], corr) >= aveThreshold)
  {
    ConvergentEntries(f, Scored(f, dims), corr, aveThreshold)
  }

  /** `assess_validity`. The factor analysis it always runs selects every
      structured item, which fails on a missing one (KeyError), and
      standardises them, which fails with no item or no row (ValueError);
      so a result exists only when every dimension is scored. */
  function AssessValidity(f: Frame<real>, dims: seq<Dimension>, corr: Corr, aveThreshold: real): (r: Result<Validity>)
    requires f.Valid()
    ensures r.Ok? <==> HasAll(f, AllItems(dims)) && |AllItems(dims)| > 0 && f.nRows > 0
    ensures r.Err? ==> (r == Err("KeyError") <==> !HasAll(f, AllItems(dims)))
    ensures r.Err? ==> r == Err("KeyError") || r == Err("ValueError")
    ensures r.Ok? ==> Scored(f, dims) == dims
    ensures r.Ok? ==>
              r.value.content == AssessContentValidity(dims) &&
              r.value.discriminant == AssessDiscriminantValidity(f, dims, corr) &&
              r.value.convergent == ConvergentValidity(f, dims, corr, aveThreshold)
  {
    var items := AllItems(dims);
    if !HasAll(f, items) then Err("KeyError")
    else if |items| == 0 || f.nRows == 0 then Err("ValueError")
    else
      ScoredEverything(f, dims);
      Ok(Validity(AssessContentValidity(dims), ConvergentValidity(f, dims, corr, aveThreshold),
                  AssessDiscriminantValidity(f, dims, corr)))
  }

  /** When every structured item is a column, every dimension is scored. */
  lemma {:induction false} ScoredEverything(f: Frame<real>, dims: seq<Dimension>)
    requires HasAll(f, AllItems(dims))
    ensures Scored(f, dims) == dims
  {
    if |dims| > 0 {
      HasAllConcat(f, dims[0].items, AllItems(dims[1..]));
      ScoredEverything(f, dims[1..]);
    }
  }

  lemma ConvergentEntriesConcat(f: Frame<real>, x: seq<Dimension>, y: seq<Dimension>, corr: Corr, aveThreshold: real)
    requires f.Valid() && AllPresent(f, x) && AllPresent(f, y)
    ensures AllPresent(f, x + y)
    ensures ConvergentEntries(f, x + y, corr, aveThreshold)
              == ConvergentEntries(f, x, corr, aveThreshold) + ConvergentEntries(f, y, corr, aveThreshold)
  {
    var xy := x + y;
    assert forall i :: 0 <= i < |x| ==> xy[i] == x[i];
    assert forall i :: |x| <= i < |xy| ==> xy[i] == y[i - |x|];
  }

  /** Convergent validity is assessed dimension by dimension: the entries
      for a concatenation of dimension lists are the concatenated entries. */
  lemma ConvergentConcat(f: Frame<real>, a: seq<Dimension>, b: seq<Dimension>, corr: Corr, aveThreshold: real)
    requires f.Valid()
    ensures ConvergentValidity(f, a + b, corr, aveThreshold)
              == ConvergentValidity(f, a, corr, aveThreshold) + ConvergentValidity(f, b, corr, aveThreshold)
  {
    ScoredConcat(f, a, b);
    ConvergentEntriesConcat(f, Scored(f, a), Scored(f, b), corr, aveThreshold);
  }

  // ---------------------------------------------------------------------------
  // Dimensionality
  // ---------------------------------------------------------------------------

  /** The KMO measure and Bartlett's test are fixed placeholders in the
      program, as is the number of factors retained. */
  const KmoPlaceholder: real := 0.8
  const BartlettSignificant: bool := true
  const RetainedFactors: nat := 4

  datatype Dimensionality = Dimensionality(kmo: real, significant: bool, recommendedFactors: nat,
                                           theoreticalFactors: nat, adequate: bool)

  /** The factor-analysis verdict: KMO strictly above 0.6 and a significant
      sphericity test. */
  predicate DimensionalityAdequate(kmo: real, significant: bool)
  {
    kmo > 0.6 && significant
  }

  /** Selecting every item of every dimension fails on a missing column. */
  function AssessDimensionality(f: Frame<real>, dims: seq<Dimension>): (r: Result<Dimensionality>)
    ensures r.Err? <==> !HasAll(f, AllItems(dims))
    ensures r.Ok? ==> r.value.theoreticalFactors == |dims| &&
                      (r.value.adequate <==> DimensionalityAdequate(r.value.kmo, r.value.significant))
  {
    if !HasAll(f, AllItems(dims)) then Err("KeyError")
    else Ok(Dimensionality(KmoPlaceholder, BartlettSignificant, RetainedFactors, |dims|,
                           DimensionalityAdequate(KmoPlaceholder, BartlettSignificant)))
  }

  /** With the placeholders, dimensionality is adequate whenever it can be
      assessed at all. */
  lemma DimensionalityAlwaysAdequate(f: Frame<real>, dims: seq<Dimension>)
    requires AssessDimensionality(f, dims).Ok?
    ensures AssessDimensionality(f, dims).value.adequate
  {
  }

  // ---------------------------------------------------------------------------
  // Item analysis
  // ---------------------------------------------------------------------------

  datatype ItemStats = ItemStats(item: string, skewness: real, itemTotal: Option<real>)

  /** The columns other than the one named. */
  function Others(cols: seq<Column<real>>, name: string): (r: seq<Column<real>>)
    ensures |r| <= |cols|
    ensures forall i :: 0 <= i < |r| ==> r[i] in cols && r[i].name != name
    ensures forall i :: 0 <= i < |cols| && cols[i].name != name ==> cols[i] in r
  {
    if |cols| == 0 then []
    else (if cols[0].name != name then [cols[0]] else []) + Others(cols[1..], name)
  }

  /** Rounded skewness and item-total correlation (against the row sums of
      the other items, when there are any). */
  function ItemStatsOf(f: Frame<real>, j: nat, corr: Corr, skew: Skew): (s: ItemStats)
    requires f.Valid() && j < |f.cols|
    ensures s.item == f.cols[j].name
    ensures s.itemTotal.Some? <==> |f.cols| >= 2
  {
    var c := f.cols[j];
    var others := Others(f.cols, c.name);
    assert |f.cols| >= 2 ==> f.cols[if j == 0 then 1 else 0] in others;
    var total := if |others| > 0 then Some(Round3(corr(c.values, RowSums(others, f.nRows)))) else None;
    ItemStats(c.name, Round3(skew(c.values)), total)
  }

  function ItemAnalysis(f: Frame<real>, corr: Corr, skew: Skew): (r: seq<ItemStats>)
    requires f.Valid()
    ensures |r| == |f.cols|
    ensures forall j :: 0 <= j < |r| ==> r[j] == ItemStatsOf(f, j, corr, skew)
  {
    seq(|f.cols|, j requires 0 <= j < |f.cols| => ItemStatsOf(f, j, corr, skew))
  }

  /** The analysis names every column once, so no item is flagged twice. */
  lemma ItemAnalysisProblematicDistinct(f: Frame<real>, corr: Corr, skew: Skew)
    requires f.Valid()
    ensures forall j :: 0 <= j < |f.cols| ==> ItemAnalysis(f, corr, skew)[j].item == f.cols[j].name
    ensures Distinct(ProblematicItems(ItemAnalysis(f, corr, skew)))
  {
    var stats := ItemAnalysis(f, corr, skew);
    assert DistinctItems(stats) by {
      forall a, b | 0 <= a < b < |stats| ensures stats[a].item != stats[b].item {
        assert stats[a].item == f.cols[a].name && stats[b].item == f.cols[b].name;
      }
    }
    ProblematicDistinct(stats);
  }

  /** Low item-total correlation or extreme skewness, on the rounded values. */
  predicate Flagged(s: ItemStats)
  {
    (s.itemTotal.Some? && s.itemTotal.value < 0.3) || Abs(s.skewness) > 2.0
  }

  function ProblematicItems(stats: seq<ItemStats>): (r: seq<string>)
    ensures |r| <= |stats|
    ensures forall x :: x in r <==> exists i :: 0 <= i < |stats| && stats[i].item == x && Flagged(stats[i])
  {
    if |stats| == 0 then []
    else
      var rest := ProblematicItems(stats[1..]);
      assert forall i :: 1 <= i < |stats| ==> stats[1..][i - 1] == stats[i];
      (if Flagged(stats[0]) then [stats[0].item] else []) + rest
  }

  /** Items are reported in column order: the report of a concatenation is
      the concatenation of the reports. */
  lemma {:induction false} ProblematicConcat(a: seq<ItemStats>, b: seq<ItemStats>)
    ensures ProblematicItems(a + b) == ProblematicItems(a) + ProblematicItems(b)
    decreases |a|
  {
    if |a| == 0 {
      assert a + b == b;
    } else {
      var head := if Flagged(a[0]) then [a[0].item] else [];
      assert (a + b)[0] == a[0];
      assert (a + b)[1..] == a[1..] + b;
      assert ProblematicItems(a + b) == head + ProblematicItems(a[1..] + b);
      assert ProblematicItems(a) == head + ProblematicItems(a[1..]);
      ProblematicConcat(a[1..], b);
    }
  }

  predicate DistinctItems(stats: seq<ItemStats>)
  {
    forall i, j :: 0 <= i < j < |stats| ==> stats[i].item != stats[j].item
  }

  predicate Distinct(xs: seq<string>)
  {
    forall i, j :: 0 <= i < j < |xs| ==> xs[i] != xs[j]
  }

  /** Each item is listed at most once. */
  lemma {:induction false} ProblematicDistinct(stats: seq<ItemStats>)
    requires DistinctItems(stats)
    ensures Distinct(ProblematicItems(stats))
    decreases |stats|
  {
    if |stats| > 0 {
      var rest := stats[1..];
      assert DistinctItems(rest) by {
        forall i, j | 0 <= i < j < |rest| ensures rest[i].item != rest[j].item {
          assert rest[i] == stats[i + 1] && rest[j] == stats[j + 1];
        }
      }
      ProblematicDistinct(rest);
      if Flagged(stats[0]) {
        var r := ProblematicItems(stats);
        var tail := ProblematicItems(rest);
        assert r == [stats[0].item] + tail;
        forall i | 0 <= i < |tail| ensures tail[i] != stats[0].item {
          assert tail[i] in tail;
          var j :| 0 <= j < |rest| && rest[j].item == tail[i] && Flagged(rest[j]);
          assert rest[j] == stats[j + 1];
        }
      }
    }
  }

  // ---------------------------------------------------------------------------
  // Recommendations and the full run
  // ---------------------------------------------------------------------------

  datatype Recommendation =
    | ImproveReliability
    | ImproveConvergentValidity(dimension: string)
    | IncreaseSampleSize(minimum: nat)
    | ReviewStructure

  /** The position of a recommendation's kind in the report: reliability,
      then convergent validity, then sample size, then structure. */
  function Stage(rec: Recommendation): nat
  {
    match rec
    case ImproveReliability => 0
    case ImproveConvergentValidity(_) => 1
    case IncreaseSampleSize(_) => 2
    case ReviewStructure => 3
  }

  function Unacceptable(e: ConvergentEntry): bool
  {
    !e.acceptable
  }

  /** One recommendation per dimension whose AVE is not acceptable, in the
      order of the entries. */
  function ConvergentRecommendations(entries: seq<ConvergentEntry>): (r: seq<Recommendation>)
    ensures |r| == CountIf(entries, Unacceptable)
    ensures forall i :: 0 <= i < |r| ==> r[i].ImproveConvergentValidity?
    ensures forall d :: ImproveConvergentValidity(d) in r <==>
              exists i :: 0 <= i < |entries| && entries[i].dimension == d && !entries[i].acceptable
  {
    if |entries| == 0 then []
    else
      var rest := ConvergentRecommendations(entries[1..]);
      assert forall i :: 1 <= i < |entries| ==> entries[1..][i - 1] == entries[i];
      (if !entries[0].acceptable then [ImproveConvergentValidity(entries[0].dimension)] else []) + rest
  }

  /** The convergent recommendations follow the order of the entries. */
  lemma {:induction false} ConvergentRecommendationsConcat(a: seq<ConvergentEntry>, b: seq<ConvergentEntry>)
    ensures ConvergentRecommendations(a + b) == ConvergentRecommendations(a) + ConvergentRecommendations(b)
    decreases |a|
  {
    if |a| == 0 {
      assert a + b == b;
    } else {
      var head := if !a[0].acceptable then [ImproveConvergentValidity(a[0].dimension)] else [];
      assert (a + b)[0] == a[0];
      assert (a + b)[1..] == a[1..] + b;
      calc {
        ConvergentRecommendations(a + b);
        head + ConvergentRecommendations(a[1..] + b);
        { ConvergentRecommendationsConcat(a[1..], b); }
        head + (ConvergentRecommendations(a[1..]) + ConvergentRecommendations(b));
        (head + ConvergentRecommendations(a[1..])) + ConvergentRecommendations(b);
        ConvergentRecommendations(a) + ConvergentRecommendations(b);
      }
    }
  }

  /** The recommendations of `run_full_validation`: reliability when the
      overall verdict fails, one per dimension with an unacceptable AVE,
      sample size when the 10:1 rule fails, structure when the factor
      analysis is not adequate, in that order. */
  function Recommendations(overall: bool, convergent: seq<ConvergentEntry>, sample: Adequacy,
                           dimensionalityAdequate: bool): (r: seq<Recommendation>)
    ensures ImproveReliability in r <==> !overall
    ensures !overall ==> r[0] == ImproveReliability
    ensures forall d :: ImproveConvergentValidity(d) in r <==>
              exists i :: 0 <= i < |convergent| && convergent[i].dimension == d && !convergent[i].acceptable
    ensures forall m :: IncreaseSampleSize(m) in r <==> !sample.tenToOne && m == sample.recommendedMinimum
    ensures ReviewStructure in r <==> !dimensionalityAdequate
    ensures !dimensionalityAdequate ==> r[|r| - 1] == ReviewStructure
    ensures |r| == (if overall then 0 else 1) + CountIf(convergent, Unacceptable)
                   + (if sample.tenToOne then 0 else 1) + (if dimensionalityAdequate then 0 else 1)
    ensures forall i, j :: 0 <= i < j < |r| ==> Stage(r[i]) <= Stage(r[j])
  {
    var conv := ConvergentRecommendations(convergent);
    (if !overall then [ImproveReliability] else []) + conv
    + (if !sample.tenToOne then [IncreaseSampleSize(sample.recommendedMinimum)] else [])
    + (if !dimensionalityAdequate then [ReviewStructure] else [])
  }

  /** The second block of a four-way join. */
  lemma SecondOfFour(a: seq<Recommendation>, b: seq<Recommendation>, c: seq<Recommendation>, d: seq<Recommendation>)
    ensures (a + b + c + d)[|a|..|a| + |b|] == b
  {
  }

  /** Right after the reliability recommendation (when there is one) come
      exactly the convergent recommendations, in the order of the entries. */
  lemma RecommendationsConvergentBlock(overall: bool, convergent: seq<ConvergentEntry>, sample: Adequacy,
                                       dimensionalityAdequate: bool)
    ensures var r := Recommendations(overall, convergent, sample, dimensionalityAdequate);
            var start := if overall then 0 else 1;
            start + CountIf(convergent, Unacceptable) <= |r| &&
            r[start..start + CountIf(convergent, Unacceptable)] == ConvergentRecommendations(convergent)
  {
    SecondOfFour(if !overall then [ImproveReliability] else [], ConvergentRecommendations(convergent),
                 if !sample.tenToOne then [IncreaseSampleSize(sample.recommendedMinimum)] else [],
                 if !dimensionalityAdequate then [ReviewStructure] else []);
  }

  /** The text of each recommendation. */
  function Message(rec: Recommendation, show: nat -> string): string
  {
    match rec
    case ImproveReliability => "Improve reliability by adding items or refining existing ones"
    case ImproveConvergentValidity(d) => "Improve convergent validity for dimension: " + d
    case IncreaseSampleSize(m) => "Increase sample size to at least " + show(m) + " responses"
    case ReviewStructure => "Review dimension structure based on factor analysis"
  }

  datatype ValidationReport = ValidationReport(reliability: Reliability, validity: Validity,
                                               dimensionality: Dimensionality, items: seq<ItemStats>,
                                               problematic: seq<string>, sample: Adequacy,
                                               recommendations: seq<Recommendation>)

  /** The whole protocol. It fails on a missing item (KeyError), and when
      the factor analysis has no item or no row to standardise. */
  function RunFullValidation(f: Frame<real>, dims: seq<Dimension>, corr: Corr, skew: Skew,
                             alphaThreshold: real, aveThreshold: real): (r: Result<ValidationReport>)
    requires f.Valid()
    ensures r.Ok? <==> HasAll(f, AllItems(dims)) && |AllItems(dims)| > 0 && f.nRows > 0
    ensures r.Ok? ==>
              r.value.reliability == AssessReliability(f, dims, corr, alphaThreshold) &&
              AssessValidity(f, dims, corr, aveThreshold) == Ok(r.value.validity) &&
              AssessDimensionality(f, dims) == Ok(r.value.dimensionality) &&
              r.value.items == ItemAnalysis(f, corr, skew) &&
              r.value.problematic == ProblematicItems(r.value.items) &&
              AssessSampleAdequacy(f) == Ok(r.value.sample)
    ensures r.Ok? ==> r.value.recommendations == Recommendations(
              r.value.reliability.overall, r.value.validity.convergent, r.value.sample, true)
  {
    var items := AllItems(dims);
    if !HasAll(f, items) then Err("KeyError")
    else if |items| == 0 || f.nRows == 0 then Err("ValueError")
    else
      assert Has(f, items[0]);
      var reliability := AssessReliability(f, dims, corr, alphaThreshold);
      var validity := AssessValidity(f, dims, corr, aveThreshold).value;
      var dimensionality := AssessDimensionality(f, dims).value;
      var stats := ItemAnalysis(f, corr, skew);
      var sample := AssessSampleAdequacy(f).value;
      var recs := Recommendations(reliability.overall, validity.convergent, sample, dimensionality.adequate);
      Ok(ValidationReport(reliability, validity, dimensionality, stats, ProblematicItems(stats), sample, recs))
  }

  /** A validation run recommends nothing exactly when the rounded
      reliability verdict holds, every scored dimension has an acceptable
      AVE and the sample meets the 10:1 rule. */
  lemma CleanRunIff(f: Frame<real>, dims: seq<Dimension>, corr: Corr, skew: Skew,
                    alphaThreshold: real, aveThreshold: real)
    requires f.Valid()
    requires RunFullValidation(f, dims, corr, skew, alphaThreshold, aveThreshold).Ok?
    ensures var v := RunFullValidation(f, dims, corr, skew, alphaThreshold, aveThreshold).value;
            v.recommendations == [] <==>
              v.reliability.overall &&
              (forall i :: 0 <= i < |v.validity.convergent| ==> v.validity.convergent[i].acceptable) &&
              v.sample.tenToOne
  {
    var v := RunFullValidation(f, dims, corr, skew, alphaThreshold, aveThreshold).value;
    assert v.recommendations == Recommendations(v.reliability.overall, v.validity.convergent, v.sample, true);
    NoRecommendationsIff(v.reliability.overall, v.validity.convergent, v.sample);
  }

  /** With an adequate structure, nothing is recommended exactly when every
      other verdict passes. */
  lemma NoRecommendationsIff(overall: bool, convergent: seq<ConvergentEntry>, sample: Adequacy)
    ensures Recommendations(overall, convergent, sample, true) == [] <==>
              overall && (forall i :: 0 <= i < |convergent| ==> convergent[i].acceptable) && sample.tenToOne
  {
    CountNone(convergent, Unacceptable);
  }
}

=== FILE: versions.dfy ===
/** The product tiers: their configurations, feature access, upgrade paths
    and the feature comparison table. */
module Versions {
  import opened Text
  import opened Frames

  datatype Tier = Freemium | Premium | Enterprise

  datatype VersionConfig = VersionConfig(
    name: string, maxRespondents: nat, features: seq<string>,
    price: string, supportLevel: string, retentionDays: nat)

  /** The tiers in the order of the configuration dictionary. */
  const Tiers: seq<Tier> := [Freemium, Premium, Enterprise]

  /** The dictionary key of a tier. */
  function Key(t: Tier): string
  {
    match t
    case Freemium => "freemium"
    case Premium => "premium"
    case Enterprise => "enterprise"
  }

  function ConfigOf(t: Tier): VersionConfig
  {
    match t
    case Freemium =>
      VersionConfig("Freemium", 100,
        ["Basic assessment", "Simple dashboard", "PDF report", "Email support", "Basic analytics"],
        "Free", "Community", 90)
    case Premium =>
      VersionConfig("Premium", 10000,
        ["Full assessment", "Advanced dashboard", "Custom reports", "Priority support",
         "Advanced analytics", "Multi-site comparison", "Benchmarking", "API access",
         "White-label options", "Custom branding"],
        "Contact sales", "Dedicated", 365)
    case Enterprise =>
      VersionConfig("Enterprise", 100000,
        ["Unlimited assessment", "Custom framework", "On-premise deployment", "24/7 support",
         "Advanced AI insights", "Custom integrations", "Dedicated account manager",
         "Training programs", "Compliance consulting"],
        "Custom pricing", "Enterprise", 2555)
  }

  /** `versions.get(key)`. */
  function TierOfKey(key: string): (r: Option<Tier>)
    ensures forall t :: r == Some(t) <==> key == Key(t)
  {
    if key == "freemium" then Some(Freemium)
    else if key == "premium" then Some(Premium)
    else if key == "enterprise" then Some(Enterprise)
    else None
  }

  /** `get_version_config`: the name is lower-cased before the lookup and an
      unknown name falls back to freemium. */
  function GetVersionConfig(version: string): (c: VersionConfig)
    ensures forall t :: Lower(version) == Key(t) ==> c == ConfigOf(t)
    ensures (forall t :: Lower(version) != Key(t)) ==> c == ConfigOf(Freemium)
  {
    match TierOfKey(Lower(version))
    case Some(t) => ConfigOf(t)
    case None => ConfigOf(Freemium)
  }

  /** The resolved tier is insensitive to letter case. */
  lemma ConfigIgnoresCase(version: string)
    ensures GetVersionConfig(version) == GetVersionConfig(Lower(version))
  {
    LowerIdempotent(version);
  }

  /** `check_feature_access`. */
  function CheckFeatureAccess(version: string, feature: string): (r: bool)
    ensures forall t :: Lower(version) == Key(t) ==> (r <==> feature in ConfigOf(t).features)
    ensures (forall t :: Lower(version) != Key(t)) ==> (r <==> feature in ConfigOf(Freemium).features)
  {
    feature in GetVersionConfig(version).features
  }

  /** The dictionary keys are already lower case. */
  lemma KeyIsLower(t: Tier)
    ensures Lower(Key(t)) == Key(t)
  {
  }

  /** A tier does not include the features of the tiers below it: premium
      has API access and enterprise does not. */
  lemma TiersAreNotNested()
    ensures CheckFeatureAccess("premium", "API access")
    ensures !CheckFeatureAccess("enterprise", "API access")
  {
    KeyIsLower(Premium);
    KeyIsLower(Enterprise);
    assert ConfigOf(Premium).features[7] == "API access";
    ApiAccessNotEnterprise();
  }

  lemma ApiAccessNotEnterprise()
    ensures "API access" !in ConfigOf(Enterprise).features
  {
  }

  /** An unknown version name is served the freemium features. */
  lemma UnknownVersionIsFreemium(version: string, feature: string)
    requires TierOfKey(Lower(version)).None?
    ensures CheckFeatureAccess(version, feature) == CheckFeatureAccess("freemium", feature)
  {
    assert Lower("freemium") == Key(Freemium);
  }

  /** Each tier admits more respondents than the one below. */
  lemma RespondentLimitsIncrease()
    ensures ConfigOf(Freemium).maxRespondents < ConfigOf(Premium).maxRespondents
              < ConfigOf(Enterprise).maxRespondents
  {
  }

  // ---------------------------------------------------------------------------
  // Upgrade paths
  // ---------------------------------------------------------------------------

  datatype Upgrade = Upgrade(next: string, reason: string, benefits: seq<string>)

  /** `get_upgrade_path`: an exact-key lookup without lower-casing; `None`
      stands for the empty dictionary. */
  function GetUpgradePath(current: string): (r: Option<Upgrade>)
    ensures r.Some? <==> current == Key(Freemium) || current == Key(Premium)
    ensures r.Some? ==> exists t :: current == Key(t) && TierOfKey(r.value.next).Some?
                                   && ConfigOf(t).maxRespondents < ConfigOf(TierOfKey(r.value.next).value).maxRespondents
    ensures current == Key(Freemium) ==> r.Some? && r.value.next == Key(Premium)
    ensures current == Key(Premium) ==> r.Some? && r.value.next == Key(Enterprise)
  {
    if current == "freemium" then
      assert current == Key(Freemium);
      Some(Upgrade("premium", "Need more respondents and advanced features",
                   ["Up to 10,000 respondents", "Advanced analytics", "Multi-site comparison", "Priority support"]))
    else if current == "premium" then
      assert current == Key(Premium);
      Some(Upgrade("enterprise", "Need unlimited scale and custom solutions",
                   ["Unlimited respondents", "Custom framework", "On-premise deployment", "24/7 support"]))
    else None
  }

  /** An upgrade leads to the smallest tier that admits more respondents:
      no tier lies strictly between the current one and the next. */
  lemma UpgradeIsNextTierUp(t: Tier, u: Tier)
    requires GetUpgradePath(Key(t)).Some?
    requires ConfigOf(t).maxRespondents < ConfigOf(u).maxRespondents
    ensures TierOfKey(GetUpgradePath(Key(t)).value.next).Some?
    ensures ConfigOf(TierOfKey(GetUpgradePath(Key(t)).value.next).value).maxRespondents <= ConfigOf(u).maxRespondents
  {
    var next := TierOfKey(GetUpgradePath(Key(t)).value.next);
    if t == Freemium {
      assert next == Some(Premium);
    } else {
      assert next == Some(Enterprise);
    }
  }

  /** Enterprise has no upgrade, and a differently cased name finds none
      although the configuration lookup accepts it. */
  lemma UpgradeIsCaseSensitive()
    ensures GetUpgradePath("enterprise").None?
    ensures GetUpgradePath("Freemium").None?
    ensures GetVersionConfig("Freemium") == ConfigOf(Freemium)
  {
    assert Lower("Freemium") == Key(Freemium);
  }

  /** Every benefit after the first is a feature of the next tier. */
  lemma BenefitsAreFeaturesOfNextTier(current: string)
    requires GetUpgradePath(current).Some?
    ensures var u := GetUpgradePath(current).value;
            forall i :: 1 <= i < |u.benefits| ==> u.benefits[i] in ConfigOf(TierOfKey(u.next).value).features
  {
    var u := GetUpgradePath(current).value;
    if current == "freemium" {
      assert TierOfKey(u.next) == Some(Premium);
      assert ConfigOf(Premium).features[4] == u.benefits[1];
      assert ConfigOf(Premium).features[5] == u.benefits[2];
      assert ConfigOf(Premium).features[3] == u.benefits[3];
    } else {
      assert TierOfKey(u.next) == Some(Enterprise);
      assert ConfigOf(Enterprise).features[1] == u.benefits[1];
      assert ConfigOf(Enterprise).features[2] == u.benefits[2];
      assert ConfigOf(Enterprise).features[3] == u.benefits[3];
    }
  }

  // ---------------------------------------------------------------------------
  // Feature comparison
  // ---------------------------------------------------------------------------

  const RespondentsColumn: string := "Max respondents"

  const ComparedFeatures: seq<string> :=
    ["Basic assessment", "Advanced assessment", "Custom framework", RespondentsColumn,
     "Multi-site", "Benchmarking", "API access", "Custom reports", "White-label",
     "Priority support", "24/7 support"]

  /** A table cell: the respondent limit, or a tick or a cross. */
  datatype Cell = Count(n: nat) | Mark(available: bool)

  datatype ComparisonRow = ComparisonRow(tier: string, cells: seq<(string, Cell)>)

  /** `version_name.capitalize()` of the three keys. */
  function Label(t: Tier): string
  {
    match t
    case Freemium => "Freemium"
    case Premium => "Premium"
    case Enterprise => "Enterprise"
  }

  function CellOf(t: Tier, feature: string): Cell
  {
    if feature == RespondentsColumn then Count(ConfigOf(t).maxRespondents)
    else Mark(feature in ConfigOf(t).features)
  }

  /** `generate_feature_comparison`. */
  function FeatureComparison(): (rows: seq<ComparisonRow>)
    ensures |rows| == |Tiers|
    ensures forall i :: 0 <= i < |rows| ==> rows[i].tier == Label(Tiers[i]) && |rows[i].cells| == |ComparedFeatures|
    ensures forall i, j :: 0 <= i < |rows| && 0 <= j < |ComparedFeatures| ==>
              rows[i].cells[j].0 == ComparedFeatures[j]
              && (ComparedFeatures[j] == RespondentsColumn ==> rows[i].cells[j].1 == Count(ConfigOf(Tiers[i]).maxRespondents))
              && (ComparedFeatures[j] != RespondentsColumn ==>
                    rows[i].cells[j].1 == Mark(CheckFeatureAccess(Key(Tiers[i]), ComparedFeatures[j])))
  {
    assert forall t :: Lower(Key(t)) == Key(t);
    seq(|Tiers|, i requires 0 <= i < |Tiers| =>
      ComparisonRow(Label(Tiers[i]),
        seq(|ComparedFeatures|, j requires 0 <= j < |ComparedFeatures| =>
          (ComparedFeatures[j], CellOf(Tiers[i], ComparedFeatures[j])))))
  }

  /** Three compared names match no configured feature, so their column is a
      cross in every row. */
  lemma NeverTickedColumns()
    ensures forall i :: 0 <= i < |FeatureComparison()| ==>
              FeatureComparison()[i].cells[1].1 == Mark(false)
              && FeatureComparison()[i].cells[4].1 == Mark(false)
              && FeatureComparison()[i].cells[8].1 == Mark(false)
  {
    var rows := FeatureComparison();
    forall i | 0 <= i < |rows|
      ensures rows[i].cells[1].1 == Mark(false)
      ensures rows[i].cells[4].1 == Mark(false)
      ensures rows[i].cells[8].1 == Mark(false)
    {
      var t := Tiers[i];
      KeyIsLower(t);
      UnlistedFeature(t, "Advanced assessment");
      UnlistedFeature(t, "Multi-site");
      UnlistedFeature(t, "White-label");
    }
  }

  /** No tier lists the three names verbatim: premium says "Multi-site
      comparison" and "White-label options". */
  lemma UnlistedFeature(t: Tier, feature: string)
    requires feature == "Advanced assessment" || feature == "Multi-site" || feature == "White-label"
    ensures feature !in ConfigOf(t).features
  {
    match t
    case Freemium =>
    case Premium =>
    case Enterprise =>
  }
}
